=== FILE: README.md ===
# imagegopher core, modelled in Dafny

imagegopher catalogues image libraries. An image watcher and a gatherer
service walk library roots ("base paths"), keep the image files they find,
and record them in an SQLite catalog. The burrow service registers base
paths and edits configuration items. All services share an event bus, a
thin SQLite wrapper and a layered configuration reader.

This project models the data-in / data-out core of those services as
immutable datatypes and pure functions. The filesystem, the SQL engine,
the clock, digests, image decoding and floating-point parsing are
function-typed parameters (oracles). The modules follow the source layout:

- `Events`, `EventManager` and `EventHandler`: the event bus.
  - `Events` holds what the three revisions share.
  - `EventManager` is the asynchronous revision. It pops the head, then runs the callback.
  - `EventHandler` covers the two synchronous revisions, list-backed and deque-backed. They run the callback, then pop.
- `ServiceHealth`: the degradation enumerations and the `StateObject` record.
- `SqliteInterface`: header validation, result shaping and error translation of the SQLite wrapper.
- `WatcherDatabase`: the image watcher's "safe" query wrappers. Each one latches database health to FULLY_DEGRADED on failure.
- `Catalog`: the shared database layer (`base_path`, `file_hash`, `config_item`).
- `GathererDatabase`: the gatherer's database layer.
- `BurrowDatabase`: the burrow's database layer.
- `Scanning`, `ImageGathering` and `FileGathering`: the directory scanners.
- `GatherProcessing`: construction of the gather process.
- `GathererService`: the gatherer's polling timers.
- `ConfigSetup`, `Config` and `ConfigExamples`: the configuration layout, its resolution and the unit-test scenarios.
- `Wrappers` and `Text`: `Option`/`Result`, ASCII case mapping and the decimal integer codec.

The two synchronous `EventHandler` revisions
(`imagegopher/shared/events/event_handler.py` and
`imagegopher/shared/event_handler/event_handler.py`) behave the same on
every input. They share one model. Registering, queueing and clearing are
line-for-line the same in all three bus revisions, so `Events` states them
once.

## Model

| member | source | states |
|---|---|---|
| Events.NewBus | imagegopher/shared/event_manager/event_manager.py:64-70 | a new bus has no callbacks and an empty queue |
| Events.RegisterEvent | imagegopher/shared/event_manager/event_manager.py:138-152 | fails with the duplicate-id error iff the id is already bound; otherwise binds the id to the callback, keeps every other binding and leaves the queue alone |
| Events.RegisterTwiceFails | imagegopher/shared/events/event_handler.py:46-55 | after a successful registration, registering the same id again fails whatever the second callback |
| Events.QueueEvent | imagegopher/shared/event_manager/event_manager.py:83-102 | answers true iff the id has a callback; then the event is appended at the tail; otherwise nothing changes |
| Events.QueueEvents | imagegopher/shared/event_handler/event_handler.py:32-42 | a run of queue calls appends exactly the registered events, in order, and never changes the handler table |
| Events.RegisteredOnlyKnown | imagegopher/shared/events/event_handler.py:37-44 | every event a run of queue calls admits has a registered id |
| Events.DeleteAllEvents | imagegopher/shared/event_handler/event_handler.py:73-74 | the queue becomes empty and the handler table is unchanged |
| EventManager.ProcessNextEvent | imagegopher/shared/event_manager/event_manager.py:154-178 | empty queue: no change; unknown head: dropped with no callback; known head: removed before its callback runs, then the callback's registered events are appended, and the outcome says whether it raised |
| EventManager.UnknownEventIgnoresCallbacks | imagegopher/shared/event_manager/event_manager.py:170-173 | a head without a callback is dropped and the outcome does not depend on any callback |
| EventManager.FailingCallbackStillLosesHead | imagegopher/shared/event_manager/event_manager.py:164-178 | a raising callback that queued nothing leaves the queue one shorter |
| EventManager.ProcessAllEvents | imagegopher/shared/event_manager/event_manager.py:187-197 | ends drained with an empty queue, after a raising callback, or with events left when the round bound runs out; at most one event is handled per round and each had a callback; the run ends on a raise iff the last handled callback raised, and no earlier one did; handlers never change |
| EventManager.DrainIsFifo | imagegopher/shared/event_manager/event_manager.py:187-197 | the events handled begin with the registered events of the starting queue, in queue order, for as far as the run got; a drained run has handled all of them before anything a callback queued |
| EventManager.QuietDrainIsFifo | imagegopher/shared/event_manager/event_manager.py:187-197 | with quiet callbacks, enough rounds drain the queue and hand every registered event to its callback once, in queue order |
| EventManager.TwoEventsHandledInOrder | imagegopher/shared/event_manager/event_manager.py:95-102 | two events queued A then B are handled A then B |
| EventManager.FollowUpEventIsProcessed | imagegopher/shared/event_manager/event_manager.py:191-197 | an event a callback queues during the loop is processed by the same loop |
| EventHandler.ProcessNextEvent | imagegopher/shared/events/event_handler.py:57-83 | empty queue: no change; unknown head: removed; known head: the callback runs first and the head is removed only if it returns, so a raising callback leaves the head in place |
| EventHandler.FailingCallbackKeepsHead | imagegopher/shared/event_handler/event_handler.py:64-71 | a raising callback leaves its event at the head and the queue no shorter |
| EventHandler.RevisionsDifferOnlyOnFailure | imagegopher/shared/event_handler/event_handler.py:50-71 | the synchronous and asynchronous revisions give the same outcome on every input and the same state unless the callback raises; then the asynchronous queue lacks exactly the head |
| ServiceHealth.StatusValuesExact | imagegopher/image_watcher/service_health_enum.py:23-33 | HEALTHY=0, DEGRADED=1, CRITICAL=2; no other value names a member |
| ServiceHealth.StatusStrInjective | imagegopher/image_watcher/service_health_enum.py:36-40 | distinct statuses have distinct strings |
| ServiceHealth.StatusConstants | imagegopher/image_watcher/service_health_enum.py:42-47 | the exported status constants are "healthy", "degraded" and "critical" |
| ServiceHealth.LevelValuesExact | imagegopher/image_watcher/service_health_enum.py:50-55 | NONE=0, PART_DEGRADED=1, FULLY_DEGRADED=2; no other value names a member |
| ServiceHealth.LevelFromStr | imagegopher/image_watcher/service_health_enum.py:58-62 | a string read back as a level is that level's string |
| ServiceHealth.LevelStrRoundTrip | imagegopher/image_watcher/service_health_enum.py:58-62 | every level's string reads back as that level, so the map is injective |
| ServiceHealth.LevelConstants | imagegopher/image_watcher/service_health_enum.py:64-69 | the exported level constants are "none", "partial" and "fully_degraded" |
| ServiceHealth.TruncateToInt | imagegopher/image_watcher/state_object.py:49 | int() truncates toward zero |
| ServiceHealth.NewStateObject | imagegopher/image_watcher/state_object.py:44-49 | both health levels start at NONE, the strings and version are empty, and the startup time is the whole-second part of the clock |
| SqliteInterface.HeaderSpellsFormatName | imagegopher/shared/base_sqlite_interface.py:44 | the expected header is the 16 bytes "SQLite format 3" followed by a zero byte |
| SqliteInterface.IsValidDatabase | imagegopher/shared/base_sqlite_interface.py:56-67 | true iff the file opens and its first 16 bytes equal the header; false when opening fails |
| SqliteInterface.EnsureValid | imagegopher/shared/base_sqlite_interface.py:69-82 | a missing file is reported before the header is checked; a bad header is reported otherwise |
| SqliteInterface.RunQuery | imagegopher/shared/base_sqlite_interface.py:124-164 | validation first; an engine error becomes the interface error; commit gives the affected-row count, fetch-one gives the first row or the empty tuple, otherwise all rows for a result set and None without one |
| SqliteInterface.CommitTakesPrecedence | imagegopher/shared/base_sqlite_interface.py:151-157 | with commit set, fetch-one makes no difference |
| SqliteInterface.InsertQuery | imagegopher/shared/base_sqlite_interface.py:166-188 | the new row id on success; validation and engine errors become the interface error |
| SqliteInterface.BulkInsertQuery | imagegopher/shared/base_sqlite_interface.py:190-213 | an invalid file gives the validation error before the engine is reached; true when the whole batch runs; an engine error becomes "Bulk insert query failed: …"; never false |
| SqliteInterface.DeleteQuery | imagegopher/shared/base_sqlite_interface.py:215-234 | no error on success; validation and engine errors become the interface error |
| SqliteInterface.CreateTable | imagegopher/shared/base_sqlite_interface.py:105-122 | runs without validating the file; only engine errors are reported |
| SqliteInterface.ValidationGuardsQueries | imagegopher/shared/base_sqlite_interface.py:84-103 | on an invalid file every query, insert, bulk insert and delete fails with that file's validation error before the engine is reached, while table creation still reaches it |
| WatcherDatabase.Degrade | imagegopher/image_watcher/database_layer.py:210-214 | the failure branch sets database health to FULLY_DEGRADED with "Fatal SQL failure" and touches no other field |
| WatcherDatabase.SafeQuery | imagegopher/image_watcher/database_layer.py:183-214 | on success returns the query's result with the state untouched; on failure returns None with the state degraded |
| WatcherDatabase.NoneSentinelIsAmbiguous | imagegopher/image_watcher/database_layer.py:204-214 | a successful uncommitted statement without a result set also yields None, with health untouched |
| WatcherDatabase.SafeInsertQuery | imagegopher/image_watcher/database_layer.py:216-242 | the row id iff the insert succeeds, with the state untouched; None with the state degraded otherwise |
| WatcherDatabase.SafeBulkInsert | imagegopher/image_watcher/database_layer.py:244-271 | true iff the bulk insert succeeds, with the state untouched; false with the state degraded otherwise |
| WatcherDatabase.GetBasePathId | imagegopher/image_watcher/database_layer.py:108-129 | None iff the lookup fails, 0 iff it fetched an empty row, otherwise the fetched row itself |
| WatcherDatabase.AddBasePath | imagegopher/image_watcher/database_layer.py:54-79 | a failed lookup answers None and degrades health; a lookup without a row answers 0 with nothing inserted and health untouched; the insert is issued iff the lookup found a row, and then the call answers the insert's row id with health untouched, or None with health degraded when the insert fails |
| WatcherDatabase.AddBasePathIntended | imagegopher/image_watcher/database_layer.py:61-67 | a failed lookup answers None and degrades health; a found path answers 0 with nothing inserted and health untouched; the insert is issued iff no row was found, and then the call answers its row id with health untouched, or None with health degraded when it fails |
| WatcherDatabase.AddBasePathCheckIsInverted | imagegopher/image_watcher/database_layer.py:59-79 | without `/photos` the method answers 0 and inserts nothing; with `/photos` stored its insert is refused by the unique path, so it answers None and degrades health; the corrected version inserts the absent path (row id 7) and answers 0 for the stored one with health untouched |
| WatcherDatabase.FileEntryParamsRoundTrip | imagegopher/image_watcher/database_layer.py:93-97 | the five bound values read back as the same entry, field by field |
| WatcherDatabase.AddFileEntry | imagegopher/image_watcher/database_layer.py:81-106 | exactly one insert, of the entry's five values in tuple order; the insert's row id with health untouched iff it succeeds, otherwise None with health degraded |
| WatcherDatabase.GetBasePaths | imagegopher/image_watcher/database_layer.py:131-152 | only the select is issued; a select with a result set gives all its rows with health untouched; an invalid file or an engine failure gives None with health degraded |
| WatcherDatabase.GetFileEntriesForDirectory | imagegopher/image_watcher/database_layer.py:154-181 | only the join, bound to the base path and subdirectory, is issued; its rows with health untouched; None with health untouched when no result set comes back; None with health degraded on failure |
| WatcherDatabase.DegradationIsNeverCleared | imagegopher/image_watcher/database_layer.py:207-271 | over any run of calls database health stays as it was or ends FULLY_DEGRADED, once degraded stays so, and no service-level field changes |
| Catalog.EntryOrderIgnoresPath | imagegopher/shared/database_layer.py:42-43 | entries are ordered by row id alone: irreflexive, transitive, equal ids incomparable, paths irrelevant |
| Catalog.ValidBasePath | imagegopher/shared/database_layer.py:54-67 | true iff some row holds the path; false when the select fails |
| Catalog.SetConfig | imagegopher/shared/database_layer.py:231-243 | every row with the key gets the value; other rows and all keys are unchanged |
| Catalog.ConfigValue | imagegopher/shared/database_layer.py:88-98 | None iff no row has the key; otherwise the value of the first row with the key |
| Catalog.SetThenGet | imagegopher/shared/database_layer.py:100-128 | reading a written key gives the written value when the key exists; other keys read as before |
| Catalog.UpdateLibraryHash | imagegopher/shared/database_layer.py:245-261 | true iff the update runs; then the library hash is the digest of the clock's decimal text; nothing else changes |
| Catalog.AddBasePath | imagegopher/shared/database_layer.py:69-83 | raises iff the existence check finds the path, writing nothing; otherwise answers false with nothing changed iff the insert is refused, because it fails or because `UNIQUE(path)` rejects a stored path the failed check missed; otherwise appends the new path under a fresh row id, refreshes the library hash if it can, and answers true either way |
| Catalog.AddBasePathThenExists | imagegopher/shared/database_layer.py:54-83 | after a successful add the row ids stay unique, the path is valid, and adding it again raises |
| Catalog.InsertRefused | imagegopher/tools/db_tool/table_definitions.py:21-26 | the engine refuses the insert iff the statement fails or the path is already stored |
| Catalog.AddBasePathKeepsPathsUnique | imagegopher/shared/database_layer.py:69-83 | whatever the existence check answers, adding a path never stores a path twice |
| Catalog.GetBasePaths | imagegopher/shared/database_layer.py:145-158 | one entry per row, in row order, with the row's id and path; a failing select escapes |
| Catalog.EntriesTotallyOrdered | imagegopher/shared/database_layer.py:36-43 | the entries of a well-formed table are totally ordered |
| Catalog.FindFileRow | imagegopher/shared/database_layer.py:164-174 | None iff no row matches the base path id and file name; otherwise the first matching row |
| Catalog.VerifyFileState | imagegopher/shared/database_layer.py:160-179 | MISSING without a matching row, MATCHED when the stored hash equals the given one, MODIFIED otherwise; a failing select escapes |
| Catalog.AddFileRecord | imagegopher/shared/database_layer.py:181-192 | appends one row with the given fields under a fresh row id and returns that id; a failing insert changes nothing |
| Catalog.UpdateFileRecord | imagegopher/shared/database_layer.py:194-205 | a failing update changes nothing; otherwise every matching row takes the new hash with its other columns kept, every other row is unchanged, and no other table changes |
| Catalog.UpdateThenVerify | imagegopher/shared/database_layer.py:160-205 | after updating an existing record, verifying its new hash answers MATCHED and any other hash MODIFIED |
| Catalog.AddThenVerify | imagegopher/shared/database_layer.py:160-192 | after adding a record for a missing file, verifying the same hash answers MATCHED |
| Catalog.CellToInt | imagegopher/shared/database_layer.py:98 | an integer cell is its value; text converts as `int()` converts it (surrounding whitespace, an optional sign, digits with single underscores between them) and any other text is the not-an-int error for that value |
| Catalog.GetConfigInt | imagegopher/shared/database_layer.py:85-98 | a failing select escapes; otherwise None iff no row has the key, else the first such row's value as an int, or the not-an-int error for that value |
| Catalog.GetConfigItemScanInterval | imagegopher/shared/database_layer.py:85-98 | for the scan_interval key: a failing select escapes; None iff no row has it; else the first row's value as an int or the not-an-int error |
| Catalog.GetConfigItemLastUpdate | imagegopher/shared/database_layer.py:115-128 | for the last_update key: a failing select escapes; None iff no row has it; else the first row's value as an int or the not-an-int error |
| Catalog.GetConfigItemLibraryHash | imagegopher/shared/database_layer.py:130-143 | raises iff the select fails; None iff no row has library_hash; else the first such row's value as stored |
| Catalog.UpdateLastUpdate | imagegopher/shared/database_layer.py:231-243 | true iff the update runs; then last_update holds the clock |
| Catalog.UpdateConfigItemScanInterval | imagegopher/shared/database_layer.py:100-113 | false without writing last_update when the interval update fails; otherwise the interval is stored and the result is that of the last_update write |
| Catalog.ScanIntervalRoundTrip | imagegopher/shared/database_layer.py:85-128 | a successful interval update reads back as the written interval and moves last_update to the clock |
| GathererDatabase.GetBasePaths | imagegopher/gatherer/database_layer.py:45-56 | one entry per row, in row order, with id = rowid and path = path |
| GathererDatabase.VerifyFileState | imagegopher/gatherer/database_layer.py:59-76 | MISSING without a row; with a row, MATCHED iff the stored hash equals the argument, else MODIFIED |
| GathererDatabase.AddFileRecord | imagegopher/gatherer/database_layer.py:78-80 | the stub leaves every table, and which statements fail, unchanged |
| GathererDatabase.StubAddLeavesFileMissing | imagegopher/gatherer/database_layer.py:59-80 | a missing file is still MISSING after the stub add |
| BurrowDatabase.AddBasePath | imagegopher/burrow/database_layer.py:33-56 | the already-exists error escapes for a present path; false without inserting when the existence select fails; false when the insert fails; true only after inserting the new path |
| BurrowDatabase.FailedCheckSplitsTheLayers | imagegopher/burrow/database_layer.py:38-47 | when the existence select fails the burrow answers false with nothing written; the shared layer answers false too for a stored path, which `UNIQUE(path)` refuses, but stores a new path and answers true |
| BurrowDatabase.WorkingCheckAgreesWithSharedLayer | imagegopher/burrow/database_layer.py:33-56 | with a working select, the burrow and shared layers agree on the result and the base_path table |
| BurrowDatabase.UpdateLastUpdate | imagegopher/burrow/database_layer.py:97-109 | true iff the update runs; then every last_update row holds the clock, otherwise nothing changes; keys, other rows and other tables never change |
| BurrowDatabase.UpdateConfigItemScanInterval | imagegopher/burrow/database_layer.py:58-71 | false with nothing written when the interval update fails; otherwise the interval rows hold the interval and the answer is whether the last_update write ran; last_update rows hold the clock when it did and keep their value when it did not; keys, other rows and other tables never change |
| Scanning.JoinKeepsComponents | imagegopher/image_watcher/gather_images.py:70 | the joined path starts with the directory and ends with the file name |
| Scanning.IsImage | imagegopher/image_watcher/gather_images.py:86-102 | true iff the image verifies; false on I/O or syntax errors; any other exception escapes |
| Scanning.ExpectedIsExactFilter | imagegopher/image_watcher/gather_images.py:69-79 | the entries kept for a directory are exactly its readable image files, in listing order |
| Scanning.ExpectedAt | imagegopher/image_watcher/gather_images.py:70-78 | each entry is the file name, the digest of the joined path and the clock reading of its scan |
| Scanning.ScanDirectoryRaises | imagegopher/image_watcher/gather_images.py:69-79 | scanning a directory raises iff some readable file's image check raises something other than an I/O or syntax error |
| Scanning.ScanDirectoryIsFilterOrFirstRaise | imagegopher/image_watcher/gather_images.py:69-82 | a directory scan yields exactly the filtered entries, or the first escaping exception |
| Scanning.Record | imagegopher/image_watcher/gather_images.py:67-82 | a directory with entries is stored under its name; one without is absent; other keys are untouched |
| Scanning.WalkIsSound | imagegopher/image_watcher/gather_images.py:59-84 | every key of the result is a walked directory whose entries are that directory's filtered files, and no key maps to an empty list |
| Scanning.Gather | imagegopher/image_watcher/gather_images.py:57-84 | raises iff some directory reached before the shutdown check fires holds a file that opens and makes the image library raise; on success no key maps to an empty list, and every key is a walked directory holding exactly its filtered entries |
| Scanning.WalkRaises | imagegopher/image_watcher/gather_images.py:59-84 | the walk from any directory on raises iff a directory it reaches before the shutdown check fires holds a file whose image check raises; otherwise it succeeds |
| Scanning.FirstShutdown | imagegopher/image_watcher/gather_images.py:59-62 | the first directory index at which shutdown is seen, or the walk's length |
| Scanning.ShutdownTruncatesCleanly | imagegopher/image_watcher/gather_images.py:59-62 | a shutdown seen at the k-th directory yields exactly the scan of the first k directories |
| Scanning.EveryNonEmptyDirectoryIsKept | imagegopher/gatherer/file_gatherer.py:60-76 | when directories are walked once each, every directory with a kept file is a key |
| Scanning.ScanIgnoresModeWhenOpensAgree | imagegopher/gatherer/file_gatherer.py:110-120 | a directory scans the same in "r" and "r+" mode when both modes open the same files |
| Scanning.WalkIgnoresModeWhenOpensAgree | imagegopher/gatherer/file_gatherer.py:58-78 | the whole walk is the same in both modes when both modes open the same files |
| ImageGathering.NewImageGatherer | imagegopher/image_watcher/gather_images.py:32-34 | the gatherer keeps the given document root |
| ImageGathering.DocumentRootIsConstructorArgument | imagegopher/image_watcher/gather_images.py:33-44 | the property returns the constructor argument unchanged |
| ImageGathering.Gather | imagegopher/image_watcher/gather_images.py:46-84 | the scan of the document root in mode "r": it raises iff a directory reached before the shutdown event is set holds a raising file; on success no empty lists and only walked directories with exactly their filtered files; without a shutdown event the full walk |
| ImageGathering.ShutdownReturnsWhatWasGathered | imagegopher/image_watcher/gather_images.py:59-62 | an event first set at the k-th directory returns exactly what the first k directories gave |
| FileGathering.NewFileGatherer | imagegopher/gatherer/file_gatherer.py:44-46 | the gatherer keeps the given document root |
| FileGathering.SetDocumentRoot | imagegopher/gatherer/file_gatherer.py:40-42 | the getter returns the value just set |
| FileGathering.SetThenGetDocumentRoot | imagegopher/gatherer/file_gatherer.py:30-42 | reading after setting gives the set value; a second set overrides the first |
| FileGathering.GatherImages | imagegopher/gatherer/file_gatherer.py:48-78 | the scan of the document root in mode "r+": it succeeds iff no walked directory holds a file that opens and makes the image library raise; then no empty lists, and only walked directories with exactly their filtered files |
| FileGathering.EveryWalkedDirectoryIsProcessed | imagegopher/gatherer/file_gatherer.py:60-76 | with no early exit, every walked directory with a kept file ends up as a key |
| FileGathering.AgreesWithImageGatherer | imagegopher/gatherer/file_gatherer.py:60-120 | when "r" and "r+" open the same files, the file gatherer and an image gatherer without a shutdown event give the same result |
| GatherProcessing.SortEntries | imagegopher/gatherer/gather_process.py:35 | the sorted list is ordered by id and is a permutation of the cached list |
| GatherProcessing.SortIsStable | imagegopher/gatherer/gather_process.py:35 | entries sharing an id keep their relative order |
| GatherProcessing.CacheBasePathsFromDatabase | imagegopher/gatherer/gather_process.py:45-51 | exactly the rows the database layer returns, in order; a failing select escapes |
| GatherProcessing.NewGatherProcess | imagegopher/gatherer/gather_process.py:28-40 | the cached paths sorted by id and a permutation of the database rows, one gatherer per path, and gatherer i's root is path i |
| GathererService.InitialState | imagegopher/gatherer/service.py:41-58 | every timestamp starts at 0 and the library hash at "<UNKNOWN>" |
| GathererService.CheckForConfigUpdates | imagegopher/gatherer/service.py:226-249 | given a read that returned: a due check records the read and the time; a changed value schedules a refresh a minute later; REFRESHCONFIGURATION is queued exactly when the schedule is set and reached, which clears it; library fields are untouched |
| GathererService.ConfigReadOnlyWhenDue | imagegopher/gatherer/service.py:232-233 | when the check is not due, the database's answer makes no difference |
| GathererService.ChangeDefersRefresh | imagegopher/gatherer/service.py:234-239 | the tick that notices a change queues nothing and schedules the refresh for now + 60 |
| GathererService.RefreshFollowsAMinuteLater | imagegopher/gatherer/service.py:234-249 | a tick at least a minute after a noticed change queues REFRESHCONFIGURATION and clears the schedule |
| GathererService.ConfigCheckSettles | imagegopher/gatherer/service.py:241-249 | a second check at the same instant with the same answer changes and queues nothing |
| GathererService.CheckForLibraryUpdates | imagegopher/gatherer/service.py:251-268 | given a read that returned: a due check reading a truthy hash different from the last queues REFRESHLIBRARY and records the hash and the time; otherwise nothing changes |
| GathererService.LibraryReadOnlyWhenDue | imagegopher/gatherer/service.py:257-258 | when the library check is not due, the database's answer makes no difference |
| GathererService.UnchangedHashPollsEveryTick | imagegopher/gatherer/service.py:262-268 | after a due check finds the hash unchanged, every later tick is due again |
| GathererService.UnchangedHashPollsAtConsecutiveSeconds | imagegopher/gatherer/service.py:253-268 | with a 60 s interval and an unchanged hash, the ticks at 100 and 101 both read the database |
| GathererService.CheckForLibraryUpdatesIntended | imagegopher/gatherer/service.py:262-268 | a due check reading a truthy hash records it and the time; it queues REFRESHLIBRARY iff the hash changed |
| GathererService.IntendedCheckWaitsAnInterval | imagegopher/gatherer/service.py:251-268 | with the correction a check is not due again for a full interval, and it queues what the original queues |
| GathererService.ConfigTick | imagegopher/gatherer/service.py:226-249 | an unreadable interval raises; a due check whose read raises passes the database error on; a raising tick leaves the state as it was and queues nothing; a tick that is not due never reads and is the check without a read, so a scheduled refresh that is reached still fires; otherwise the tick is the check with the returned read |
| GathererService.RefreshFiresWithoutRead | imagegopher/gatherer/service.py:243-249 | on a tick not due for the database check, a reached refresh queues REFRESHCONFIGURATION and clears the schedule, whatever the database would answer |
| GathererService.LibraryTick | imagegopher/gatherer/service.py:251-268 | an unreadable interval raises; a due check whose read raises passes the database error on, leaving the state as it was and queueing nothing; a tick that is not due changes nothing; otherwise the tick is the check with the returned read |
| GathererService.FailingReadNeverSchedules | imagegopher/gatherer/service.py:230-233 | a due config check against a failing database raises with the state unchanged, so the check stays due |
| ConfigSetup.NewSetupItem | imagegopher/shared/configuration/configuration_setup.py:44-55 | a missing or empty valid-values list becomes []; a falsy default becomes [], so no item has a None default; the other fields are kept |
| ConfigSetup.DefaultIsTruthyOrPlaceholder | imagegopher/shared/configuration/configuration_setup.py:54-55 | a stored default is falsy only when it is the [] placeholder |
| ConfigSetup.GetSections | imagegopher/shared/configuration/configuration_setup.py:63-70 | the section names in insertion order |
| ConfigSetup.GetSection | imagegopher/shared/configuration/configuration_setup.py:72-82 | None iff the name is not a section |
| ConfigSetup.GetSectionOfListedName | imagegopher/shared/configuration/configuration_setup.py:63-82 | every listed name leads to that section's own items |
| Text.IntStringRoundTrip | imagegopher/shared/configuration/configuration.py:228-229 | `int()` of `str(n)` is n, negatives included |
| Text.ParseIgnoresLeadingSpace | imagegopher/shared/configuration/configuration.py:228-229 | whitespace `int()` strips (space, and tab through carriage return) put in front of a string changes nothing `int()` answers |
| Text.ParseIgnoresTrailingSpace | imagegopher/shared/configuration/configuration.py:228-229 | the same whitespace put at the end of a string changes nothing `int()` answers |
| Text.SeparatorsAreNotStripped | imagegopher/shared/configuration/configuration.py:228-229 | text starting with one of the separators 0x1C-0x1F is refused by `int()`, although `str.isspace()` holds for them |
| Text.FileSeparatorExample | imagegopher/shared/configuration/configuration.py:228-229 | `int("\x1c5")` is refused while `int(" 5")` is 5 |
| Text.GroupingExample | imagegopher/shared/configuration/configuration.py:228-229 | "1_000" converts to 1000 and "42" to 42; a doubled, leading or trailing underscore is refused |
| Text.NotAnIntFromFirstChar | imagegopher/shared/configuration/configuration.py:228-233 | a string that starts with anything but whitespace, a sign or a digit is refused by `int()` |
| Config.ToInt | imagegopher/shared/configuration/configuration.py:228-233 | ints pass, booleans count as 0 and 1, strings convert as `int()` converts them or give the not-an-int error, and a list or None is a TypeError |
| Config.SeparatorTextIsNotAnInt | imagegopher/shared/configuration/configuration.py:228-233 | a string value starting with a separator 0x1C-0x1F is the not-an-int error for that value |
| Config.StrChecks | imagegopher/shared/configuration/configuration.py:177-184 | fails with the missing-option error iff the value is falsy and required, else with the invalid-value error iff a non-empty valid list lacks it; otherwise passes the value |
| Config.ReadStr | imagegopher/shared/configuration/configuration.py:146-186 | a non-empty environment value wins, then a non-empty file value, then the default; the checks apply to the chosen value |
| Config.ReadInt | imagegopher/shared/configuration/configuration.py:188-235 | an environment value wins even when empty; a file value must parse or raise the file error; otherwise the default is converted, and the required check fires only for a None default |
| Config.EnvIntBeatsFile | imagegopher/shared/configuration/configuration.py:205-209 | a number in the environment is the result whatever the file says |
| Config.FileIntBeatsDefault | imagegopher/shared/configuration/configuration.py:209-223 | with no environment value, a number in the file is the result whatever the default |
| Config.RequiredIntCheckUnreachable | imagegopher/shared/configuration/configuration.py:223-233 | a required int built by the constructor, with no value anywhere, ends in a TypeError rather than the missing-option error |
| Config.ReadIntIntended | imagegopher/shared/configuration/configuration.py:202-226 | with nothing configured, a required item raises the missing-option error and any other reads as None; otherwise it agrees with the original |
| Config.BoolChecks | imagegopher/shared/configuration/configuration.py:272-284 | a falsy required value raises the missing-option error; a string maps "true"/"1" to true and "false"/"0" to false case-insensitively and raises otherwise; a non-string raises AttributeError |
| Config.ReadBool | imagegopher/shared/configuration/configuration.py:237-286 | an environment value (even empty) wins; a file value goes through getboolean and then the checks as a bool; otherwise the default |
| Config.FileBooleanIsNeverAccepted | imagegopher/shared/configuration/configuration.py:258-284 | any boolean option read from the file makes the read fail |
| Config.ReadBoolIntended | imagegopher/shared/configuration/configuration.py:257-271 | a file value is taken as getboolean's answer; every other case agrees with the original |
| Config.IntendedAcceptsFileBooleans | imagegopher/shared/configuration/configuration.py:258-270 | the corrected reader accepts "on" and "no" from the file |
| Config.ReadUInt | imagegopher/shared/configuration/configuration.py:338-364 | the int reading with negatives refused and non-negatives passed unchanged; int errors pass through |
| Config.ReadItem | imagegopher/shared/configuration/configuration.py:120-139 | each item type goes to its own reader |
| Config.Put | imagegopher/shared/configuration/configuration.py:141-144 | stores the value under section and item and changes no other entry |
| Config.StoreSectionStores | imagegopher/shared/configuration/configuration.py:120-144 | after a section is read, each of its items is stored under its name with its reader's value |
| Config.ReadSectionsStores | imagegopher/shared/configuration/configuration.py:113-144 | after the loop succeeds, every item of every section holds its reader's value |
| Config.NewConfiguration | imagegopher/shared/configuration/configuration.py:32-41 | starts with no file, no parsed content and no items |
| Config.Configure | imagegopher/shared/configuration/configuration.py:43-67 | records layout, file and requirement; items and parsed content are kept |
| Config.OpenFile | imagegopher/shared/configuration/configuration.py:74-88 | no file configured: no change; a `ParsingError` raises the "Failed to read" error; any other parser exception (duplicate section or option, undecodable text) passes through uncaught; an unreadable file raises iff required; otherwise the configuration counts as having a file |
| Config.ProcessConfig | imagegopher/shared/configuration/configuration.py:69-90 | a file error is the result; on success only the items differ from the opened configuration |
| Config.ParserExceptionsEscape | imagegopher/shared/configuration/configuration.py:76-82 | a parser exception other than `ParsingError` escapes `process_config` unchanged, not as a `ValueError` |
| Config.GetEntry | imagegopher/shared/configuration/configuration.py:92-111 | an unknown section raises, then an unknown item; otherwise the stored value |
| Config.ProcessedItemsAreAvailable | imagegopher/shared/configuration/configuration.py:113-144 | after processing, get_entry returns every layout item's reader value |
| ConfigExamples.RequiredConfigFile | imagegopher/unittests/shared/unittests_configuration.py:37-55 | an unreadable required file fails with the expected message; when not required, processing succeeds |
| ConfigExamples.InvalidIntDefault | imagegopher/unittests/shared/unittests_configuration.py:57-78 | a default of "INFO" fails with the expected not-an-int message |
| ConfigExamples.DefaultReadFails | imagegopher/unittests/shared/unittests_configuration.py:57-78 | with neither an environment value nor a file option, the default "INFO" fails as not an int, naming the item and the value |
| ConfigExamples.MissingOptionFallsBackToDefault | imagegopher/unittests/shared/unittests_configuration.py:99-118 | a file without the option or section leaves the default 1701 in force |
| ConfigExamples.DefaultReadsAsNumber | imagegopher/unittests/shared/unittests_configuration.py:99-118 | with neither an environment value nor a file option, the default "1701" reads as 1701 |
| ConfigExamples.InvalidIntInFile | imagegopher/unittests/shared/unittests_configuration.py:120-128 | a file value "abc" fails with the expected bad-file-option message |
| ConfigExamples.MissingRequiredInt | imagegopher/unittests/shared/unittests_configuration.py:130-150 | as written the required-int test ends in a TypeError; the corrected reader gives the expected message |
| ConfigExamples.WaitForOkFlag | imagegopher/burrow/configuration_layout.py:41-43 | the wait_for_ok flag set to true in the file raises as written and reads true once corrected; its default "True" reads as true |

## Left out

- Logging, the `print(interval)` in `update_config_item_scan_interval` (burrow/database_layer.py:60), the asyncio lock, the `get_instance` singleton and the thread lock of the SQLite wrapper. The model is sequential.
- `auto_register_handlers`. It uses reflection over imported modules.
- Coroutine callbacks are not distinguished from plain ones. A callback is reduced to the events it queues and whether it raises.
- HTTP views, the services' start-up and shutdown, main loops, `_initialise` and `_connect_to_database`. These are framework glue.
- The SQL engine, `open()`, `os.walk`, PIL's `Image.verify`, and the MD5 and SHA-256 digests. They are parameters of the model.
- Errors raised by `sqlite3.connect` itself, outside the `try` blocks. These are not translated in the source either.
- Statements are values, not SQL text. The f-string interpolation in `verify_file_state` (an injection risk) is modelled as a key lookup.
- `_read_float` and floating-point parsing. Float items go to a reader parameter.
- `configparser` details: the DEFAULT section, interpolation and case folding beyond ASCII.
- `_config_items` as left by a failed `process_config`. The model returns the error and no partial state.
- The millisecond scan time `int(round(time.time() * 1000))`. The clock parameter gives each entry's scan time as an integer directly.
- `update_file_record`'s return value. The source returns the cursor's last row id after an UPDATE, which carries no meaning.
- Whether the gatherer's event handler accepts the queued events. The timers report the events they queue, not whether registration lets them in.
- The stub constructors `image_watcher/gather_process.py` and `image_watcher/service.py`. The event-id enumeration is folded into the models as plain datatypes.
- EventManager.ProcessAllEvents: the loop takes a bound on its rounds, because callbacks may queue events forever. A run that hits the bound ends with `OutOfFuel` and a non-empty queue.
- `process_files` in `gatherer/gather_process.py`. It only prints a line.
- Config.ToInt: `int()` also accepts non-ASCII decimal digits and non-ASCII whitespace, and in text holding any non-ASCII character it also strips the separators 0x1C-0x1F. The model strips only space and tab through carriage return, and knows ASCII digits only, so it matches `int()` on ASCII text.
- Catalog.CellToInt: as for Config.ToInt, only ASCII digits and the whitespace `int()` strips from ASCII text are recognised.
- FileGathering.GatherImages: the hash is a digest parameter. `_generate_file_hash` opens the file again, and an `OSError` from that second open is not modelled; a file that passed the readability check is assumed to open again.
- GathererService.CheckForConfigUpdates: the clock is a natural number, since `int(time())` is never negative in practice. The function takes the interval and a read that returned; a raising `get_entry`, `int()` or database read is modelled by GathererService.ConfigTick.
- GathererService.CheckForLibraryUpdates: takes the interval and a read that returned; a raising interval read or database read is modelled by GathererService.LibraryTick.

## Findings

| source | as written | input that shows it | evidently intended | confidence | as-written member | corrected member |
|---|---|---|---|---|---|---|
| imagegopher/image_watcher/database_layer.py:59-79 | `add_base_path` returns 0 ("already exists") when the lookup finds no row, and inserts only when it found one | a database without `/photos`: the call answers 0 and inserts nothing; with `/photos` registered it tries the insert, which `UNIQUE(path)` refuses, so it answers None and marks the database FULLY_DEGRADED | insert when absent; answer 0 when present | high, not executed | WatcherDatabase.AddBasePath | WatcherDatabase.AddBasePathIntended |
| imagegopher/shared/configuration/configuration.py:258-284 | a file value comes back from `getboolean` as a `bool`, then reaches `value.lower()`; `False` is also falsy and trips the required check | `wait_for_ok = true` in the burrow's file: `AttributeError` on `True.lower()` | the file's boolean is the result | high, not executed | Config.ReadBool | Config.ReadBoolIntended |
| imagegopher/shared/configuration/configuration.py:223-226 | the required check tests `value is None`, but the setup item never holds a `None` default | a required int with no default and an empty file: `int([])` raises `TypeError` instead of the missing-option `ValueError` the unit test expects | a required item with nothing configured raises the missing-option error | high, not executed | Config.ReadInt | Config.ReadIntIntended |
| imagegopher/gatherer/service.py:262-268 | `last_library_check` moves only when the hash changed, so an unchanged hash keeps the check due and the database is read on every tick | interval 60, hash "abc" unchanged: the ticks at 100 and 101 both read the database | record the check time whenever a hash was read, as the config check does | medium, not executed | GathererService.CheckForLibraryUpdates | GathererService.CheckForLibraryUpdatesIntended |

=== FILE: burrow_database.dfy ===
/** The burrow service's `DatabaseLayer` (`burrow/database_layer.py`): its own
    `add_base_path`, which treats a failed existence check as a failure
    rather than as "absent" and does not refresh the library hash, and the
    scan-interval update with its `last_update` write. */
module BurrowDatabase {
  import opened Wrappers
  import opened Catalog

  /** `add_base_path`: a failing select answers false; an existing path
      raises "Base path already exists!" (a `ValueError`, which the
      `sqlite3.Error` handler does not catch); a failing insert answers
      false; otherwise the path is appended under a fresh rowid and the
      answer is true. Only the insert changes the store. */
  function AddBasePath(s: Store, path: string): (r: Outcome<bool>)
    ensures SelectBasePathRowId in s.failing ==> r == Outcome(s, Ok(false))
    ensures SelectBasePathRowId !in s.failing && HasPath(s.basePaths, path) ==> r == Outcome(s, Err(BasePathAlreadyExists))
    ensures r.result == Ok(true) <==>
              SelectBasePathRowId !in s.failing && !HasPath(s.basePaths, path) && InsertBasePath !in s.failing
    ensures r.result != Ok(true) ==> r.store == s
    ensures r.result == Ok(true) ==>
              && |r.store.basePaths| == |s.basePaths| + 1
              && r.store.basePaths[..|s.basePaths|] == s.basePaths
              && r.store.basePaths[|s.basePaths|].path == path
              && (forall i :: 0 <= i < |s.basePaths| ==> s.basePaths[i].rowId < r.store.basePaths[|s.basePaths|].rowId)
              && r.store.fileHashes == s.fileHashes && r.store.configItems == s.configItems && r.store.failing == s.failing
  {
    if SelectBasePathRowId in s.failing then Outcome(s, Ok(false))
    else
      var found := RowsWithPath(s.basePaths, path);
      assert |found| > 0 ==> found[0] in s.basePaths;
      if |found| > 0 then Outcome(s, Err(BasePathAlreadyExists))
      else if InsertBasePath in s.failing then Outcome(s, Ok(false))
      else Outcome(s.(basePaths := s.basePaths + [BasePathRow(NextRowId(Ids(s.basePaths, BasePathKey)), path)]), Ok(true))
  }

  /** The two `add_base_path` versions part ways only when the existence
      check fails. Burrow gives up. The shared layer takes the failure for
      "absent" and tries the insert: a new path is stored and answered true,
      while a stored path is refused by `UNIQUE(path)` and answered false,
      exactly as burrow answers. */
  lemma FailedCheckSplitsTheLayers(s: Store, path: string, now: int, digest: string -> string)
    requires SelectBasePathRowId in s.failing
    ensures AddBasePath(s, path) == Outcome(s, Ok(false))
    ensures HasPath(s.basePaths, path) ==> Catalog.AddBasePath(s, path, now, digest) == Outcome(s, Ok(false))
    ensures !HasPath(s.basePaths, path) && InsertBasePath !in s.failing ==>
              && Catalog.AddBasePath(s, path, now, digest).result == Ok(true)
              && HasPath(Catalog.AddBasePath(s, path, now, digest).store.basePaths, path)
  {
    var t := Catalog.AddBasePath(s, path, now, digest).store;
    if !HasPath(s.basePaths, path) && InsertBasePath !in s.failing {
      assert t.basePaths[|s.basePaths|].path == path;
    }
  }

  /** With a working existence check both versions answer alike and leave
      the same `base_path` table. */
  lemma WorkingCheckAgreesWithSharedLayer(s: Store, path: string, now: int, digest: string -> string)
    requires SelectBasePathRowId !in s.failing
    ensures AddBasePath(s, path).result == Catalog.AddBasePath(s, path, now, digest).result
    ensures AddBasePath(s, path).store.basePaths == Catalog.AddBasePath(s, path, now, digest).store.basePaths
  {
  }

  /** `_update_last_update`: false with nothing written when the update
      fails, otherwise the `last_update` rows hold `now`. */
  function UpdateLastUpdate(s: Store, now: int): (r: (Store, bool))
    ensures r.1 <==> UpdateConfig(LAST_UPDATE) !in s.failing
    ensures !r.1 ==> r.0 == s
    ensures |r.0.configItems| == |s.configItems|
    ensures r.1 ==> forall i :: 0 <= i < |s.configItems| && s.configItems[i].key == LAST_UPDATE ==>
              r.0.configItems[i].value == IntCell(now)
    ensures forall i :: 0 <= i < |s.configItems| && s.configItems[i].key != LAST_UPDATE ==> r.0.configItems[i] == s.configItems[i]
    ensures forall i :: 0 <= i < |s.configItems| ==> r.0.configItems[i].key == s.configItems[i].key
    ensures r.0.basePaths == s.basePaths && r.0.fileHashes == s.fileHashes && r.0.failing == s.failing
  {
    Catalog.UpdateLastUpdate(s, now)
  }

  /** `update_config_item_scan_interval`: false without the `last_update`
      write when the interval update fails; otherwise the interval rows hold
      `interval`, the `last_update` rows hold `now` if that write worked, and
      the answer is whether it did. No other row or table changes. */
  function UpdateConfigItemScanInterval(s: Store, interval: int, now: int): (r: (Store, bool))
    ensures UpdateConfig(SCAN_INTERVAL) in s.failing ==> r == (s, false)
    ensures |r.0.configItems| == |s.configItems|
    ensures UpdateConfig(SCAN_INTERVAL) !in s.failing ==> (r.1 <==> UpdateConfig(LAST_UPDATE) !in s.failing)
    ensures UpdateConfig(SCAN_INTERVAL) !in s.failing ==>
              forall i :: 0 <= i < |s.configItems| && s.configItems[i].key == SCAN_INTERVAL ==>
                r.0.configItems[i].value == IntCell(interval)
    ensures r.1 ==> forall i :: 0 <= i < |s.configItems| && s.configItems[i].key == LAST_UPDATE ==>
              r.0.configItems[i].value == IntCell(now)
    ensures UpdateConfig(SCAN_INTERVAL) !in s.failing && !r.1 ==>
              forall i :: 0 <= i < |s.configItems| && s.configItems[i].key == LAST_UPDATE ==>
                r.0.configItems[i] == s.configItems[i]
    ensures forall i :: 0 <= i < |s.configItems| ==> r.0.configItems[i].key == s.configItems[i].key
    ensures forall i :: 0 <= i < |s.configItems| && s.configItems[i].key != SCAN_INTERVAL && s.configItems[i].key != LAST_UPDATE ==>
              r.0.configItems[i] == s.configItems[i]
    ensures r.0.basePaths == s.basePaths && r.0.fileHashes == s.fileHashes && r.0.failing == s.failing
  {
    ConfigKeysDistinct();
    Catalog.UpdateConfigItemScanInterval(s, interval, now)
  }
}

=== FILE: catalog.dfy ===
/** The catalog tables shared by the services (`shared/database_layer.py`):
    the `base_path` table of library roots, the `file_hash` table of known
    files with their content digests, and the `config_item` key/value table.
    Tables are row sequences in rowid order. The SQL engine is reduced to the
    tables plus `failing`, the set of statements that raise `sqlite3.Error`,
    and the schema's `UNIQUE(path)` constraint on `base_path`, which makes
    the engine refuse to insert a stored path; the clock is the `now`
    argument and SHA-256 the `digest` argument. */
module Catalog {
  import opened Wrappers
  import opened Text

  datatype FileMatchState = Missing | Matched | Modified

  function MatchStateValue(s: FileMatchState): nat {
    match s
    case Missing => 0
    case Matched => 1
    case Modified => 2
  }

  /** A base path as the layer hands it out. */
  datatype BasePathEntry = BasePathEntry(rowId: int, path: string)

  /** `BasePathEntry.__lt__`: entries are ordered by row id alone. */
  predicate EntryLess(a: BasePathEntry, b: BasePathEntry) {
    a.rowId < b.rowId
  }

  /** The ordering is a strict order on ids that never looks at the path:
      equal ids are incomparable, and renaming either path changes nothing. */
  lemma EntryOrderIgnoresPath(a: BasePathEntry, b: BasePathEntry, c: BasePathEntry, p: string, q: string)
    ensures !EntryLess(a, a)
    ensures EntryLess(a, b) && EntryLess(b, c) ==> EntryLess(a, c)
    ensures a.rowId == b.rowId ==> !EntryLess(a, b) && !EntryLess(b, a)
    ensures EntryLess(a, b) <==> EntryLess(a.(path := p), b.(path := q))
  {
  }

  datatype BasePathRow = BasePathRow(rowId: int, path: string)
  datatype FileHashRow = FileHashRow(rowId: int, basePathId: int, filename: string, hash: string)

  /** A stored configuration value, as SQLite hands it back. */
  datatype Cell = IntCell(i: int) | TextCell(s: string)
  datatype ConfigItem = ConfigItem(key: string, value: Cell)

  const SCAN_INTERVAL: string := "scan_interval"
  const LAST_UPDATE: string := "last_update"
  const LIBRARY_HASH: string := "library_hash"

  /** The statements the layer issues, named by what they do. */
  datatype Stmt =
    | SelectBasePathRowId
    | InsertBasePath
    | SelectBasePaths
    | SelectFileHash
    | InsertFileHash
    | UpdateFileHash
    | SelectConfig(key: string)
    | UpdateConfig(key: string)

  datatype Store = Store(
    basePaths: seq<BasePathRow>,
    fileHashes: seq<FileHashRow>,
    configItems: seq<ConfigItem>,
    failing: set<Stmt>)

  /** What escapes the layer: its own `ValueError`, an uncaught
      `sqlite3.Error`, or `int()` rejecting a stored value. */
  datatype CatalogError = BasePathAlreadyExists | SqlError(stmt: Stmt) | NotAnInt(value: Cell)

  /** The store after a call, and what the call returned or raised. */
  datatype Outcome<T> = Outcome(store: Store, result: Result<T, CatalogError>)

  /** The largest of a non-empty run of ids. */
  function MaxOf(ids: seq<int>): (m: int)
    requires |ids| > 0
    ensures forall i :: 0 <= i < |ids| ==> ids[i] <= m
    ensures exists i :: 0 <= i < |ids| && ids[i] == m
    decreases |ids|
  {
    if |ids| == 1 then ids[0]
    else
      var rest := MaxOf(ids[1..]);
      if ids[0] >= rest then ids[0] else rest
  }

  /** SQLite's choice of rowid for a plain INSERT: one more than the largest
      rowid in the table, or 1 for an empty table. */
  function NextRowId(ids: seq<int>): (r: int)
    ensures forall i :: 0 <= i < |ids| ==> ids[i] < r
    ensures |ids| == 0 ==> r == 1
    ensures |ids| > 0 ==> exists i :: 0 <= i < |ids| && r == ids[i] + 1
  {
    if |ids| == 0 then 1 else MaxOf(ids) + 1
  }

  /** The rowid column of a table, in row order. */
  function Ids<R>(rows: seq<R>, key: R -> int): (r: seq<int>)
    ensures |r| == |rows| && forall i :: 0 <= i < |rows| ==> r[i] == key(rows[i])
  {
    seq(|rows|, i requires 0 <= i < |rows| => key(rows[i]))
  }

  const BasePathKey := (x: BasePathRow) => x.rowId
  const FileHashKey := (x: FileHashRow) => x.rowId

  /** Row ids are keys: no two rows of a table share one. */
  ghost predicate WellFormed(s: Store) {
    && (forall i, j :: 0 <= i < j < |s.basePaths| ==> s.basePaths[i].rowId != s.basePaths[j].rowId)
    && (forall i, j :: 0 <= i < j < |s.fileHashes| ==> s.fileHashes[i].rowId != s.fileHashes[j].rowId)
  }

  /** `SELECT rowid FROM base_path WHERE PATH = ?`: the rows with that path,
      in table order. */
  function RowsWithPath(rows: seq<BasePathRow>, path: string): (r: seq<BasePathRow>)
    ensures forall x :: x in r ==> x in rows && x.path == path
    ensures forall i :: 0 <= i < |rows| && rows[i].path == path ==> rows[i] in r
    decreases |rows|
  {
    if |rows| == 0 then []
    else (if rows[0].path == path then [rows[0]] else []) + RowsWithPath(rows[1..], path)
  }

  ghost predicate HasPath(rows: seq<BasePathRow>, path: string) {
    exists i :: 0 <= i < |rows| && rows[i].path == path
  }

  /** Distinct rows hold distinct paths, as `UNIQUE(path)` guarantees. */
  ghost predicate PathsUnique(rows: seq<BasePathRow>) {
    forall i, j :: 0 <= i < j < |rows| ==> rows[i].path != rows[j].path
  }

  /** Whether the engine refuses `INSERT INTO base_path`: the statement
      fails outright, or the path is stored and `UNIQUE(path)` raises
      `sqlite3.IntegrityError`. */
  function InsertRefused(s: Store, path: string): (r: bool)
    ensures r <==> InsertBasePath in s.failing || HasPath(s.basePaths, path)
  {
    var found := RowsWithPath(s.basePaths, path);
    assert |found| > 0 ==> found[0] in s.basePaths;
    InsertBasePath in s.failing || |found| > 0
  }

  /** `valid_base_path`: true iff some row has the path; a failing select
      answers false. */
  function ValidBasePath(s: Store, path: string): (r: bool)
    ensures r <==> SelectBasePathRowId !in s.failing && HasPath(s.basePaths, path)
  {
    if SelectBasePathRowId in s.failing then false
    else
      var found := RowsWithPath(s.basePaths, path);
      assert |found| > 0 ==> found[0] in s.basePaths;
      |found| > 0
  }

  /** `UPDATE config_item set value=? WHERE key=...`: every row with the key
      takes the new value; nothing else changes. */
  function SetConfig(items: seq<ConfigItem>, key: string, v: Cell): (r: seq<ConfigItem>)
    ensures |r| == |items|
    ensures forall i :: 0 <= i < |items| ==> r[i].key == items[i].key
    ensures forall i :: 0 <= i < |items| && items[i].key == key ==> r[i].value == v
    ensures forall i :: 0 <= i < |items| && items[i].key != key ==> r[i] == items[i]
    decreases |items|
  {
    if |items| == 0 then []
    else [if items[0].key == key then ConfigItem(key, v) else items[0]] + SetConfig(items[1..], key, v)
  }

  /** Row `i` is the first row holding `key`. */
  ghost predicate FirstWithKey(items: seq<ConfigItem>, key: string, i: int) {
    && 0 <= i < |items| && items[i].key == key
    && forall j :: 0 <= j < i ==> items[j].key != key
  }

  /** `SELECT value FROM config_item WHERE key=...` followed by
      `results[0][0]`: the value of the first row with the key. */
  function ConfigValue(items: seq<ConfigItem>, key: string): (r: Option<Cell>)
    ensures r.None? <==> forall i :: 0 <= i < |items| ==> items[i].key != key
    ensures r.Some? ==> exists i :: FirstWithKey(items, key, i) && items[i].value == r.value
    decreases |items|
  {
    if |items| == 0 then None
    else if items[0].key == key then Some(items[0].value)
    else ConfigValue(items[1..], key)
  }

  /** Writing a key and reading it back gives the written value when a row
      with the key exists, and reading another key is unaffected. */
  lemma {:induction false} SetThenGet(items: seq<ConfigItem>, key: string, v: Cell, other: string)
    ensures ConfigValue(SetConfig(items, key, v), key) == if ConfigValue(items, key).Some? then Some(v) else None
    ensures other != key ==> ConfigValue(SetConfig(items, key, v), other) == ConfigValue(items, other)
    decreases |items|
  {
    if |items| > 0 {
      SetThenGet(items[1..], key, v, other);
      assert SetConfig(items, key, v)[1..] == SetConfig(items[1..], key, v);
    }
  }

  /** `_update_config_item_library_hash`: stores the digest of the decimal
      rendering of the whole-second clock; false when the update fails. */
  function UpdateLibraryHash(s: Store, now: int, digest: string -> string): (r: (Store, bool))
    ensures r.1 <==> UpdateConfig(LIBRARY_HASH) !in s.failing
    ensures !r.1 ==> r.0 == s
    ensures r.0.basePaths == s.basePaths && r.0.fileHashes == s.fileHashes && r.0.failing == s.failing
    ensures r.1 ==> r.0.configItems == SetConfig(s.configItems, LIBRARY_HASH, TextCell(digest(IntToString(now))))
  {
    if UpdateConfig(LIBRARY_HASH) in s.failing then (s, false)
    else (s.(configItems := SetConfig(s.configItems, LIBRARY_HASH, TextCell(digest(IntToString(now))))), true)
  }

  /** `add_base_path`: a path the existence check finds raises "Base path
      already exists!" and nothing is written; a refused insert (a failing
      statement, or a stored path the check missed because its select
      failed) answers false and leaves the library hash alone; a successful
      insert appends the path
      under a fresh rowid, refreshes the library hash, and answers true
      whether or not the refresh worked. */
  function AddBasePath(s: Store, path: string, now: int, digest: string -> string): (r: Outcome<bool>)
    ensures r.result.Err? <==> ValidBasePath(s, path)
    ensures r.result.Err? ==> r.result.error == BasePathAlreadyExists && r.store == s
    ensures r.result == Ok(false) <==> !ValidBasePath(s, path) && (InsertBasePath in s.failing || HasPath(s.basePaths, path))
    ensures r.result == Ok(false) ==> r.store == s
    ensures r.result == Ok(true) ==>
              && !HasPath(s.basePaths, path)
              && |r.store.basePaths| == |s.basePaths| + 1
              && r.store.basePaths[..|s.basePaths|] == s.basePaths
              && r.store.basePaths[|s.basePaths|].path == path
              && (forall i :: 0 <= i < |s.basePaths| ==> s.basePaths[i].rowId < r.store.basePaths[|s.basePaths|].rowId)
              && r.store.fileHashes == s.fileHashes && r.store.failing == s.failing
              && r.store.configItems ==
                   if UpdateConfig(LIBRARY_HASH) in s.failing then s.configItems
                   else SetConfig(s.configItems, LIBRARY_HASH, TextCell(digest(IntToString(now))))
  {
    if ValidBasePath(s, path) then Outcome(s, Err(BasePathAlreadyExists))
    else if InsertRefused(s, path) then Outcome(s, Ok(false))
    else
      var row := BasePathRow(NextRowId(Ids(s.basePaths, BasePathKey)), path);
      var inserted := s.(basePaths := s.basePaths + [row]);
      Outcome(UpdateLibraryHash(inserted, now, digest).0, Ok(true))
  }

  /** A successful `add_base_path` keeps rowids unique, makes the path
      visible to `valid_base_path`, and makes a second add of it raise. */
  lemma AddBasePathThenExists(s: Store, path: string, now: int, digest: string -> string)
    requires WellFormed(s) && SelectBasePathRowId !in s.failing
    requires AddBasePath(s, path, now, digest).result == Ok(true)
    ensures WellFormed(AddBasePath(s, path, now, digest).store)
    ensures ValidBasePath(AddBasePath(s, path, now, digest).store, path)
    ensures AddBasePath(AddBasePath(s, path, now, digest).store, path, now, digest).result == Err(BasePathAlreadyExists)
  {
    var t := AddBasePath(s, path, now, digest).store;
    assert t.basePaths[|s.basePaths|].path == path;
  }

  /** Whatever the existence check answers, `add_base_path` never stores a
      path twice: the uniqueness of paths is an invariant of the table. */
  lemma AddBasePathKeepsPathsUnique(s: Store, path: string, now: int, digest: string -> string)
    requires PathsUnique(s.basePaths)
    ensures PathsUnique(AddBasePath(s, path, now, digest).store.basePaths)
  {
    var r := AddBasePath(s, path, now, digest);
    if r.result == Ok(true) {
      var t := r.store.basePaths;
      forall i, j | 0 <= i < j < |t|
        ensures t[i].path != t[j].path
      {
        if j == |s.basePaths| {
          assert t[i] == s.basePaths[i];
        } else {
          assert t[i] == s.basePaths[i] && t[j] == s.basePaths[j];
        }
      }
    }
  }

  /** `get_base_paths`: one entry per row, in row order. */
  function EntriesOf(rows: seq<BasePathRow>): (r: seq<BasePathEntry>)
    ensures |r| == |rows|
    ensures forall i :: 0 <= i < |rows| ==> r[i].rowId == rows[i].rowId && r[i].path == rows[i].path
    decreases |rows|
  {
    if |rows| == 0 then [] else [BasePathEntry(rows[0].rowId, rows[0].path)] + EntriesOf(rows[1..])
  }

  /** `get_base_paths`: the select is not guarded, so its failure escapes. */
  function GetBasePaths(s: Store): (r: Result<seq<BasePathEntry>, CatalogError>)
    ensures r.Err? <==> SelectBasePaths in s.failing
    ensures r.Err? ==> r.error == SqlError(SelectBasePaths)
    ensures r.Ok? ==> |r.value| == |s.basePaths|
    ensures r.Ok? ==> forall i :: 0 <= i < |s.basePaths| ==>
              r.value[i] == BasePathEntry(s.basePaths[i].rowId, s.basePaths[i].path)
  {
    if SelectBasePaths in s.failing then Err(SqlError(SelectBasePaths)) else Ok(EntriesOf(s.basePaths))
  }

  /** The entries of a well-formed table have distinct ids, so `__lt__`
      orders them totally. */
  lemma EntriesTotallyOrdered(s: Store)
    requires WellFormed(s) && GetBasePaths(s).Ok?
    ensures var es := GetBasePaths(s).value;
      forall i, j :: 0 <= i < |es| && 0 <= j < |es| && i != j ==> EntryLess(es[i], es[j]) || EntryLess(es[j], es[i])
  {
    var es := GetBasePaths(s).value;
    forall i, j | 0 <= i < |es| && 0 <= j < |es| && i != j
      ensures EntryLess(es[i], es[j]) || EntryLess(es[j], es[i])
    {
      if i < j {
        assert s.basePaths[i].rowId != s.basePaths[j].rowId;
      } else {
        assert s.basePaths[j].rowId != s.basePaths[i].rowId;
      }
    }
  }

  predicate Keyed(row: FileHashRow, basePathId: int, filename: string) {
    row.basePathId == basePathId && row.filename == filename
  }

  /** `fetchone()` on `SELECT filename, hash FROM file_hash WHERE ...`: the
      first row with the key. */
  function FindFileRow(rows: seq<FileHashRow>, basePathId: int, filename: string): (r: Option<FileHashRow>)
    ensures r.None? <==> forall i :: 0 <= i < |rows| ==> !Keyed(rows[i], basePathId, filename)
    ensures r.Some? ==> exists i :: 0 <= i < |rows| && rows[i] == r.value && Keyed(rows[i], basePathId, filename)
    decreases |rows|
  {
    if |rows| == 0 then None
    else if Keyed(rows[0], basePathId, filename) then Some(rows[0])
    else FindFileRow(rows[1..], basePathId, filename)
  }

  /** `verify_file_state`: MISSING when no row has the key, otherwise
      MATCHED or MODIFIED by comparing the stored digest with `hash`. The
      select is not guarded, so its failure escapes. */
  function VerifyFileState(s: Store, basePathId: int, filename: string, hash: string): (r: Result<FileMatchState, CatalogError>)
    ensures r.Err? <==> SelectFileHash in s.failing
    ensures r.Err? ==> r.error == SqlError(SelectFileHash)
    ensures r == Ok(Missing) <==>
              SelectFileHash !in s.failing && forall i :: 0 <= i < |s.fileHashes| ==> !Keyed(s.fileHashes[i], basePathId, filename)
    ensures r == Ok(Matched) ==> exists i :: 0 <= i < |s.fileHashes| && Keyed(s.fileHashes[i], basePathId, filename) && s.fileHashes[i].hash == hash
    ensures r == Ok(Modified) ==> exists i :: 0 <= i < |s.fileHashes| && Keyed(s.fileHashes[i], basePathId, filename) && s.fileHashes[i].hash != hash
  {
    if SelectFileHash in s.failing then Err(SqlError(SelectFileHash))
    else
      match FindFileRow(s.fileHashes, basePathId, filename)
      case None => Ok(Missing)
      case Some(row) => Ok(if row.hash == hash then Matched else Modified)
  }

  /** `add_file_record`: appends `(base_path_id, filename, hash)` under a
      fresh rowid and returns it; the insert is not guarded. */
  function AddFileRecord(s: Store, basePathId: int, filename: string, hash: string): (r: Outcome<int>)
    ensures r.result.Err? <==> InsertFileHash in s.failing
    ensures r.result.Err? ==> r.store == s && r.result.error == SqlError(InsertFileHash)
    ensures r.result.Ok? ==>
              && r.store == s.(fileHashes := s.fileHashes + [FileHashRow(r.result.value, basePathId, filename, hash)])
              && forall i :: 0 <= i < |s.fileHashes| ==> s.fileHashes[i].rowId < r.result.value
  {
    if InsertFileHash in s.failing then Outcome(s, Err(SqlError(InsertFileHash)))
    else
      var id := NextRowId(Ids(s.fileHashes, FileHashKey));
      Outcome(s.(fileHashes := s.fileHashes + [FileHashRow(id, basePathId, filename, hash)]), Ok(id))
  }

  /** The `UPDATE file_hash SET hash=? WHERE base_path_id=? AND filename=?`
      statement: keyed rows take the new digest; every other row and every
      other column stay as they were. */
  function UpdateHashes(rows: seq<FileHashRow>, basePathId: int, filename: string, hash: string): (r: seq<FileHashRow>)
    ensures |r| == |rows|
    ensures forall i :: 0 <= i < |rows| && Keyed(rows[i], basePathId, filename) ==> r[i] == rows[i].(hash := hash)
    ensures forall i :: 0 <= i < |rows| && !Keyed(rows[i], basePathId, filename) ==> r[i] == rows[i]
    decreases |rows|
  {
    if |rows| == 0 then []
    else [if Keyed(rows[0], basePathId, filename) then rows[0].(hash := hash) else rows[0]]
         + UpdateHashes(rows[1..], basePathId, filename, hash)
  }

  /** `update_file_record`; the statement is not guarded. The cursor's
      `lastrowid` it returns is not modelled. */
  function UpdateFileRecord(s: Store, basePathId: int, filename: string, hash: string): (r: Outcome<()>)
    ensures r.result.Err? <==> UpdateFileHash in s.failing
    ensures r.result.Err? ==> r.store == s && r.result.error == SqlError(UpdateFileHash)
    ensures r.result.Ok? ==>
              && r.store.basePaths == s.basePaths && r.store.configItems == s.configItems && r.store.failing == s.failing
              && Ids(r.store.fileHashes, FileHashKey) == Ids(s.fileHashes, FileHashKey)
              && |r.store.fileHashes| == |s.fileHashes|
              && (forall i :: 0 <= i < |s.fileHashes| && Keyed(s.fileHashes[i], basePathId, filename) ==>
                    r.store.fileHashes[i] == s.fileHashes[i].(hash := hash))
              && (forall i :: 0 <= i < |s.fileHashes| && !Keyed(s.fileHashes[i], basePathId, filename) ==>
                    r.store.fileHashes[i] == s.fileHashes[i])
  {
    if UpdateFileHash in s.failing then Outcome(s, Err(SqlError(UpdateFileHash)))
    else Outcome(s.(fileHashes := UpdateHashes(s.fileHashes, basePathId, filename, hash)), Ok(()))
  }

  lemma {:induction false} FindAfterUpdate(rows: seq<FileHashRow>, basePathId: int, filename: string, hash: string)
    ensures FindFileRow(UpdateHashes(rows, basePathId, filename, hash), basePathId, filename) ==
              match FindFileRow(rows, basePathId, filename)
              case None => None
              case Some(row) => Some(row.(hash := hash))
    decreases |rows|
  {
    if |rows| > 0 {
      FindAfterUpdate(rows[1..], basePathId, filename, hash);
      assert UpdateHashes(rows, basePathId, filename, hash)[1..] == UpdateHashes(rows[1..], basePathId, filename, hash);
    }
  }

  lemma {:induction false} FindAfterAppend(rows: seq<FileHashRow>, row: FileHashRow, basePathId: int, filename: string)
    requires FindFileRow(rows, basePathId, filename).None? && Keyed(row, basePathId, filename)
    ensures FindFileRow(rows + [row], basePathId, filename) == Some(row)
    decreases |rows|
  {
    if |rows| > 0 {
      assert (rows + [row])[1..] == rows[1..] + [row];
      FindAfterAppend(rows[1..], row, basePathId, filename);
    }
  }

  /** After a file's digest is updated, checking it against that digest
      answers MATCHED and against any other digest MODIFIED; a file without
      a row stays MISSING, since the update touched nothing. */
  lemma UpdateThenVerify(s: Store, basePathId: int, filename: string, hash: string, other: string)
    requires UpdateFileRecord(s, basePathId, filename, hash).result.Ok?
    requires SelectFileHash !in s.failing && other != hash
    ensures var t := UpdateFileRecord(s, basePathId, filename, hash).store;
      if VerifyFileState(s, basePathId, filename, hash) == Ok(Missing) then
        VerifyFileState(t, basePathId, filename, hash) == Ok(Missing)
      else
        VerifyFileState(t, basePathId, filename, hash) == Ok(Matched) &&
        VerifyFileState(t, basePathId, filename, other) == Ok(Modified)
  {
    var t := UpdateFileRecord(s, basePathId, filename, hash).store;
    assert t.fileHashes == UpdateHashes(s.fileHashes, basePathId, filename, hash) && t.failing == s.failing;
    FindAfterUpdate(s.fileHashes, basePathId, filename, hash);
  }

  /** Recording a file that was MISSING makes it MATCHED under its digest. */
  lemma AddThenVerify(s: Store, basePathId: int, filename: string, hash: string)
    requires VerifyFileState(s, basePathId, filename, hash) == Ok(Missing)
    requires AddFileRecord(s, basePathId, filename, hash).result.Ok?
    ensures VerifyFileState(AddFileRecord(s, basePathId, filename, hash).store, basePathId, filename, hash) == Ok(Matched)
  {
    var r := AddFileRecord(s, basePathId, filename, hash);
    FindAfterAppend(s.fileHashes, FileHashRow(r.result.value, basePathId, filename, hash), basePathId, filename);
  }

  /** `int(value)` on a stored configuration value. */
  function CellToInt(c: Cell): (r: Result<int, CatalogError>)
    ensures c.IntCell? ==> r == Ok(c.i)
    ensures c.TextCell? ==> (r.Ok? <==> ParseInt(c.s).Some?)
    ensures c.TextCell? && r.Ok? ==> Some(r.value) == ParseInt(c.s)
    ensures r.Err? ==> r.error == NotAnInt(c)
  {
    match c
    case IntCell(i) => Ok(i)
    case TextCell(t) => if ParseInt(t).Some? then Ok(ParseInt(t).value) else Err(NotAnInt(c))
  }

  /** The getters' shared shape: an unguarded select, `None` when no row has
      the key, else the first row's value as an int. */
  function GetConfigInt(s: Store, key: string): (r: Result<Option<int>, CatalogError>)
    ensures SelectConfig(key) in s.failing ==> r == Err(SqlError(SelectConfig(key)))
    ensures SelectConfig(key) !in s.failing ==>
              (r == Ok(None) <==> forall i :: 0 <= i < |s.configItems| ==> s.configItems[i].key != key)
    ensures SelectConfig(key) !in s.failing ==> forall i :: FirstWithKey(s.configItems, key, i) ==>
              && (CellToInt(s.configItems[i].value).Ok? ==> r == Ok(Some(CellToInt(s.configItems[i].value).value)))
              && (CellToInt(s.configItems[i].value).Err? ==> r == Err(NotAnInt(s.configItems[i].value)))
  {
    if SelectConfig(key) in s.failing then Err(SqlError(SelectConfig(key)))
    else
      match ConfigValue(s.configItems, key)
      case None => Ok(None)
      case Some(c) =>
        match CellToInt(c)
        case Ok(i) => Ok(Some(i))
        case Err(e) => Err(e)
  }

  /** `get_config_item_scan_interval`. */
  function GetConfigItemScanInterval(s: Store): (r: Result<Option<int>, CatalogError>)
    ensures SelectConfig(SCAN_INTERVAL) in s.failing ==> r == Err(SqlError(SelectConfig(SCAN_INTERVAL)))
    ensures SelectConfig(SCAN_INTERVAL) !in s.failing ==>
              (r == Ok(None) <==> forall i :: 0 <= i < |s.configItems| ==> s.configItems[i].key != SCAN_INTERVAL)
    ensures SelectConfig(SCAN_INTERVAL) !in s.failing ==> forall i :: FirstWithKey(s.configItems, SCAN_INTERVAL, i) ==>
              && (CellToInt(s.configItems[i].value).Ok? ==> r == Ok(Some(CellToInt(s.configItems[i].value).value)))
              && (CellToInt(s.configItems[i].value).Err? ==> r == Err(NotAnInt(s.configItems[i].value)))
  {
    GetConfigInt(s, SCAN_INTERVAL)
  }

  /** `get_config_item_last_update`. */
  function GetConfigItemLastUpdate(s: Store): (r: Result<Option<int>, CatalogError>)
    ensures SelectConfig(LAST_UPDATE) in s.failing ==> r == Err(SqlError(SelectConfig(LAST_UPDATE)))
    ensures SelectConfig(LAST_UPDATE) !in s.failing ==>
              (r == Ok(None) <==> forall i :: 0 <= i < |s.configItems| ==> s.configItems[i].key != LAST_UPDATE)
    ensures SelectConfig(LAST_UPDATE) !in s.failing ==> forall i :: FirstWithKey(s.configItems, LAST_UPDATE, i) ==>
              && (CellToInt(s.configItems[i].value).Ok? ==> r == Ok(Some(CellToInt(s.configItems[i].value).value)))
              && (CellToInt(s.configItems[i].value).Err? ==> r == Err(NotAnInt(s.configItems[i].value)))
  {
    GetConfigInt(s, LAST_UPDATE)
  }

  /** `get_config_item_library_hash`: the raw stored value. */
  function GetConfigItemLibraryHash(s: Store): (r: Result<Option<Cell>, CatalogError>)
    ensures SelectConfig(LIBRARY_HASH) in s.failing ==> r == Err(SqlError(SelectConfig(LIBRARY_HASH)))
    ensures r.Err? <==> SelectConfig(LIBRARY_HASH) in s.failing
    ensures r.Ok? ==> (r.value.None? <==> forall i :: 0 <= i < |s.configItems| ==> s.configItems[i].key != LIBRARY_HASH)
    ensures r.Ok? ==> forall i :: FirstWithKey(s.configItems, LIBRARY_HASH, i) ==> r.value == Some(s.configItems[i].value)
  {
    if SelectConfig(LIBRARY_HASH) in s.failing then Err(SqlError(SelectConfig(LIBRARY_HASH)))
    else Ok(ConfigValue(s.configItems, LIBRARY_HASH))
  }

  /** `_update_last_update`: stores the whole-second clock; false when the
      update fails, with nothing written. */
  function UpdateLastUpdate(s: Store, now: int): (r: (Store, bool))
    ensures r.1 <==> UpdateConfig(LAST_UPDATE) !in s.failing
    ensures !r.1 ==> r.0 == s
    ensures r.0.basePaths == s.basePaths && r.0.fileHashes == s.fileHashes && r.0.failing == s.failing
    ensures r.1 ==> r.0.configItems == SetConfig(s.configItems, LAST_UPDATE, IntCell(now))
  {
    if UpdateConfig(LAST_UPDATE) in s.failing then (s, false)
    else (s.(configItems := SetConfig(s.configItems, LAST_UPDATE, IntCell(now))), true)
  }

  /** `update_config_item_scan_interval`: a failed interval update answers
      false and does not touch `last_update`; otherwise the answer is that of
      the `last_update` write. */
  function UpdateConfigItemScanInterval(s: Store, interval: int, now: int): (r: (Store, bool))
    ensures UpdateConfig(SCAN_INTERVAL) in s.failing ==> r == (s, false)
    ensures UpdateConfig(SCAN_INTERVAL) !in s.failing ==>
              var written := s.(configItems := SetConfig(s.configItems, SCAN_INTERVAL, IntCell(interval)));
              r == UpdateLastUpdate(written, now)
  {
    if UpdateConfig(SCAN_INTERVAL) in s.failing then (s, false)
    else UpdateLastUpdate(s.(configItems := SetConfig(s.configItems, SCAN_INTERVAL, IntCell(interval))), now)
  }

  lemma ConfigKeysDistinct()
    ensures SCAN_INTERVAL != LAST_UPDATE && SCAN_INTERVAL != LIBRARY_HASH && LAST_UPDATE != LIBRARY_HASH
  {
    assert SCAN_INTERVAL[0] != LAST_UPDATE[0] && SCAN_INTERVAL[0] != LIBRARY_HASH[0];
    assert LAST_UPDATE[1] != LIBRARY_HASH[1];
  }

  /** Round trip through the table: after a successful interval update the
      getters read back the interval and the clock, provided the rows exist
      and the selects work. */
  lemma ScanIntervalRoundTrip(s: Store, interval: int, now: int)
    requires UpdateConfigItemScanInterval(s, interval, now).1
    requires SelectConfig(SCAN_INTERVAL) !in s.failing && SelectConfig(LAST_UPDATE) !in s.failing
    requires ConfigValue(s.configItems, SCAN_INTERVAL).Some? && ConfigValue(s.configItems, LAST_UPDATE).Some?
    ensures GetConfigItemScanInterval(UpdateConfigItemScanInterval(s, interval, now).0) == Ok(Some(interval))
    ensures GetConfigItemLastUpdate(UpdateConfigItemScanInterval(s, interval, now).0) == Ok(Some(now))
  {
    ConfigKeysDistinct();
    var items1 := SetConfig(s.configItems, SCAN_INTERVAL, IntCell(interval));
    SetThenGet(s.configItems, SCAN_INTERVAL, IntCell(interval), LAST_UPDATE);
    SetThenGet(items1, LAST_UPDATE, IntCell(now), SCAN_INTERVAL);
  }
}

=== FILE: configuration.dfy ===
/** Layered configuration resolution (`shared/configuration/configuration.py`).
    Each layout item is looked up first in the environment variable named
    `SECTION_ITEM` (upper case), then in the configuration file when one was
    given, then in the layout default, and is parsed by its type. The
    environment is a map, the file is what `configparser` made of it (option
    names lower-cased), and floating-point items are read by a parameter. */
module Config {
  import opened Wrappers
  import opened Text
  import opened ConfigSetup

  /** The exceptions reading can raise. All are `ValueError`s except the last
      three, which no caller catches. */
  datatype ConfigError =
    | FileParseFailed(reason: string)
    | RequiredFileUnreadable(fileName: string)
    | InvalidSection(section: string)
    | InvalidItem(section: string, item: string)
    | MissingRequired(section: string, item: string)
    | InvalidValue(value: PyValue, item: string)
    | FileNotValidInt(item: string)
    | NotAnInt(item: string, value: PyValue)
    | FileNotValidBool(item: string)
    | NotABool(item: string, value: PyValue)
    | NotUnsigned(item: string, number: int)
    | FloatFailure(message: string)
    | TypeErrorRaised(value: PyValue)
    | AttributeErrorRaised(value: PyValue)
    | ParserRaised(exception: string)

  predicate IsValueError(e: ConfigError) {
    !e.TypeErrorRaised? && !e.AttributeErrorRaised? && !e.ParserRaised?
  }

  /** The text of each `ValueError`, as the f-strings build it. */
  function Message(e: ConfigError): string
    requires IsValueError(e)
  {
    match e
    case FileParseFailed(reason) => "Failed to read required config file, reason: " + reason
    case RequiredFileUnreadable(name) => "Failed to open required config file '" + name + "'"
    case InvalidSection(section) => "Invalid section '" + section + "'"
    case InvalidItem(section, item) => "Invalid config item " + section + "::" + item + "'"
    case MissingRequired(section, item) => "Missing required config option '" + section + "::" + item + "'"
    case InvalidValue(value, item) => "Value of '" + Str(value) + " for " + item + " is invalid"
    case FileNotValidInt(item) => "Config file option '" + item + "' is not a valid int."
    case NotAnInt(item, value) => "Configuration option '" + item + "' with a value of '" + Str(value) + "' is not an int."
    case FileNotValidBool(item) => "Config file option '" + item + "' is not a valid boolean."
    case NotABool(item, value) => "Configuration option '" + item + "' with a value of '" + Str(value) + "' is not an bool."
    case NotUnsigned(item, value) => "Configuration option '" + item + "' with avalue of '" + IntToString(value) + "' is not an unsigned int."
    case FloatFailure(message) => message
  }

  /** What the environment and the parsed file offer to the readers. */
  datatype Sources = Sources(env: map<string, string>, hasFile: bool, parsed: map<string, map<string, string>>)

  /** `os.getenv(f"{section}_{item}".upper())`. */
  function Getenv(src: Sources, section: string, item: string): Option<string> {
    var name := Upper(section + "_" + item);
    if name in src.env then Some(src.env[name]) else None
  }

  /** The file's raw text for an option, `None` for `NoSectionError` and
      `NoOptionError`; only consulted when a file was configured. */
  function FileOption(src: Sources, section: string, item: string): Option<string> {
    if src.hasFile && section in src.parsed && Lower(item) in src.parsed[section]
    then Some(src.parsed[section][Lower(item)])
    else None
  }

  /** `int(v)`: strings are parsed, booleans count as 0 and 1, and a list or
      `None` is a `TypeError`. */
  function ToInt(item: string, v: PyValue): (r: Result<int, ConfigError>)
    ensures v.PyInt? ==> r == Ok(v.i)
    ensures v.PyBool? ==> r == Ok(if v.b then 1 else 0)
    ensures v.PyStr? ==> (r.Ok? <==> ParseInt(v.s).Some?) && (r.Ok? ==> r.value == ParseInt(v.s).value)
    ensures v.PyStr? && r.Err? ==> r.error == NotAnInt(item, v)
    ensures (v.PyList? || v.PyNone?) ==> r == Err(TypeErrorRaised(v))
  {
    match v
    case PyInt(i) => Ok(i)
    case PyBool(b) => Ok(if b then 1 else 0)
    case PyStr(s) => if ParseInt(s).Some? then Ok(ParseInt(s).value) else Err(NotAnInt(item, v))
    case _ => Err(TypeErrorRaised(v))
  }

  /** Text that starts with one of the separators 0x1C-0x1F is not an int,
      although `str.isspace()` holds for the separator. */
  lemma SeparatorTextIsNotAnInt(item: string, c: char, s: string)
    requires 28 <= c as int <= 31
    ensures ToInt(item, PyStr([c] + s)) == Err(NotAnInt(item, PyStr([c] + s)))
  {
    SeparatorsAreNotStripped(c, s);
  }

  /** The required and valid-values checks `_read_str` applies to the value
      it settled on. */
  function StrChecks(section: string, fmt: SetupItem, v: PyValue): (r: Result<PyValue, ConfigError>)
    ensures r.Ok? <==> (Truthy(v) || !fmt.isRequired) && (|fmt.validValues| == 0 || PyIn(v, fmt.validValues))
    ensures r.Ok? ==> r.value == v
    ensures !Truthy(v) && fmt.isRequired ==> r == Err(MissingRequired(section, fmt.itemName))
    ensures (Truthy(v) || !fmt.isRequired) && r.Err? ==> r == Err(InvalidValue(v, fmt.itemName))
  {
    if !Truthy(v) && fmt.isRequired then Err(MissingRequired(section, fmt.itemName))
    else if |fmt.validValues| > 0 && !PyIn(v, fmt.validValues) then Err(InvalidValue(v, fmt.itemName))
    else Ok(v)
  }

  /** `_read_str`: a non-empty environment value wins, then a non-empty file
      value, then the layout default; an empty string counts as absent. */
  function ReadStr(section: string, fmt: SetupItem, src: Sources): (r: Result<PyValue, ConfigError>)
    ensures var env := Getenv(src, section, fmt.itemName);
      env.Some? && env.value != "" ==> r == StrChecks(section, fmt, PyStr(env.value))
    ensures var env := Getenv(src, section, fmt.itemName);
      var file := FileOption(src, section, fmt.itemName);
      !(env.Some? && env.value != "") && file.Some? && file.value != "" ==> r == StrChecks(section, fmt, PyStr(file.value))
    ensures var env := Getenv(src, section, fmt.itemName);
      var file := FileOption(src, section, fmt.itemName);
      !(env.Some? && env.value != "") && !(file.Some? && file.value != "") ==> r == StrChecks(section, fmt, fmt.defaultValue)
  {
    var value := Getenv(src, section, fmt.itemName);
    var value := if !(value.Some? && value.value != "") && src.hasFile then FileOption(src, section, fmt.itemName) else value;
    var chosen := if value.Some? && value.value != "" then PyStr(value.value) else fmt.defaultValue;
    StrChecks(section, fmt, chosen)
  }

  /** `_read_int`: an environment value wins even when empty; otherwise a
      file value must parse as an int; otherwise the default is converted,
      and the required check fires only for a `None` default. */
  function ReadInt(section: string, fmt: SetupItem, src: Sources): (r: Result<int, ConfigError>)
    ensures var env := Getenv(src, section, fmt.itemName);
      env.Some? ==> r == ToInt(fmt.itemName, PyStr(env.value))
    ensures var file := FileOption(src, section, fmt.itemName);
      Getenv(src, section, fmt.itemName).None? && file.Some? ==>
        r == (if ParseInt(file.value).Some? then Ok(ParseInt(file.value).value) else Err(FileNotValidInt(fmt.itemName)))
    ensures Getenv(src, section, fmt.itemName).None? && FileOption(src, section, fmt.itemName).None? ==>
              r == (if fmt.defaultValue.PyNone? && fmt.isRequired then Err(MissingRequired(section, fmt.itemName))
                    else ToInt(fmt.itemName, fmt.defaultValue))
  {
    var env := Getenv(src, section, fmt.itemName);
    var fromFile: Result<Option<PyValue>, ConfigError> :=
      if env.None? && src.hasFile then
        match FileOption(src, section, fmt.itemName)
        case None => Ok(None)
        case Some(t) => if ParseInt(t).Some? then Ok(Some(PyInt(ParseInt(t).value))) else Err(FileNotValidInt(fmt.itemName))
      else Ok(if env.Some? then Some(PyStr(env.value)) else None);
    match fromFile
    case Err(e) => Err(e)
    case Ok(found) =>
      var value := if found.Some? then found.value else fmt.defaultValue;
      if value.PyNone? && fmt.isRequired then Err(MissingRequired(section, fmt.itemName))
      else ToInt(fmt.itemName, value)
  }

  /** The environment value of a number wins over the file. */
  lemma EnvIntBeatsFile(section: string, fmt: SetupItem, src: Sources, n: int)
    requires Getenv(src, section, fmt.itemName) == Some(IntToString(n))
    ensures ReadInt(section, fmt, src) == Ok(n)
  {
    IntStringRoundTrip(n);
  }

  /** With no environment variable, the file's number wins over the default. */
  lemma FileIntBeatsDefault(section: string, fmt: SetupItem, src: Sources, n: int)
    requires Getenv(src, section, fmt.itemName).None?
    requires FileOption(src, section, fmt.itemName) == Some(IntToString(n))
    ensures ReadInt(section, fmt, src) == Ok(n)
  {
    IntStringRoundTrip(n);
  }

  /** Because the constructor never leaves a `None` default, the required
      check of `_read_int` cannot fire for a layout item: a required int with
      no value anywhere ends in `int([])`, a `TypeError`. */
  lemma RequiredIntCheckUnreachable(section: string, name: string, src: Sources)
    requires Getenv(src, section, name).None? && FileOption(src, section, name).None?
    ensures var fmt := NewSetupItem(name, Int, None, true, PyNone);
      ReadInt(section, fmt, src) == Err(TypeErrorRaised(PyList([])))
  {
  }

  /** Whether nothing was configured: `None`, or the `[]` placeholder the
      constructor puts in place of a missing default. */
  predicate Unset(v: PyValue) {
    v.PyNone? || v == PyList([])
  }

  /** `_read_int` as its description says ("an int or None if it's not a
      required field", which `_read_uint`'s `None` test also expects): with
      nothing configured a required item raises the missing-option error and
      any other item reads as `None`. */
  function ReadIntIntended(section: string, fmt: SetupItem, src: Sources): (r: Result<Option<int>, ConfigError>)
    ensures Getenv(src, section, fmt.itemName).None? && FileOption(src, section, fmt.itemName).None? && Unset(fmt.defaultValue) ==>
              r == (if fmt.isRequired then Err(MissingRequired(section, fmt.itemName)) else Ok(None))
    ensures !(Getenv(src, section, fmt.itemName).None? && FileOption(src, section, fmt.itemName).None? && Unset(fmt.defaultValue)) ==>
              (r.Ok? <==> ReadInt(section, fmt, src).Ok?) &&
              (r.Ok? ==> r.value == Some(ReadInt(section, fmt, src).value)) &&
              (r.Err? ==> r.error == ReadInt(section, fmt, src).error)
  {
    if Getenv(src, section, fmt.itemName).None? && FileOption(src, section, fmt.itemName).None? && Unset(fmt.defaultValue) then
      if fmt.isRequired then Err(MissingRequired(section, fmt.itemName)) else Ok(None)
    else
      match ReadInt(section, fmt, src)
      case Ok(v) => Ok(Some(v))
      case Err(e) => Err(e)
  }

  /** `configparser`'s `getboolean` vocabulary, case-insensitive. */
  function GetBoolean(t: string): (r: Option<bool>)
    ensures r == Some(true) <==> Lower(t) in ["1", "yes", "true", "on"]
    ensures r == Some(false) <==> Lower(t) in ["0", "no", "false", "off"]
  {
    if Lower(t) in ["1", "yes", "true", "on"] then Some(true)
    else if Lower(t) in ["0", "no", "false", "off"] then Some(false)
    else None
  }

  /** The tail of `_read_bool`: the required check on a falsy value, then
      `value.lower()` matched against "true"/"1" and "false"/"0". Only a
      string has `lower`. */
  function BoolChecks(section: string, fmt: SetupItem, v: PyValue): (r: Result<bool, ConfigError>)
    ensures !Truthy(v) && fmt.isRequired ==> r == Err(MissingRequired(section, fmt.itemName))
    ensures (Truthy(v) || !fmt.isRequired) && !v.PyStr? ==> r == Err(AttributeErrorRaised(v))
    ensures (Truthy(v) || !fmt.isRequired) && v.PyStr? ==>
              && (r == Ok(true) <==> Lower(v.s) in ["true", "1"])
              && (r == Ok(false) <==> Lower(v.s) in ["false", "0"])
              && (r.Err? ==> r.error == NotABool(fmt.itemName, v))
  {
    if !Truthy(v) && fmt.isRequired then Err(MissingRequired(section, fmt.itemName))
    else match v
      case PyStr(s) =>
        if Lower(s) in ["true", "1"] then Ok(true)
        else if Lower(s) in ["false", "0"] then Ok(false)
        else Err(NotABool(fmt.itemName, v))
      case _ => Err(AttributeErrorRaised(v))
  }

  /** `_read_bool` as written: an environment value (even empty) wins; a file
      value goes through `getboolean`, whose result is a `bool`; otherwise
      the default. */
  function ReadBool(section: string, fmt: SetupItem, src: Sources): (r: Result<bool, ConfigError>)
    ensures var env := Getenv(src, section, fmt.itemName);
      env.Some? ==> r == BoolChecks(section, fmt, PyStr(env.value))
    ensures var file := FileOption(src, section, fmt.itemName);
      Getenv(src, section, fmt.itemName).None? && file.Some? ==>
        r == (if GetBoolean(file.value).Some? then BoolChecks(section, fmt, PyBool(GetBoolean(file.value).value))
              else Err(FileNotValidBool(fmt.itemName)))
    ensures Getenv(src, section, fmt.itemName).None? && FileOption(src, section, fmt.itemName).None? ==>
              r == BoolChecks(section, fmt, fmt.defaultValue)
  {
    var env := Getenv(src, section, fmt.itemName);
    var fromFile: Result<Option<PyValue>, ConfigError> :=
      if env.None? && src.hasFile then
        match FileOption(src, section, fmt.itemName)
        case None => Ok(None)
        case Some(t) => if GetBoolean(t).Some? then Ok(Some(PyBool(GetBoolean(t).value))) else Err(FileNotValidBool(fmt.itemName))
      else Ok(if env.Some? then Some(PyStr(env.value)) else None);
    match fromFile
    case Err(e) => Err(e)
    case Ok(found) => BoolChecks(section, fmt, if found.Some? then found.value else fmt.defaultValue)
  }

  /** No boolean can come from the file: `true` reaches `.lower()` on a
      `bool` and raises `AttributeError`, and `false` is falsy, so it raises
      the missing-option error for a required item and `AttributeError`
      otherwise. */
  lemma FileBooleanIsNeverAccepted(section: string, fmt: SetupItem, src: Sources)
    requires Getenv(src, section, fmt.itemName).None?
    requires FileOption(src, section, fmt.itemName).Some?
    ensures ReadBool(section, fmt, src).Err?
  {
  }

  /** `_read_bool` with the file's `bool` taken as it is. */
  function ReadBoolIntended(section: string, fmt: SetupItem, src: Sources): (r: Result<bool, ConfigError>)
    ensures var file := FileOption(src, section, fmt.itemName);
      Getenv(src, section, fmt.itemName).None? && file.Some? ==>
        r == (if GetBoolean(file.value).Some? then Ok(GetBoolean(file.value).value) else Err(FileNotValidBool(fmt.itemName)))
    ensures !(Getenv(src, section, fmt.itemName).None? && FileOption(src, section, fmt.itemName).Some?) ==>
              r == ReadBool(section, fmt, src)
  {
    var file := FileOption(src, section, fmt.itemName);
    if Getenv(src, section, fmt.itemName).None? && file.Some? then
      if GetBoolean(file.value).Some? then Ok(GetBoolean(file.value).value) else Err(FileNotValidBool(fmt.itemName))
    else ReadBool(section, fmt, src)
  }

  /** The corrected reader accepts every `getboolean` spelling in the file,
      "on" and "no" included, for required and optional items alike. */
  lemma IntendedAcceptsFileBooleans(section: string, fmt: SetupItem, src: Sources, b: bool)
    requires Getenv(src, section, fmt.itemName).None?
    requires FileOption(src, section, fmt.itemName) == Some(if b then "on" else "no")
    ensures ReadBoolIntended(section, fmt, src) == Ok(b)
  {
    var t := if b then "on" else "no";
    assert Lower(t) == t;
  }

  /** `_read_uint`: the int reading, with negatives refused. */
  function ReadUInt(section: string, fmt: SetupItem, src: Sources): (r: Result<int, ConfigError>)
    ensures r.Ok? <==> ReadInt(section, fmt, src).Ok? && ReadInt(section, fmt, src).value >= 0
    ensures r.Ok? ==> r.value == ReadInt(section, fmt, src).value
    ensures ReadInt(section, fmt, src).Err? ==> r == ReadInt(section, fmt, src)
    ensures ReadInt(section, fmt, src).Ok? && ReadInt(section, fmt, src).value < 0 ==>
              r == Err(NotUnsigned(fmt.itemName, ReadInt(section, fmt, src).value))
  {
    var value :- ReadInt(section, fmt, src);
    if value < 0 then Err(NotUnsigned(fmt.itemName, value)) else Ok(value)
  }

  /** The reader `_read_configuration` picks by item type; floating-point
      items go to `readFloat`. */
  function ReadItem(section: string, item: SetupItem, src: Sources,
                    readFloat: (string, SetupItem) -> Result<PyValue, ConfigError>): (r: Result<PyValue, ConfigError>)
    ensures item.itemType == Int ==>
              && (r.Ok? <==> ReadInt(section, item, src).Ok?)
              && (r.Ok? ==> r.value == PyInt(ReadInt(section, item, src).value))
    ensures item.itemType == UnsignedInt ==>
              && (r.Ok? <==> ReadUInt(section, item, src).Ok?)
              && (r.Ok? ==> r.value == PyInt(ReadUInt(section, item, src).value))
    ensures item.itemType == Boolean ==>
              && (r.Ok? <==> ReadBool(section, item, src).Ok?)
              && (r.Ok? ==> r.value == PyBool(ReadBool(section, item, src).value))
    ensures item.itemType == String ==> r == ReadStr(section, item, src)
    ensures item.itemType == Float ==> r == readFloat(section, item)
  {
    match item.itemType
    case Int => var v :- ReadInt(section, item, src); Ok(PyInt(v))
    case UnsignedInt => var v :- ReadUInt(section, item, src); Ok(PyInt(v))
    case Boolean => var v :- ReadBool(section, item, src); Ok(PyBool(v))
    case String => ReadStr(section, item, src)
    case Float => readFloat(section, item)
  }

  type Items = map<string, map<string, PyValue>>

  /** What `_config_items[section][item]` holds, if anything. */
  function Lookup(m: Items, section: string, item: string): Option<PyValue> {
    if section in m && item in m[section] then Some(m[section][item]) else None
  }

  function Put(m: Items, section: string, item: string, v: PyValue): (r: Items)
    ensures Lookup(r, section, item) == Some(v)
    ensures forall s, i :: s != section || i != item ==> Lookup(r, s, i) == Lookup(m, s, i)
  {
    m[section := (if section in m then m[section] else map[])[item := v]]
  }

  /** How the loops read one item of a section. */
  type Reader = (string, SetupItem) -> Result<PyValue, ConfigError>

  /** The reader `process_config` uses: `ReadItem` over the configuration's
      sources. */
  function ItemReader(src: Sources, readFloat: (string, SetupItem) -> Result<PyValue, ConfigError>): (r: Reader)
    ensures forall section, item :: r(section, item) == ReadItem(section, item, src, readFloat)
  {
    (section: string, item: SetupItem) => ReadItem(section, item, src, readFloat)
  }

  /** The inner loop of `_read_configuration`: the items of one section, in
      order, stopping at the first that raises. A section with no items adds
      nothing, not even its name. */
  function StoreSection(m: Items, section: string, items: seq<SetupItem>, read: Reader): (r: Result<Items, ConfigError>)
    decreases |items|
  {
    if |items| == 0 then Ok(m)
    else
      var v :- read(section, items[0]);
      StoreSection(Put(m, section, items[0].itemName, v), section, items[1..], read)
  }

  /** The outer loop, from the `k`-th name of `get_sections` onwards. */
  function ReadSections(m: Items, l: ConfigurationSetup, k: nat, read: Reader): (r: Result<Items, ConfigError>)
    decreases |l.sections| - k
  {
    var names := GetSections(l);
    if k >= |names| then Ok(m)
    else
      var items := GetSection(l, names[k]);
      var m' :- StoreSection(m, names[k], items.value, read);
      ReadSections(m', l, k + 1, read)
  }

  ghost predicate DistinctItemNames(items: seq<SetupItem>) {
    forall i, j :: 0 <= i < j < |items| ==> items[i].itemName != items[j].itemName
  }

  /** A layout as a dict of sections whose item names are unique. */
  ghost predicate WellFormedLayout(l: ConfigurationSetup) {
    DistinctNames(l) && forall k :: 0 <= k < |l.sections| ==> DistinctItemNames(l.sections[k].items)
  }

  lemma {:induction false} StoreSectionFrame(m: Items, section: string, items: seq<SetupItem>, read: Reader, s: string, i: string)
    requires StoreSection(m, section, items, read).Ok?
    requires s != section || forall j :: 0 <= j < |items| ==> items[j].itemName != i
    ensures Lookup(StoreSection(m, section, items, read).value, s, i) == Lookup(m, s, i)
    decreases |items|
  {
    if |items| > 0 {
      var v := read(section, items[0]).value;
      StoreSectionFrame(Put(m, section, items[0].itemName, v), section, items[1..], read, s, i);
    }
  }

  /** Each item of the section ends up stored under its name with the value
      its reader gave. */
  lemma {:induction false} StoreSectionStores(m: Items, section: string, items: seq<SetupItem>, read: Reader, j: int)
    requires StoreSection(m, section, items, read).Ok?
    requires DistinctItemNames(items) && 0 <= j < |items|
    ensures read(section, items[j]).Ok?
    ensures Lookup(StoreSection(m, section, items, read).value, section, items[j].itemName)
            == Some(read(section, items[j]).value)
    decreases |items|
  {
    var v := read(section, items[0]).value;
    var m' := Put(m, section, items[0].itemName, v);
    if j == 0 {
      StoreSectionFrame(m', section, items[1..], read, section, items[0].itemName);
    } else {
      assert items[1..][j - 1] == items[j];
      StoreSectionStores(m', section, items[1..], read, j - 1);
    }
  }

  lemma {:induction false} ReadSectionsFrame(m: Items, l: ConfigurationSetup, k: nat, read: Reader, s: string, i: string)
    requires ReadSections(m, l, k, read).Ok?
    requires forall q :: k <= q < |l.sections| ==> l.sections[q].name != s
    ensures Lookup(ReadSections(m, l, k, read).value, s, i) == Lookup(m, s, i)
    decreases |l.sections| - k
  {
    var names := GetSections(l);
    if k < |names| {
      var items := GetSection(l, names[k]).value;
      StoreSectionFrame(m, names[k], items, read, s, i);
      var m' := StoreSection(m, names[k], items, read).value;
      ReadSectionsFrame(m', l, k + 1, read, s, i);
    }
  }

  /** After a successful run, `_config_items[section][item]` holds what the
      item's reader produced, for every item of every section from `k` on. */
  lemma {:induction false} ReadSectionsStores(m: Items, l: ConfigurationSetup, k: nat, read: Reader, q: int, j: int)
    requires WellFormedLayout(l)
    requires ReadSections(m, l, k, read).Ok?
    requires k <= q < |l.sections| && 0 <= j < |l.sections[q].items|
    ensures read(l.sections[q].name, l.sections[q].items[j]).Ok?
    ensures Lookup(ReadSections(m, l, k, read).value, l.sections[q].name, l.sections[q].items[j].itemName)
            == Some(read(l.sections[q].name, l.sections[q].items[j]).value)
    decreases |l.sections| - k
  {
    var name := l.sections[k].name;
    var items := l.sections[k].items;
    SectionStep(l, k);
    var m' := StoreSection(m, name, items, read).value;
    assert ReadSections(m, l, k, read) == ReadSections(m', l, k + 1, read);
    if q == k {
      StoreSectionStores(m, name, items, read, j);
      ReadSectionsFrame(m', l, k + 1, read, name, items[j].itemName);
    } else {
      ReadSectionsStores(m', l, k + 1, read, q, j);
    }
  }

  /** What the outer loop relies on at the `k`-th section of a well-formed
      layout. */
  lemma SectionStep(l: ConfigurationSetup, k: nat)
    requires WellFormedLayout(l) && k < |l.sections|
    ensures GetSections(l)[k] == l.sections[k].name
    ensures GetSection(l, l.sections[k].name) == Some(l.sections[k].items)
    ensures DistinctItemNames(l.sections[k].items)
    ensures forall p :: k < p < |l.sections| ==> l.sections[p].name != l.sections[k].name
  {
    GetSectionOfListedName(l, k);
  }

  /** What `configparser.read` makes of the configured file: nothing read,
      a `ParsingError`, the content, or another exception (the strict
      parser's `DuplicateSectionError` and `DuplicateOptionError`, or a
      `UnicodeDecodeError`), which the `except configparser.ParsingError`
      clause does not catch. */
  datatype FileRead =
    | Unreadable
    | ParseFailure(reason: string)
    | Parsed(content: map<string, map<string, string>>)
    | Raised(exception: string)

  /** The `Configuration` object; `parsed` is the parser's content. */
  datatype Configuration = Configuration(
    configFile: Option<string>,
    fileRequired: bool,
    layout: ConfigurationSetup,
    hasConfigFile: bool,
    parsed: map<string, map<string, string>>,
    items: Items)

  function NewConfiguration(): (r: Configuration)
    ensures !r.hasConfigFile && r.items == map[] && r.parsed == map[] && r.configFile == None
  {
    Configuration(None, false, ConfigurationSetup([]), false, map[], map[])
  }

  /** `configure`: records the layout, the file and whether it is required. */
  function Configure(c: Configuration, layout: ConfigurationSetup, configFile: Option<string>, fileRequired: bool): (r: Configuration)
    ensures r.layout == layout && r.configFile == configFile && r.fileRequired == fileRequired
    ensures r.items == c.items && r.hasConfigFile == c.hasConfigFile && r.parsed == c.parsed
  {
    c.(layout := layout, configFile := configFile, fileRequired := fileRequired)
  }

  /** A later read of the parser adds its sections and options over the
      earlier ones. */
  function Merge(earlier: map<string, map<string, string>>, later: map<string, map<string, string>>): (r: map<string, map<string, string>>)
    ensures r.Keys == earlier.Keys + later.Keys
    ensures forall s :: s in later ==> later[s].Keys <= r[s].Keys && forall o :: o in later[s] ==> r[s][o] == later[s][o]
  {
    map s | s in earlier.Keys + later.Keys :: (if s in earlier then earlier[s] else map[]) + (if s in later then later[s] else map[])
  }

  /** A first read of the parser holds exactly the file's content. */
  lemma MergeIntoEmpty(content: map<string, map<string, string>>)
    ensures Merge(map[], content) == content
  {
    var r := Merge(map[], content);
    forall s | s in content
      ensures r[s] == content[s]
    {
      assert r[s] == map[] + content[s];
    }
  }

  predicate FileGiven(c: Configuration) {
    c.configFile.Some? && c.configFile.value != ""
  }

  /** The file step of `process_config`. An unreadable file is an error only
      when required; either way the configuration then counts as having a
      file. */
  function OpenFile(c: Configuration, files: string -> FileRead): (r: Result<Configuration, ConfigError>)
    ensures !FileGiven(c) ==> r == Ok(c)
    ensures FileGiven(c) && files(c.configFile.value).Unreadable? ==>
              r == (if c.fileRequired then Err(RequiredFileUnreadable(c.configFile.value)) else Ok(c.(hasConfigFile := true)))
    ensures FileGiven(c) && files(c.configFile.value).ParseFailure? ==>
              r == Err(FileParseFailed(files(c.configFile.value).reason))
    ensures FileGiven(c) && files(c.configFile.value).Parsed? ==>
              r == Ok(c.(hasConfigFile := true, parsed := Merge(c.parsed, files(c.configFile.value).content)))
    ensures FileGiven(c) && files(c.configFile.value).Raised? ==>
              r == Err(ParserRaised(files(c.configFile.value).exception))
  {
    if FileGiven(c) then
      match files(c.configFile.value)
      case ParseFailure(reason) => Err(FileParseFailed(reason))
      case Unreadable =>
        if c.fileRequired then Err(RequiredFileUnreadable(c.configFile.value)) else Ok(c.(hasConfigFile := true))
      case Parsed(content) => Ok(c.(hasConfigFile := true, parsed := Merge(c.parsed, content)))
      case Raised(exception) => Err(ParserRaised(exception))
    else Ok(c)
  }

  function SourcesOf(c: Configuration, env: map<string, string>): Sources {
    Sources(env, c.hasConfigFile, c.parsed)
  }

  /** `process_config`: the file step, then every layout item read into
      `_config_items`, stopping at the first error. */
  function ProcessConfig(c: Configuration, env: map<string, string>, files: string -> FileRead,
                         readFloat: (string, SetupItem) -> Result<PyValue, ConfigError>): (r: Result<Configuration, ConfigError>)
    ensures OpenFile(c, files).Err? ==> r == Err(OpenFile(c, files).error)
    ensures r.Ok? ==> OpenFile(c, files).Ok? && r.value == OpenFile(c, files).value.(items := r.value.items)
  {
    match OpenFile(c, files)
    case Err(e) => Err(e)
    case Ok(c') =>
      match ReadSections(c'.items, c'.layout, 0, ItemReader(SourcesOf(c', env), readFloat))
      case Err(e) => Err(e)
      case Ok(items) =>
        Ok(c'.(items := items))
  }

  /** An exception of the parser other than `ParsingError` escapes
      `process_config` as it is, not as a `ValueError`, and no item is read. */
  lemma ParserExceptionsEscape(c: Configuration, env: map<string, string>, files: string -> FileRead,
                               readFloat: (string, SetupItem) -> Result<PyValue, ConfigError>)
    requires FileGiven(c) && files(c.configFile.value).Raised?
    ensures var r := ProcessConfig(c, env, files, readFloat);
      r == Err(ParserRaised(files(c.configFile.value).exception)) && !IsValueError(r.error)
  {
  }

  /** `get_entry`: an unknown section, then an unknown item, raise; otherwise
      the stored value. */
  function GetEntry(c: Configuration, section: string, item: string): (r: Result<PyValue, ConfigError>)
    ensures section !in c.items ==> r == Err(InvalidSection(section))
    ensures section in c.items && item !in c.items[section] ==> r == Err(InvalidItem(section, item))
    ensures r.Ok? <==> Lookup(c.items, section, item).Some?
    ensures r.Ok? ==> r.value == Lookup(c.items, section, item).value
  {
    if section !in c.items then Err(InvalidSection(section))
    else if item !in c.items[section] then Err(InvalidItem(section, item))
    else Ok(c.items[section][item])
  }

  /** After processing, `get_entry` answers for every layout item with the
      value that item's reader produced. */
  lemma ProcessedItemsAreAvailable(c: Configuration, env: map<string, string>, files: string -> FileRead,
                                   readFloat: (string, SetupItem) -> Result<PyValue, ConfigError>, q: int, j: int)
    requires WellFormedLayout(c.layout)
    requires ProcessConfig(c, env, files, readFloat).Ok?
    requires 0 <= q < |c.layout.sections| && 0 <= j < |c.layout.sections[q].items|
    ensures var section := c.layout.sections[q].name;
      var item := c.layout.sections[q].items[j];
      var read := ReadItem(section, item, SourcesOf(OpenFile(c, files).value, env), readFloat);
      read.Ok? && GetEntry(ProcessConfig(c, env, files, readFloat).value, section, item.itemName) == read
  {
    var c' := OpenFile(c, files).value;
    ReadSectionsStores(c'.items, c'.layout, 0, ItemReader(SourcesOf(c', env), readFloat), q, j);
  }
}

=== FILE: configuration_examples.dfy ===
/** The scenarios of the configuration unit tests
    (`unittests/shared/unittests_configuration.py`) and of the services'
    layouts, worked through the model. The environment never holds the
    variable in question, and floating-point reads are not involved. */
module ConfigExamples {
  import opened Wrappers
  import opened Text
  import opened ConfigSetup
  import opened Config

  function NoFloats(section: string, item: SetupItem): Result<PyValue, ConfigError> {
    Err(FloatFailure("no float items here"))
  }

  function NoFile(name: string): FileRead {
    Unreadable
  }

  function IntLayout(defaultValue: PyValue, isRequired: bool): ConfigurationSetup {
    ConfigurationSetup([Section("type_checking", [NewSetupItem("int", Int, None, isRequired, defaultValue)])])
  }

  lemma IntVariableName()
    ensures Upper("type_checking" + "_" + "int") == "TYPE_CHECKING_INT"
  {
  }

  /** With a one-item layout, processing comes down to that item's reader. */
  lemma SingleItemProcess(c: Configuration, env: map<string, string>, files: string -> FileRead, section: string, item: SetupItem)
    requires c.layout == ConfigurationSetup([Section(section, [item])])
    requires OpenFile(c, files).Ok?
    ensures var c' := OpenFile(c, files).value;
      var read := ReadItem(section, item, SourcesOf(c', env), NoFloats);
      ProcessConfig(c, env, files, NoFloats)
        == (if read.Err? then Err(read.error) else Ok(c'.(items := Put(c'.items, section, item.itemName, read.value))))
  {
    var c' := OpenFile(c, files).value;
    var l := c'.layout;
    var src := SourcesOf(c', env);
    assert GetSections(l) == [section];
    assert GetSection(l, section) == Some([item]);
    var read := ReadItem(section, item, src, NoFloats);
    if read.Ok? {
      var m := Put(c'.items, section, item.itemName, read.value);
      assert StoreSection(m, section, [item][1..], ItemReader(src, NoFloats)) == Ok(m);
      assert StoreSection(c'.items, section, [item], ItemReader(src, NoFloats)) == Ok(m);
      assert ReadSections(m, l, 1, ItemReader(src, NoFloats)) == Ok(m);
      assert ReadSections(c'.items, l, 0, ItemReader(src, NoFloats)) == Ok(m);
    } else {
      assert StoreSection(c'.items, section, [item], ItemReader(src, NoFloats)) == Err(read.error);
      assert ReadSections(c'.items, l, 0, ItemReader(src, NoFloats)) == Err(read.error);
    }
  }

  lemma SeventeenOhOne()
    ensures ParseInt("1701") == Some(1701)
  {
    assert NatToDigits(1) == "1";
    assert NatToDigits(17) == "17";
    assert NatToDigits(170) == "170";
    assert NatToDigits(1701) == "1701";
    IntStringRoundTrip(1701);
  }

  /** A required file that cannot be opened stops processing with the
      message the test expects; when it is not required, processing an
      empty layout succeeds. */
  lemma RequiredConfigFile(env: map<string, string>)
    ensures var c := Configure(NewConfiguration(), ConfigurationSetup([]), Some("invalid"), true);
      var r := ProcessConfig(c, env, NoFile, NoFloats);
      r.Err? && IsValueError(r.error) && Message(r.error) == "Failed to open required config file 'invalid'"
    ensures var c := Configure(NewConfiguration(), ConfigurationSetup([]), Some("invalid"), false);
      ProcessConfig(c, env, NoFile, NoFloats).Ok?
  {
  }

  /** A default that is not a number is reported with its value. */
  lemma InvalidIntDefault(env: map<string, string>)
    requires "TYPE_CHECKING_INT" !in env
    ensures var c := Configure(NewConfiguration(), IntLayout(PyStr("INFO"), false), Some("invalid"), false);
      var r := ProcessConfig(c, env, NoFile, NoFloats);
      r.Err? && IsValueError(r.error) &&
      Message(r.error) == "Configuration option 'int' with a value of 'INFO' is not an int."
  {
    InfoDefaultFails(env);
    NotAnIntMessage();
  }

  lemma NotAnIntMessage()
    ensures Message(NotAnInt("int", PyStr("INFO"))) == "Configuration option 'int' with a value of 'INFO' is not an int."
  {
    var m := Message(NotAnInt("int", PyStr("INFO")));
    assert m == "Configuration option 'int' with a value of '" + Str(PyStr("INFO")) + "' is not an int.";
  }

  lemma MissingRequiredMessage()
    ensures Message(MissingRequired("type_checking", "required_int")) == "Missing required config option 'type_checking::required_int'"
  {
  }

  lemma InfoDefaultFails(env: map<string, string>)
    requires "TYPE_CHECKING_INT" !in env
    ensures var c := Configure(NewConfiguration(), IntLayout(PyStr("INFO"), false), Some("invalid"), false);
      ProcessConfig(c, env, NoFile, NoFloats) == Err(NotAnInt("int", PyStr("INFO")))
  {
    IntVariableName();
    var c := Configure(NewConfiguration(), IntLayout(PyStr("INFO"), false), Some("invalid"), false);
    var c' := c.(hasConfigFile := true);
    assert OpenFile(c, NoFile) == Ok(c');
    var item := NewSetupItem("int", Int, None, false, PyStr("INFO"));
    DefaultReadFails("type_checking", item, SourcesOf(c', env));
    SingleItemProcess(c, env, NoFile, "type_checking", item);
  }

  /** A default of "INFO" fails to read as a number. */
  lemma DefaultReadFails(section: string, item: SetupItem, src: Sources)
    requires Getenv(src, section, item.itemName).None? && FileOption(src, section, item.itemName).None?
    requires item.defaultValue == PyStr("INFO")
    ensures ReadInt(section, item, src) == Err(NotAnInt(item.itemName, PyStr("INFO")))
  {
    DefaultOnlyRead(section, item, src);
    InfoIsNotAnInt();
  }

  lemma InfoIsNotAnInt()
    ensures ParseInt("INFO").None?
  {
    NotAnIntFromFirstChar("INFO");
  }

  /** With neither an environment variable nor a file option, an int item
      reads its default. */
  lemma DefaultOnlyRead(section: string, item: SetupItem, src: Sources)
    requires Getenv(src, section, item.itemName).None? && FileOption(src, section, item.itemName).None?
    requires !item.defaultValue.PyNone?
    ensures ReadInt(section, item, src) == ToInt(item.itemName, item.defaultValue)
  {
  }

  /** The "1701" default of the unit tests' layout reads as 1701. */
  lemma DefaultReadsAsNumber(section: string, item: SetupItem, src: Sources)
    requires Getenv(src, section, item.itemName).None? && FileOption(src, section, item.itemName).None?
    requires item.defaultValue == PyStr("1701")
    ensures ReadInt(section, item, src) == Ok(1701)
  {
    DefaultOnlyRead(section, item, src);
    SeventeenOhOne();
  }

  /** A file without the option, or without the section, leaves the default
      in force. */
  lemma MissingOptionFallsBackToDefault(env: map<string, string>, content: map<string, map<string, string>>)
    requires "TYPE_CHECKING_INT" !in env
    requires "type_checking" in content ==> "int" !in content["type_checking"]
    ensures var c := Configure(NewConfiguration(), IntLayout(PyStr("1701"), false), Some("valid_int_type.ini"), true);
      var r := ProcessConfig(c, env, (name: string) => Parsed(content), NoFloats);
      r.Ok? && GetEntry(r.value, "type_checking", "int") == Ok(PyInt(1701))
  {
    IntVariableName();
    assert Lower("int") == "int";
    var files := (name: string) => Parsed(content);
    var c := Configure(NewConfiguration(), IntLayout(PyStr("1701"), false), Some("valid_int_type.ini"), true);
    var c' := OpenFile(c, files).value;
    var item := NewSetupItem("int", Int, None, false, PyStr("1701"));
    assert FileOption(SourcesOf(c', env), "type_checking", "int").None? by {
      MergeIntoEmpty(content);
    }
    DefaultReadsAsNumber("type_checking", item, SourcesOf(c', env));
    SingleItemProcess(c, env, files, "type_checking", item);
  }

  /** A file value that is not a number is reported as a bad file option. */
  lemma InvalidIntInFile(env: map<string, string>)
    requires "TYPE_CHECKING_INT" !in env
    ensures var content := map["type_checking" := map["int" := "abc"]];
      var c := Configure(NewConfiguration(), IntLayout(PyStr("1701"), false), Some("invalid_int_type.ini"), true);
      var r := ProcessConfig(c, env, (name: string) => Parsed(content), NoFloats);
      r.Err? && IsValueError(r.error) && Message(r.error) == "Config file option 'int' is not a valid int."
  {
    AbcFileFails(env);
    FileNotValidIntMessage();
  }

  lemma FileNotValidIntMessage()
    ensures Message(FileNotValidInt("int")) == "Config file option 'int' is not a valid int."
  {
    var m := Message(FileNotValidInt("int"));
    assert m == "Config file option '" + "int" + "' is not a valid int.";
  }

  lemma AbcFileFails(env: map<string, string>)
    requires "TYPE_CHECKING_INT" !in env
    ensures var content := map["type_checking" := map["int" := "abc"]];
      var c := Configure(NewConfiguration(), IntLayout(PyStr("1701"), false), Some("invalid_int_type.ini"), true);
      ProcessConfig(c, env, (name: string) => Parsed(content), NoFloats) == Err(FileNotValidInt("int"))
  {
    var content := map["type_checking" := map["int" := "abc"]];
    var files := (name: string) => Parsed(content);
    var c := Configure(NewConfiguration(), IntLayout(PyStr("1701"), false), Some("invalid_int_type.ini"), true);
    var c' := c.(hasConfigFile := true, parsed := Merge(map[], content));
    assert OpenFile(c, files) == Ok(c');
    MergeIntoEmpty(content);
    var item := NewSetupItem("int", Int, None, false, PyStr("1701"));
    AbcReadFails(env, item);
    SingleItemProcess(c, env, files, "type_checking", item);
  }

  lemma AbcReadFails(env: map<string, string>, item: SetupItem)
    requires "TYPE_CHECKING_INT" !in env
    requires item.itemName == "int"
    ensures ReadInt("type_checking", item, Sources(env, true, map["type_checking" := map["int" := "abc"]])) == Err(FileNotValidInt("int"))
  {
    IntVariableName();
    assert Lower("int") == "int";
    NotAnIntFromFirstChar("abc");
  }

  /** The required-int test as written: an empty file and no default end in
      `int([])`, a `TypeError` rather than the missing-option `ValueError`
      the test expects; the corrected reader gives that message. */
  lemma MissingRequiredInt(env: map<string, string>)
    requires "TYPE_CHECKING_REQUIRED_INT" !in env
    ensures var c := Configure(NewConfiguration(),
                               ConfigurationSetup([Section("type_checking", [NewSetupItem("required_int", Int, None, true, PyNone)])]),
                               Some("empty.ini"), true);
      var r := ProcessConfig(c, env, (name: string) => Parsed(map[]), NoFloats);
      r == Err(TypeErrorRaised(PyList([]))) && !IsValueError(r.error)
    ensures var item := NewSetupItem("required_int", Int, None, true, PyNone);
      var r := ReadIntIntended("type_checking", item, Sources(env, true, map[]));
      r.Err? && IsValueError(r.error) && Message(r.error) == "Missing required config option 'type_checking::required_int'"
  {
    RequiredIntAsWritten(env);
    RequiredIntIntended(env);
    MissingRequiredMessage();
  }

  lemma RequiredIntIntended(env: map<string, string>)
    requires "TYPE_CHECKING_REQUIRED_INT" !in env
    ensures var item := NewSetupItem("required_int", Int, None, true, PyNone);
      ReadIntIntended("type_checking", item, Sources(env, true, map[])) == Err(MissingRequired("type_checking", "required_int"))
  {
    RequiredIntVariableName();
  }

  lemma RequiredIntVariableName()
    ensures Upper("type_checking" + "_" + "required_int") == "TYPE_CHECKING_REQUIRED_INT"
  {
  }

  lemma RequiredIntAsWritten(env: map<string, string>)
    requires "TYPE_CHECKING_REQUIRED_INT" !in env
    ensures var c := Configure(NewConfiguration(),
                               ConfigurationSetup([Section("type_checking", [NewSetupItem("required_int", Int, None, true, PyNone)])]),
                               Some("empty.ini"), true);
      ProcessConfig(c, env, (name: string) => Parsed(map[]), NoFloats) == Err(TypeErrorRaised(PyList([])))
  {
    RequiredIntVariableName();
    var item := NewSetupItem("required_int", Int, None, true, PyNone);
    var files := (name: string) => Parsed(map[]);
    var c := Configure(NewConfiguration(), ConfigurationSetup([Section("type_checking", [item])]), Some("empty.ini"), true);
    var c' := c.(hasConfigFile := true, parsed := Merge(map[], map[]));
    assert OpenFile(c, files) == Ok(c');
    MergeIntoEmpty(map[]);
    RequiredIntCheckUnreachable("type_checking", "required_int", SourcesOf(c', env));
    SingleItemProcess(c, env, files, "type_checking", item);
  }

  /** The burrow layout's `wait_for_ok` flag: set to `true` in the file it
      raises `AttributeError` as written, and reads as true once corrected;
      the default "True" is accepted. */
  lemma WaitForOkFlag(env: map<string, string>)
    requires "GATHERER_WAIT_FOR_OK" !in env
    ensures var item := NewSetupItem("wait_for_ok", Boolean, None, false, PyStr("True"));
      var src := Sources(env, true, map["gatherer" := map["wait_for_ok" := "true"]]);
      ReadBool("gatherer", item, src) == Err(AttributeErrorRaised(PyBool(true))) &&
      ReadBoolIntended("gatherer", item, src) == Ok(true)
    ensures var item := NewSetupItem("wait_for_ok", Boolean, None, false, PyStr("True"));
      ReadBool("gatherer", item, Sources(env, false, map[])) == Ok(true)
  {
    WaitForOkVariableName();
    WaitForOkLowered();
  }

  lemma WaitForOkVariableName()
    ensures Upper("gatherer" + "_" + "wait_for_ok") == "GATHERER_WAIT_FOR_OK"
  {
  }

  lemma WaitForOkLowered()
    ensures Lower("wait_for_ok") == "wait_for_ok"
    ensures Lower("true") == "true" && Lower("True") == "true"
  {
  }
}

=== FILE: configuration_setup.dfy ===
/** The configuration layout (`shared/configuration/configuration_setup.py`):
    the item types, the frozen `ConfigurationSetupItem` with its
    normalisation of falsy arguments, and `ConfigurationSetup`, a dict from
    section name to item list kept here as a sequence in insertion order. */
module ConfigSetup {
  import opened Wrappers
  import opened Text

  /** The Python values that flow through configuration: what the
      environment and the file yield, layout defaults and valid values. */
  datatype PyValue =
    | PyNone
    | PyBool(b: bool)
    | PyInt(i: int)
    | PyStr(s: string)
    | PyList(items: seq<PyValue>)

  /** Python truthiness. */
  predicate Truthy(v: PyValue) {
    match v
    case PyNone => false
    case PyBool(b) => b
    case PyInt(i) => i != 0
    case PyStr(s) => s != ""
    case PyList(xs) => |xs| > 0
  }

  /** Python `==`, under which `True == 1` and `False == 0`. */
  predicate PyEq(a: PyValue, b: PyValue) {
    match (a, b)
    case (PyBool(x), PyInt(y)) => (if x then 1 else 0) == y
    case (PyInt(x), PyBool(y)) => x == (if y then 1 else 0)
    case _ => a == b
  }

  /** Python `in` on a list. */
  predicate PyIn(v: PyValue, xs: seq<PyValue>) {
    exists i :: 0 <= i < |xs| && PyEq(v, xs[i])
  }

  function Repr(v: PyValue): string
    decreases v, 1
  {
    match v
    case PyStr(s) => "'" + s + "'"
    case _ => Str(v)
  }

  function ReprAll(xs: seq<PyValue>): string
    decreases xs, 0
  {
    if |xs| == 0 then ""
    else if |xs| == 1 then Repr(xs[0])
    else Repr(xs[0]) + ", " + ReprAll(xs[1..])
  }

  /** `str(v)`, as an f-string renders it. */
  function Str(v: PyValue): string
    decreases v, 0
  {
    match v
    case PyNone => "None"
    case PyBool(b) => if b then "True" else "False"
    case PyInt(i) => IntToString(i)
    case PyStr(s) => s
    case PyList(xs) => "[" + ReprAll(xs) + "]"
  }

  datatype ConfigItemDataType = Boolean | Float | Int | String | UnsignedInt

  /** A frozen `ConfigurationSetupItem`: a Dafny datatype value, so it cannot
      change once built. */
  datatype SetupItem = SetupItem(
    itemName: string,
    validValues: seq<PyValue>,
    isRequired: bool,
    itemType: ConfigItemDataType,
    defaultValue: PyValue)

  /** The constructor: a missing or empty `valid_values` becomes `[]`, and a
      falsy `default_value` (no default, `""`, `0`, `False`, `[]`) becomes
      `[]` as well, so no item carries a `None` default. */
  function NewSetupItem(itemName: string, itemType: ConfigItemDataType, validValues: Option<seq<PyValue>>,
                        isRequired: bool, defaultValue: PyValue): (r: SetupItem)
    ensures r.itemName == itemName && r.itemType == itemType && r.isRequired == isRequired
    ensures r.validValues == (if validValues.Some? then validValues.value else [])
    ensures Truthy(defaultValue) ==> r.defaultValue == defaultValue
    ensures !Truthy(defaultValue) ==> r.defaultValue == PyList([])
    ensures r.defaultValue != PyNone
  {
    SetupItem(itemName,
              if validValues.Some? && |validValues.value| > 0 then validValues.value else [],
              isRequired, itemType,
              if Truthy(defaultValue) then defaultValue else PyList([]))
  }

  /** A default is either truthy and kept, or the empty-list placeholder. */
  lemma DefaultIsTruthyOrPlaceholder(itemName: string, itemType: ConfigItemDataType, validValues: Option<seq<PyValue>>,
                                     isRequired: bool, defaultValue: PyValue)
    ensures var d := NewSetupItem(itemName, itemType, validValues, isRequired, defaultValue).defaultValue;
      Truthy(d) <==> d != PyList([])
  {
  }

  datatype Section = Section(name: string, items: seq<SetupItem>)

  /** `ConfigurationSetup`: the layout dict, its sections in insertion order. */
  datatype ConfigurationSetup = ConfigurationSetup(sections: seq<Section>)

  /** A dict has each key once. */
  ghost predicate DistinctNames(l: ConfigurationSetup) {
    forall i, j :: 0 <= i < j < |l.sections| ==> l.sections[i].name != l.sections[j].name
  }

  /** `get_sections`: the section names, in insertion order. */
  function GetSections(l: ConfigurationSetup): (r: seq<string>)
    ensures |r| == |l.sections|
    ensures forall i :: 0 <= i < |r| ==> r[i] == l.sections[i].name
  {
    seq(|l.sections|, i requires 0 <= i < |l.sections| => l.sections[i].name)
  }

  /** `get_section`: `None` for a name the layout lacks, its items otherwise. */
  function GetSection(l: ConfigurationSetup, name: string): (r: Option<seq<SetupItem>>)
    ensures r.None? <==> name !in GetSections(l)
    decreases |l.sections|
  {
    if |l.sections| == 0 then None
    else if l.sections[0].name == name then Some(l.sections[0].items)
    else
      var rest := ConfigurationSetup(l.sections[1..]);
      assert GetSections(l) == [l.sections[0].name] + GetSections(rest);
      GetSection(rest, name)
  }

  /** Every name `get_sections` lists leads `get_section` to that section's
      own items. */
  lemma {:induction false} GetSectionOfListedName(l: ConfigurationSetup, k: int)
    requires DistinctNames(l)
    requires 0 <= k < |l.sections|
    ensures GetSection(l, GetSections(l)[k]) == Some(l.sections[k].items)
    decreases |l.sections|
  {
    if k > 0 {
      var rest := ConfigurationSetup(l.sections[1..]);
      assert l.sections[0].name != l.sections[k].name;
      assert rest.sections[k - 1] == l.sections[k];
      GetSectionOfListedName(rest, k - 1);
    }
  }
}

=== FILE: event_handler.dfy ===
/** The two synchronous revisions of the bus (`EventHandler`, one backed by a
    list and one by a deque). Both read the head, run its callback, and only
    then remove the head (`pop(0)` / `popleft()`), so a callback that raises
    leaves its event at the head. The list and deque revisions behave the
    same on every input and are modelled once. */
module EventHandler {
  import opened Events
  import EventManager

  /** `process_next_event` of the synchronous revisions. */
  function ProcessNextEvent<H, B>(bus: Bus<H, B>, react: (H, Event<B>) -> Reaction<B>): (r: (Bus<H, B>, Dispatch<B>))
    ensures r.0.handlers == bus.handlers
    ensures |bus.queue| == 0 ==> r == (bus, Idle)
    ensures |bus.queue| > 0 ==> !r.1.Idle? && r.1.event == bus.queue[0]
    ensures |bus.queue| > 0 && bus.queue[0].id !in bus.handlers ==>
              r == (bus.(queue := bus.queue[1..]), Discarded(bus.queue[0]))
    ensures |bus.queue| > 0 && bus.queue[0].id in bus.handlers ==>
              var reaction := react(bus.handlers[bus.queue[0].id], bus.queue[0]);
              if reaction.raises then
                r.1.Raised? && r.0.queue == bus.queue + Registered(bus.handlers, reaction.enqueued)
              else
                r.1.Handled? && r.0.queue == bus.queue[1..] + Registered(bus.handlers, reaction.enqueued)
  {
    if |bus.queue| == 0 then (bus, Idle)
    else
      var event := bus.queue[0];
      if event.id !in bus.handlers then (bus.(queue := bus.queue[1..]), Discarded(event))
      else
        var reaction := react(bus.handlers[event.id], event);
        var during := QueueEvents(bus, reaction.enqueued);
        if reaction.raises then (during, Raised(event))
        else (during.(queue := during.queue[1..]), Handled(event))
  }

  /** A raising callback leaves its event at the head and the queue no
      shorter than before. */
  lemma FailingCallbackKeepsHead<H, B>(bus: Bus<H, B>, react: (H, Event<B>) -> Reaction<B>)
    requires |bus.queue| > 0 && bus.queue[0].id in bus.handlers
    requires react(bus.handlers[bus.queue[0].id], bus.queue[0]).raises
    ensures ProcessNextEvent(bus, react).1 == Raised(bus.queue[0])
    ensures |ProcessNextEvent(bus, react).0.queue| >= |bus.queue|
    ensures ProcessNextEvent(bus, react).0.queue[0] == bus.queue[0]
  {
  }

  /** The two revisions agree except when a callback raises: then the
      asynchronous one has already removed the head and the synchronous one
      has not; otherwise both end in the same state. */
  lemma RevisionsDifferOnlyOnFailure<H, B>(bus: Bus<H, B>, react: (H, Event<B>) -> Reaction<B>)
    ensures EventManager.ProcessNextEvent(bus, react).1 == ProcessNextEvent(bus, react).1
    ensures !ProcessNextEvent(bus, react).1.Raised? ==>
              EventManager.ProcessNextEvent(bus, react) == ProcessNextEvent(bus, react)
    ensures ProcessNextEvent(bus, react).1.Raised? ==>
              && 0 < |ProcessNextEvent(bus, react).0.queue|
              && EventManager.ProcessNextEvent(bus, react).0.queue == ProcessNextEvent(bus, react).0.queue[1..]
  {
    if |bus.queue| > 0 && bus.queue[0].id in bus.handlers {
      var reaction := react(bus.handlers[bus.queue[0].id], bus.queue[0]);
      var extra := Registered(bus.handlers, reaction.enqueued);
      assert (bus.queue + extra)[1..] == bus.queue[1..] + extra;
    }
  }
}

=== FILE: event_manager.dfy ===
/** The asynchronous revision of the bus (`EventManager`): the head is popped
    under the lock BEFORE its callback runs, so a callback that raises has
    already lost its event. `process_all_events` loops until the queue is
    empty, including events that callbacks queue while it runs. */
module EventManager {
  import opened Events

  /** `process_next_event` of the asynchronous revision. `react` gives what
      the bound callback does with the event. */
  function ProcessNextEvent<H, B>(bus: Bus<H, B>, react: (H, Event<B>) -> Reaction<B>): (r: (Bus<H, B>, Dispatch<B>))
    ensures r.0.handlers == bus.handlers
    ensures |bus.queue| == 0 ==> r == (bus, Idle)
    ensures |bus.queue| > 0 ==> !r.1.Idle? && r.1.event == bus.queue[0]
    ensures |bus.queue| > 0 ==> bus.queue[1..] <= r.0.queue
    ensures |bus.queue| > 0 && bus.queue[0].id !in bus.handlers ==>
              r == (bus.(queue := bus.queue[1..]), Discarded(bus.queue[0]))
    ensures |bus.queue| > 0 && bus.queue[0].id in bus.handlers ==>
              var reaction := react(bus.handlers[bus.queue[0].id], bus.queue[0]);
              && r.0.queue == bus.queue[1..] + Registered(bus.handlers, reaction.enqueued)
              && (r.1.Raised? <==> reaction.raises)
              && (r.1.Handled? <==> !reaction.raises)
  {
    if |bus.queue| == 0 then (bus, Idle)
    else
      var event := bus.queue[0];
      var popped := bus.(queue := bus.queue[1..]);
      if event.id !in bus.handlers then (popped, Discarded(event))
      else
        var reaction := react(bus.handlers[event.id], event);
        var after := QueueEvents(popped, reaction.enqueued);
        (after, if reaction.raises then Raised(event) else Handled(event))
  }

  /** A popped event whose id has no callback is dropped without consulting
      any callback: the outcome is the same whatever the callbacks would do. */
  lemma UnknownEventIgnoresCallbacks<H, B>(bus: Bus<H, B>, react1: (H, Event<B>) -> Reaction<B>, react2: (H, Event<B>) -> Reaction<B>)
    requires |bus.queue| > 0 && bus.queue[0].id !in bus.handlers
    ensures ProcessNextEvent(bus, react1) == ProcessNextEvent(bus, react2)
    ensures |ProcessNextEvent(bus, react1).0.queue| == |bus.queue| - 1
  {
  }

  /** The queue has shrunk by one even when the callback raises, as long as
      the callback queued nothing. */
  lemma FailingCallbackStillLosesHead<H, B>(bus: Bus<H, B>, react: (H, Event<B>) -> Reaction<B>)
    requires |bus.queue| > 0 && bus.queue[0].id in bus.handlers
    requires react(bus.handlers[bus.queue[0].id], bus.queue[0]) == Reaction([], true)
    ensures ProcessNextEvent(bus, react) == (bus.(queue := bus.queue[1..]), Raised(bus.queue[0]))
  {
  }

  /** How `process_all_events` ended. */
  datatype Drain = Drained | HandlerRaised | OutOfFuel

  /** Final bus, how the loop ended, and the events handed to callbacks, in
      the order they were handed over. */
  datatype DrainResult<H, B> = DrainResult(bus: Bus<H, B>, status: Drain, handled: seq<Event<B>>)

  /** `process_all_events`: call `process_next_event` while the queue is
      non-empty. A raising callback's exception leaves the loop. `fuel` bounds
      the number of rounds, since callbacks may keep queueing forever. Every
      handled event had a callback; the loop stops on a raise exactly when
      the last handled callback raised, and no earlier one did. */
  function ProcessAllEvents<H, B>(bus: Bus<H, B>, react: (H, Event<B>) -> Reaction<B>, fuel: nat): (r: DrainResult<H, B>)
    ensures r.bus.handlers == bus.handlers
    ensures r.status == Drained ==> r.bus.queue == []
    ensures r.status == OutOfFuel ==> |r.bus.queue| > 0
    ensures |bus.queue| == 0 ==> r == DrainResult(bus, Drained, [])
    ensures |r.handled| <= fuel
    ensures forall i :: 0 <= i < |r.handled| ==> r.handled[i].id in bus.handlers
    ensures forall i :: 0 <= i < |r.handled| - 1 ==> !react(bus.handlers[r.handled[i].id], r.handled[i]).raises
    ensures r.status == HandlerRaised <==>
              |r.handled| > 0 && react(bus.handlers[r.handled[|r.handled| - 1].id], r.handled[|r.handled| - 1]).raises
    decreases fuel
  {
    if |bus.queue| == 0 then DrainResult(bus, Drained, [])
    else if fuel == 0 then DrainResult(bus, OutOfFuel, [])
    else
      var step := ProcessNextEvent(bus, react);
      var mine := if step.1.Discarded? then [] else [step.1.event];
      if step.1.Raised? then DrainResult(step.0, HandlerRaised, mine)
      else
        var rest := ProcessAllEvents(step.0, react, fuel - 1);
        DrainResult(rest.bus, rest.status, mine + rest.handled)
  }

  /** The events queued at the start are handled first, in queue order
      (unregistered ones skipped), before anything a callback queued; when
      the queue drains, all of them have been handled. */
  lemma {:induction false} DrainIsFifo<H, B>(bus: Bus<H, B>, react: (H, Event<B>) -> Reaction<B>, fuel: nat)
    ensures Agrees(ProcessAllEvents(bus, react, fuel).handled, Registered(bus.handlers, bus.queue))
    ensures var r := ProcessAllEvents(bus, react, fuel);
      r.status == Drained ==> Registered(bus.handlers, bus.queue) <= r.handled
    decreases fuel
  {
    if |bus.queue| > 0 && fuel > 0 {
      var step := ProcessNextEvent(bus, react);
      if step.1.Raised? {
        var _ := StepSplitsRegistered(bus, react);
      } else {
        var rest := ProcessAllEvents(step.0, react, fuel - 1);
        DrainIsFifo(step.0, react, fuel - 1);
        FifoAfterQuietStep(bus, react, fuel, step, rest);
      }
    }
  }

  /** The inductive step of `DrainIsFifo`: a round whose callback returns
      hands on the property from the rest of the run. */
  lemma FifoAfterQuietStep<H, B>(bus: Bus<H, B>, react: (H, Event<B>) -> Reaction<B>, fuel: nat,
                                 step: (Bus<H, B>, Dispatch<B>), rest: DrainResult<H, B>)
    requires |bus.queue| > 0 && fuel > 0
    requires step == ProcessNextEvent(bus, react) && !step.1.Raised?
    requires rest == ProcessAllEvents(step.0, react, fuel - 1)
    requires Agrees(rest.handled, Registered(step.0.handlers, step.0.queue))
    requires rest.status == Drained ==> Registered(step.0.handlers, step.0.queue) <= rest.handled
    ensures Agrees(ProcessAllEvents(bus, react, fuel).handled, Registered(bus.handlers, bus.queue))
    ensures var r := ProcessAllEvents(bus, react, fuel);
      r.status == Drained ==> Registered(bus.handlers, bus.queue) <= r.handled
  {
    var mine := if step.1.Discarded? then [] else [step.1.event];
    var back := StepSplitsRegistered(bus, react);
    assert ProcessAllEvents(bus, react, fuel) == DrainResult(rest.bus, rest.status, mine + rest.handled);
    var front := Registered(bus.handlers, bus.queue[1..]);
    var after := Registered(step.0.handlers, step.0.queue);
    assert after == front + back;
    PrefixOfHandled(mine, rest.handled, front, back, rest.status == Drained);
  }

  /** One non-empty round: the head's own registration leads the initial
      registered events, and what is registered after the round is the
      rest of them followed by the follow-ups, `back`. */
  lemma StepSplitsRegistered<H, B>(bus: Bus<H, B>, react: (H, Event<B>) -> Reaction<B>) returns (back: seq<Event<B>>)
    requires |bus.queue| > 0
    ensures var step := ProcessNextEvent(bus, react);
      && Registered(bus.handlers, bus.queue) ==
           (if step.1.Discarded? then [] else [step.1.event]) + Registered(bus.handlers, bus.queue[1..])
      && Registered(step.0.handlers, step.0.queue) == Registered(bus.handlers, bus.queue[1..]) + back
  {
    var step := ProcessNextEvent(bus, react);
    var later := if step.1.Discarded? then [] else react(bus.handlers[bus.queue[0].id], bus.queue[0]).enqueued;
    var queuedLater := Registered(bus.handlers, later);
    assert step.0.queue == bus.queue[1..] + queuedLater;
    RegisteredAppend(bus.handlers, bus.queue[1..], queuedLater);
    back := Registered(bus.handlers, queuedLater);
  }

  /** Two runs agree on their common length: one is a prefix of the other. */
  ghost predicate Agrees<B>(xs: seq<Event<B>>, ys: seq<Event<B>>) {
    forall i :: 0 <= i < |xs| && i < |ys| ==> xs[i] == ys[i]
  }

  /** The bookkeeping step of the FIFO clauses: if the later rounds handle a
      run that agrees with `front + back` (and contains it on drain), then
      `mine` followed by that run agrees with `mine + front`. */
  lemma PrefixOfHandled<B>(mine: seq<Event<B>>, handled: seq<Event<B>>, front: seq<Event<B>>, back: seq<Event<B>>, drained: bool)
    requires Agrees(handled, front + back)
    requires drained ==> front + back <= handled
    ensures Agrees(mine + handled, mine + front)
    ensures drained ==> mine + front <= mine + handled
  {
    forall i | 0 <= i < |mine + handled| && i < |mine + front|
      ensures (mine + handled)[i] == (mine + front)[i]
    {
      if i >= |mine| {
        assert (front + back)[i - |mine|] == front[i - |mine|];
      }
    }
    if drained {
      assert front <= handled by {
        assert forall i :: 0 <= i < |front| ==> front[i] == (front + back)[i];
      }
    }
  }

  /** When no callback queues or raises, enough rounds drain the queue and
      every registered event reaches its callback exactly once, in queue
      order; unregistered ones are skipped. */
  lemma {:induction false} QuietDrainIsFifo<H, B>(bus: Bus<H, B>, react: (H, Event<B>) -> Reaction<B>, fuel: nat)
    requires Quiet(bus.handlers, bus.queue, react)
    requires fuel >= |bus.queue|
    ensures ProcessAllEvents(bus, react, fuel).status == Drained
    ensures ProcessAllEvents(bus, react, fuel).handled == Registered(bus.handlers, bus.queue)
    decreases |bus.queue|
  {
    if |bus.queue| > 0 {
      var step := ProcessNextEvent(bus, react);
      assert step.0.queue == bus.queue[1..];
      assert Quiet(bus.handlers, bus.queue[1..], react) by {
        forall i | 0 <= i < |bus.queue[1..]| && bus.queue[1..][i].id in bus.handlers
          ensures react(bus.handlers[bus.queue[1..][i].id], bus.queue[1..][i]) == Reaction([], false)
        {
          assert bus.queue[1..][i] == bus.queue[i + 1];
        }
      }
      QuietDrainIsFifo(step.0, react, fuel - 1);
    }
  }

  /** Two registered events queued in order A, B on an empty queue are handled
      in order A, B. */
  lemma TwoEventsHandledInOrder<H, B>(handlers: map<int, H>, a: Event<B>, b: Event<B>, react: (H, Event<B>) -> Reaction<B>)
    requires a.id in handlers && b.id in handlers
    requires react(handlers[a.id], a) == Reaction([], false) && react(handlers[b.id], b) == Reaction([], false)
    ensures
      var queued := QueueEvent(QueueEvent(Bus(handlers, []), a).0, b).0;
      ProcessAllEvents(queued, react, 2).handled == [a, b]
  {
    var queued := QueueEvent(QueueEvent(Bus(handlers, []), a).0, b).0;
    assert queued.queue == [a, b];
    assert Quiet(handlers, queued.queue, react);
    QuietDrainIsFifo(queued, react, 2);
    assert Registered(handlers, [a, b][1..]) == [b];
  }

  /** Events that a callback queues while the loop runs are processed by the
      same loop: a head whose callback queues one follow-up ends with both
      handled and the queue empty. */
  lemma FollowUpEventIsProcessed<H, B>(handlers: map<int, H>, e: Event<B>, f: Event<B>, react: (H, Event<B>) -> Reaction<B>)
    requires e.id in handlers && f.id in handlers
    requires react(handlers[e.id], e) == Reaction([f], false)
    requires react(handlers[f.id], f) == Reaction([], false)
    ensures ProcessAllEvents(Bus(handlers, [e]), react, 2) == DrainResult(Bus(handlers, []), Drained, [e, f])
  {
    var first := ProcessNextEvent(Bus(handlers, [e]), react);
    assert Registered(handlers, [f]) == [f];
    assert first.0.queue == [f];
  }
}

=== FILE: events.dfy ===
/** The part of the event bus that is the same in all three revisions of the
    bus (`EventManager` and the two `EventHandler` classes): the event record,
    the handler table keyed by integer event id, the FIFO queue, and the
    register / queue / clear operations. How the head is processed differs
    between revisions and lives in `EventManager` and `EventHandler`. */
module Events {
  import opened Wrappers

  /** An event: an integer id that routes it and an opaque body. */
  datatype Event<B> = Event(id: int, body: B)

  /** Bus state. `H` names a registered callback; `B` is the event body type. */
  datatype Bus<H, B> = Bus(handlers: map<int, H>, queue: seq<Event<B>>)

  /** `RuntimeError("Duplicate event id (...)")`. */
  datatype BusError = DuplicateEventId(id: int)

  /** What a callback does when it is invoked: the events it queues on the
      same bus, in order, and whether it then raises. */
  datatype Reaction<B> = Reaction(enqueued: seq<Event<B>>, raises: bool)

  /** The observable effect of one `process_next_event` call. `event` is the
      event that was removed (Discarded) or handed to a callback. */
  datatype Dispatch<B> = Idle | Discarded(event: Event<B>) | Handled(event: Event<B>) | Raised(event: Event<B>)

  /** A freshly constructed bus: no callbacks, nothing queued. */
  function NewBus<H, B>(): (b: Bus<H, B>)
    ensures b.handlers == map[] && b.queue == []
  {
    Bus(map[], [])
  }

  /** `register_event`: binds `id` to `callback` unless `id` is already
      bound, in which case it raises and the table stays as it was. */
  function RegisterEvent<H, B>(bus: Bus<H, B>, id: int, callback: H): (r: Result<Bus<H, B>, BusError>)
    ensures r.Err? <==> id in bus.handlers
    ensures r.Err? ==> r.error == DuplicateEventId(id)
    ensures r.Ok? ==> r.value.queue == bus.queue
    ensures r.Ok? ==> id in r.value.handlers && r.value.handlers[id] == callback
    ensures r.Ok? ==> forall k :: k != id ==> (k in r.value.handlers <==> k in bus.handlers)
    ensures r.Ok? ==> forall k :: k in bus.handlers ==> k in r.value.handlers && r.value.handlers[k] == bus.handlers[k]
  {
    if id in bus.handlers then Err(DuplicateEventId(id))
    else Ok(bus.(handlers := bus.handlers[id := callback]))
  }

  /** One id is bound at most once: registering it again fails, whatever the
      callback. */
  lemma RegisterTwiceFails<H, B>(bus: Bus<H, B>, id: int, first: H, second: H)
    requires RegisterEvent(bus, id, first).Ok?
    ensures RegisterEvent(RegisterEvent(bus, id, first).value, id, second) == Err(DuplicateEventId(id))
  {
  }

  /** `queue_event`: appends the event at the tail and answers true when its
      id has a callback; otherwise answers false and changes nothing. */
  function QueueEvent<H, B>(bus: Bus<H, B>, event: Event<B>): (r: (Bus<H, B>, bool))
    ensures r.1 <==> event.id in bus.handlers
    ensures r.0.handlers == bus.handlers
    ensures r.1 ==> r.0.queue == bus.queue + [event]
    ensures !r.1 ==> r.0 == bus
  {
    if event.id !in bus.handlers then (bus, false)
    else (bus.(queue := bus.queue + [event]), true)
  }

  /** The events of `events` whose id has a callback in `handlers`, in order:
      what a run of `queue_event` calls actually admits. */
  function Registered<H, B>(handlers: map<int, H>, events: seq<Event<B>>): (r: seq<Event<B>>)
    ensures |r| <= |events|
  {
    if |events| == 0 then []
    else (if events[0].id in handlers then [events[0]] else []) + Registered(handlers, events[1..])
  }

  lemma {:induction false} RegisteredAppend<H, B>(handlers: map<int, H>, a: seq<Event<B>>, b: seq<Event<B>>)
    ensures Registered(handlers, a + b) == Registered(handlers, a) + Registered(handlers, b)
  {
    if |a| > 0 {
      assert (a + b)[1..] == a[1..] + b;
      RegisteredAppend(handlers, a[1..], b);
    } else {
      assert a + b == b;
    }
  }

  /** Every event that survives the filter is registered. */
  lemma {:induction false} RegisteredOnlyKnown<H, B>(handlers: map<int, H>, events: seq<Event<B>>)
    ensures forall i :: 0 <= i < |Registered(handlers, events)| ==> Registered(handlers, events)[i].id in handlers
  {
    if |events| > 0 {
      RegisteredOnlyKnown(handlers, events[1..]);
    }
  }

  /** A callback's `queue_event` calls, in order, against the same bus. */
  function QueueEvents<H, B>(bus: Bus<H, B>, events: seq<Event<B>>): (r: Bus<H, B>)
    ensures r.handlers == bus.handlers
    ensures r.queue == bus.queue + Registered(bus.handlers, events)
    decreases |events|
  {
    if |events| == 0 then bus
    else
      var head := if events[0].id in bus.handlers then [events[0]] else [];
      var next := QueueEvent(bus, events[0]).0;
      assert next.queue == bus.queue + head;
      assert Registered(bus.handlers, events) == head + Registered(bus.handlers, events[1..]);
      var r := QueueEvents(next, events[1..]);
      assert r.queue == (bus.queue + head) + Registered(bus.handlers, events[1..]);
      r
  }

  /** `delete_all_events`: the queue becomes empty; callbacks stay bound. */
  function DeleteAllEvents<H, B>(bus: Bus<H, B>): (r: Bus<H, B>)
    ensures r.queue == []
    ensures r.handlers == bus.handlers
  {
    bus.(queue := [])
  }

  /** All callbacks invoked for the events of `queue` neither queue anything
      nor raise. */
  ghost predicate Quiet<H, B>(handlers: map<int, H>, queue: seq<Event<B>>, react: (H, Event<B>) -> Reaction<B>) {
    forall i :: 0 <= i < |queue| && queue[i].id in handlers ==> react(handlers[queue[i].id], queue[i]) == Reaction([], false)
  }
}

=== FILE: file_gathering.dfy ===
/** `FileGatherer` of the gatherer service (`gatherer/file_gatherer.py`):
    the same scan without a shutdown check, with readability checked in
    mode "r+", and with a settable document root. */
module FileGathering {
  import opened Wrappers
  import opened Scanning
  import ImageGathering

  datatype FileGatherer = FileGatherer(documentRoot: string)

  function NewFileGatherer(documentRoot: string): (g: FileGatherer)
    ensures g.documentRoot == documentRoot
  {
    FileGatherer(documentRoot)
  }

  /** The `document_root` getter. */
  function DocumentRoot(g: FileGatherer): string {
    g.documentRoot
  }

  /** The `document_root` setter. */
  function SetDocumentRoot(g: FileGatherer, value: string): (r: FileGatherer)
    ensures DocumentRoot(r) == value
  {
    g.(documentRoot := value)
  }

  /** Reading the root after setting it gives the set value, and setting it
      again overrides the first value. */
  lemma SetThenGetDocumentRoot(g: FileGatherer, first: string, second: string)
    ensures DocumentRoot(SetDocumentRoot(g, first)) == first
    ensures SetDocumentRoot(SetDocumentRoot(g, first), second) == SetDocumentRoot(g, second)
  {
  }

  /** `gather_images`: the scan of the walk of the document root in mode
      "r+", over every walked directory. */
  function GatherImages(g: FileGatherer, fs: FileSystem, clock: nat -> int): (r: Result<Catalogue, ScanError>)
    ensures r.Ok? ==> forall d :: d in r.value ==> |r.value[d]| > 0
    ensures r.Ok? ==> Sound(r.value, fs, ReadWrite, fs.walk(g.documentRoot), clock)
    ensures var l := fs.walk(g.documentRoot);
      r.Ok? <==> forall j :: 0 <= j < |l| ==> FirstRaise(fs, ReadWrite, l[j].dir, l[j].files).None?
  {
    Scanning.Gather(fs, ReadWrite, fs.walk(g.documentRoot), clock, Never)
  }

  /** There is no early exit: when the walk names each directory once, every
      walked directory with a kept file ends up as a key. */
  lemma EveryWalkedDirectoryIsProcessed(g: FileGatherer, fs: FileSystem, clock: nat -> int)
    requires var l := fs.walk(g.documentRoot); forall a, b :: 0 <= a < b < |l| ==> l[a].dir != l[b].dir
    requires GatherImages(g, fs, clock).Ok?
    ensures var l := fs.walk(g.documentRoot);
      forall j :: 0 <= j < |l| && |Qualifying(fs, ReadWrite, l[j].dir, l[j].files)| > 0 ==> l[j].dir in GatherImages(g, fs, clock).value
  {
    EveryNonEmptyDirectoryIsKept(fs, ReadWrite, fs.walk(g.documentRoot), clock);
  }

  /** The two gatherers differ only in the open mode and the shutdown check:
      on a file system where "r" and "r+" succeed alike, a file gatherer and
      an image gatherer without a shutdown event produce the same result. */
  lemma AgreesWithImageGatherer(root: string, fs: FileSystem, clock: nat -> int)
    requires forall p :: fs.opens(p, ReadOnly) == fs.opens(p, ReadWrite)
    ensures GatherImages(NewFileGatherer(root), fs, clock) == ImageGathering.Gather(ImageGathering.NewImageGatherer(root), fs, clock, None)
  {
    WalkIgnoresModeWhenOpensAgree(fs, fs.walk(root), 0, map[], 0, clock, Never);
  }
}

=== FILE: gather_process.dfy ===
/** `GatherProcess` of the gatherer service (`gatherer/gather_process.py`):
    on construction it caches the base paths from the database, sorts them
    with `list.sort()` (stable, ordered by `BasePathEntry.__lt__`, i.e. by id
    alone), and creates one `FileGatherer` per path, in that order. */
module GatherProcessing {
  import opened Wrappers
  import opened Catalog
  import GathererDatabase
  import opened FileGathering

  predicate Sorted(xs: seq<BasePathEntry>) {
    forall i, j :: 0 <= i < j < |xs| ==> !EntryLess(xs[j], xs[i])
  }

  /** The entries with one id, in their order. */
  function WithId(xs: seq<BasePathEntry>, id: int): seq<BasePathEntry>
    decreases |xs|
  {
    if |xs| == 0 then [] else (if xs[0].rowId == id then [xs[0]] else []) + WithId(xs[1..], id)
  }

  /** Places `x` before the first entry that is not smaller than it, so it
      stays ahead of entries with its id that came after it. */
  function Insert(x: BasePathEntry, ys: seq<BasePathEntry>): (r: seq<BasePathEntry>)
    requires Sorted(ys)
    ensures Sorted(r)
    ensures multiset(r) == multiset(ys) + multiset{x}
    decreases |ys|
  {
    if |ys| == 0 then [x]
    else if !EntryLess(ys[0], x) then
      assert forall k :: 0 <= k < |ys| ==> x.rowId <= ys[k].rowId by {
        forall k | 0 <= k < |ys|
          ensures x.rowId <= ys[k].rowId
        {
          if k > 0 {
            assert !EntryLess(ys[k], ys[0]);
          }
        }
      }
      SortedCons(x, ys);
      [x] + ys
    else
      var rest := Insert(x, ys[1..]);
      assert ys == [ys[0]] + ys[1..];
      assert forall k :: 0 <= k < |ys[1..]| ==> ys[0].rowId <= ys[1..][k].rowId by {
        forall k | 0 <= k < |ys[1..]|
          ensures ys[0].rowId <= ys[1..][k].rowId
        {
          assert ys[1..][k] == ys[k + 1];
        }
      }
      BoundSurvivesInsert(ys[0].rowId, x, ys[1..], rest);
      SortedCons(ys[0], rest);
      [ys[0]] + rest
  }

  lemma SortedCons(y: BasePathEntry, rest: seq<BasePathEntry>)
    requires Sorted(rest)
    requires forall k :: 0 <= k < |rest| ==> y.rowId <= rest[k].rowId
    ensures Sorted([y] + rest)
  {
    var r := [y] + rest;
    forall i, j | 0 <= i < j < |r|
      ensures !EntryLess(r[j], r[i])
    {
      assert r[j] == rest[j - 1];
      if i > 0 {
        assert r[i] == rest[i - 1];
      }
    }
  }

  /** A lower bound on the ids of `zs` and of `x` bounds every
      permutation of `zs` with `x` added. */
  lemma BoundSurvivesInsert(b: int, x: BasePathEntry, zs: seq<BasePathEntry>, rest: seq<BasePathEntry>)
    requires b <= x.rowId
    requires forall k :: 0 <= k < |zs| ==> b <= zs[k].rowId
    requires multiset(rest) == multiset(zs) + multiset{x}
    ensures forall k :: 0 <= k < |rest| ==> b <= rest[k].rowId
  {
    forall k | 0 <= k < |rest|
      ensures b <= rest[k].rowId
    {
      assert rest[k] in multiset(rest);
      if rest[k] != x {
        assert rest[k] in multiset(zs);
        var i :| 0 <= i < |zs| && zs[i] == rest[k];
      }
    }
  }

  /** `list.sort()` on the cached entries: a stable sort by id. */
  function SortEntries(xs: seq<BasePathEntry>): (r: seq<BasePathEntry>)
    ensures Sorted(r)
    ensures multiset(r) == multiset(xs)
    decreases |xs|
  {
    if |xs| == 0 then []
    else
      assert xs == [xs[0]] + xs[1..];
      Insert(xs[0], SortEntries(xs[1..]))
  }

  lemma {:induction false} InsertKeepsIdOrder(x: BasePathEntry, ys: seq<BasePathEntry>, id: int)
    requires Sorted(ys)
    ensures WithId(Insert(x, ys), id) == (if x.rowId == id then [x] else []) + WithId(ys, id)
    decreases |ys|
  {
    var own := if x.rowId == id then [x] else [];
    if |ys| > 0 && EntryLess(ys[0], x) {
      InsertKeepsIdOrder(x, ys[1..], id);
      var rest := Insert(x, ys[1..]);
      var head := if ys[0].rowId == id then [ys[0]] else [];
      assert ys == [ys[0]] + ys[1..];
      WithIdCons(ys[0], ys[1..], id);
      WithIdCons(ys[0], rest, id);
      assert head == [] || own == [];
      calc {
        WithId([ys[0]] + rest, id);
        head + WithId(rest, id);
        head + (own + WithId(ys[1..], id));
        own + (head + WithId(ys[1..], id));
      }
    } else {
      WithIdCons(x, ys, id);
    }
  }

  lemma WithIdCons(a: BasePathEntry, s: seq<BasePathEntry>, id: int)
    ensures WithId([a] + s, id) == (if a.rowId == id then [a] else []) + WithId(s, id)
  {
    assert ([a] + s)[1..] == s;
  }

  /** The sort is stable: entries sharing an id keep their relative order. */
  lemma {:induction false} SortIsStable(xs: seq<BasePathEntry>, id: int)
    ensures WithId(SortEntries(xs), id) == WithId(xs, id)
    decreases |xs|
  {
    if |xs| > 0 {
      SortIsStable(xs[1..], id);
      InsertKeepsIdOrder(xs[0], SortEntries(xs[1..]), id);
    }
  }

  datatype GatherProcess = GatherProcess(basePaths: seq<BasePathEntry>, gatherers: seq<FileGatherer>)

  /** `_cache_base_paths_from_database`: what the gatherer's layer returns,
      unsorted. */
  function CacheBasePathsFromDatabase(s: Store): (r: Result<seq<BasePathEntry>, CatalogError>)
    ensures r.Err? <==> SelectBasePaths in s.failing
    ensures r.Ok? ==> |r.value| == |s.basePaths|
    ensures r.Ok? ==> forall i :: 0 <= i < |s.basePaths| ==>
              r.value[i].rowId == s.basePaths[i].rowId && r.value[i].path == s.basePaths[i].path
  {
    GathererDatabase.GetBasePaths(s)
  }

  /** The constructor: the cached paths, sorted, and one gatherer per path
      whose document root is that path. A failing select escapes. */
  function NewGatherProcess(s: Store): (r: Result<GatherProcess, CatalogError>)
    ensures r.Err? <==> SelectBasePaths in s.failing
    ensures r.Ok? ==> Sorted(r.value.basePaths)
    ensures r.Ok? ==> multiset(r.value.basePaths) == multiset(CacheBasePathsFromDatabase(s).value)
    ensures r.Ok? ==> |r.value.gatherers| == |r.value.basePaths|
    ensures r.Ok? ==> forall i :: 0 <= i < |r.value.basePaths| ==>
              DocumentRoot(r.value.gatherers[i]) == r.value.basePaths[i].path
  {
    match CacheBasePathsFromDatabase(s)
    case Err(e) => Err(e)
    case Ok(cached) =>
      var sorted := SortEntries(cached);
      Ok(GatherProcess(sorted, seq(|sorted|, i requires 0 <= i < |sorted| => NewFileGatherer(sorted[i].path))))
  }
}

=== FILE: gatherer_database.dfy ===
/** The gatherer's own, smaller `DatabaseLayer` (`gatherer/database_layer.py`).
    Its `get_base_paths` and `verify_file_state` issue the same statements as
    the shared layer and are stated here against the shared tables;
    `add_file_record` is a stub that only prints. */
module GathererDatabase {
  import opened Wrappers
  import opened Catalog

  /** `get_base_paths`: one entry per row, in row order, with `id` the rowid
      and `path` the path. */
  function GetBasePaths(s: Store): (r: Result<seq<BasePathEntry>, CatalogError>)
    ensures r.Err? <==> SelectBasePaths in s.failing
    ensures r.Ok? ==> |r.value| == |s.basePaths|
    ensures r.Ok? ==> forall i :: 0 <= i < |s.basePaths| ==>
              r.value[i].rowId == s.basePaths[i].rowId && r.value[i].path == s.basePaths[i].path
  {
    Catalog.GetBasePaths(s)
  }

  /** `verify_file_state`: MISSING without a row for the key; with one, MATCHED
      iff its stored digest equals `hash`, else MODIFIED. */
  function VerifyFileState(s: Store, basePathId: int, filename: string, hash: string): (r: Result<FileMatchState, CatalogError>)
    ensures r.Err? <==> SelectFileHash in s.failing
    ensures r.Ok? && FindFileRow(s.fileHashes, basePathId, filename).None? ==> r.value == Missing
    ensures r.Ok? && FindFileRow(s.fileHashes, basePathId, filename).Some? ==>
              (r.value == Matched <==> FindFileRow(s.fileHashes, basePathId, filename).value.hash == hash) &&
              (r.value == Modified <==> FindFileRow(s.fileHashes, basePathId, filename).value.hash != hash)
  {
    Catalog.VerifyFileState(s, basePathId, filename, hash)
  }

  /** `add_file_record`: the stub writes nothing. */
  function AddFileRecord(s: Store, basePathId: int, filename: string, hash: string): (r: Store)
    ensures r.fileHashes == s.fileHashes && r.basePaths == s.basePaths && r.configItems == s.configItems
    ensures r.failing == s.failing
  {
    s
  }

  /** Since the stub records nothing, a file found MISSING is still MISSING
      after it is "added"; the shared layer's add makes it MATCHED. */
  lemma StubAddLeavesFileMissing(s: Store, basePathId: int, filename: string, hash: string)
    requires VerifyFileState(s, basePathId, filename, hash) == Ok(Missing)
    ensures VerifyFileState(AddFileRecord(s, basePathId, filename, hash), basePathId, filename, hash) == Ok(Missing)
    ensures Catalog.AddFileRecord(s, basePathId, filename, hash).result.Ok? ==>
              VerifyFileState(Catalog.AddFileRecord(s, basePathId, filename, hash).store, basePathId, filename, hash) == Ok(Matched)
  {
    if Catalog.AddFileRecord(s, basePathId, filename, hash).result.Ok? {
      AddThenVerify(s, basePathId, filename, hash);
    }
  }
}

=== FILE: gatherer_service.dfy ===
/** The gatherer service's polling timers (`gatherer/service.py`): each main
    loop tick compares the `last_update` and `library_hash` configuration
    items against what the service last saw and queues a refresh event when
    they change. The clock (`int(time())`, never negative), the configured
    check interval and the database reads are parameters: a read is the value
    the database would answer if it were asked. `CheckForConfigUpdates` and
    `CheckForLibraryUpdates` take reads that returned; `ConfigTick` and
    `LibraryTick` add the exceptions that can escape a tick. */
module GathererService {
  import opened Wrappers
  import Catalog

  const ONE_MINUTE_SECONDS: int := 60
  const UNKNOWN_LIBRARY_HASH: string := "<UNKNOWN>"

  datatype GathererEvent = RefreshConfiguration | RefreshLibrary

  /** `GathererState`; `lastDbUpdate` is `None` once the database answered
      that no `last_update` row exists. */
  datatype GathererState = GathererState(
    lastDbUpdate: Option<int>,
    lastDbUpdateCheck: int,
    configRefreshEventTimestamp: int,
    lastLibraryHash: string,
    lastLibraryCheck: int)

  function InitialState(): (r: GathererState)
    ensures r.lastDbUpdate == Some(0)
    ensures r.lastDbUpdateCheck == 0 && r.configRefreshEventTimestamp == 0 && r.lastLibraryCheck == 0
    ensures r.lastLibraryHash == UNKNOWN_LIBRARY_HASH
  {
    GathererState(Some(0), 0, 0, UNKNOWN_LIBRARY_HASH, 0)
  }

  predicate ConfigCheckDue(st: GathererState, now: nat, interval: int) {
    now >= st.lastDbUpdateCheck + interval
  }

  /** The refresh time after the database part of the config check: moved
      to a minute from now when a due check saw a changed `last_update`. */
  function Scheduled(st: GathererState, now: nat, interval: int, read: Option<int>): int {
    if ConfigCheckDue(st, now, interval) && read != st.lastDbUpdate then now + ONE_MINUTE_SECONDS
    else st.configRefreshEventTimestamp
  }

  /** `_check_for_config_updates`. The read counts only when the check is
      due; a due check records the read and the time; REFRESHCONFIGURATION
      is queued exactly when the scheduled time is set and reached, and then
      the schedule is cleared. Library fields are untouched. */
  function CheckForConfigUpdates(st: GathererState, now: nat, interval: int, read: Option<int>): (r: (GathererState, seq<GathererEvent>))
    ensures ConfigCheckDue(st, now, interval) ==> r.0.lastDbUpdate == read && r.0.lastDbUpdateCheck == now
    ensures !ConfigCheckDue(st, now, interval) ==>
              r.0.lastDbUpdate == st.lastDbUpdate && r.0.lastDbUpdateCheck == st.lastDbUpdateCheck
    ensures var at := Scheduled(st, now, interval, read);
      && (r.1 == [RefreshConfiguration] <==> at != 0 && now >= at)
      && (r.1 == [] <==> !(at != 0 && now >= at))
      && r.0.configRefreshEventTimestamp == (if r.1 == [] then at else 0)
    ensures r.0.lastLibraryHash == st.lastLibraryHash && r.0.lastLibraryCheck == st.lastLibraryCheck
  {
    var checkTime := st.lastDbUpdateCheck + interval;
    var checked :=
      if now >= checkTime then
        (if read != st.lastDbUpdate
         then st.(configRefreshEventTimestamp := now + ONE_MINUTE_SECONDS, lastDbUpdate := read)
         else st).(lastDbUpdateCheck := now)
      else st;
    if checked.configRefreshEventTimestamp != 0 && now >= checked.configRefreshEventTimestamp then
      (checked.(configRefreshEventTimestamp := 0), [RefreshConfiguration])
    else
      (checked, [])
  }

  /** The database is consulted only when the check is due: otherwise the
      answer it would give makes no difference. */
  lemma ConfigReadOnlyWhenDue(st: GathererState, now: nat, interval: int, a: Option<int>, b: Option<int>)
    requires !ConfigCheckDue(st, now, interval)
    ensures CheckForConfigUpdates(st, now, interval, a) == CheckForConfigUpdates(st, now, interval, b)
  {
  }

  /** A change is never acted on in the tick that notices it: the refresh is
      a minute away, and any refresh already pending is pushed back. */
  lemma ChangeDefersRefresh(st: GathererState, now: nat, interval: int, read: Option<int>)
    requires ConfigCheckDue(st, now, interval) && read != st.lastDbUpdate
    ensures CheckForConfigUpdates(st, now, interval, read).1 == []
    ensures CheckForConfigUpdates(st, now, interval, read).0.configRefreshEventTimestamp == now + ONE_MINUTE_SECONDS
  {
  }

  /** Once a change has been noticed, a tick a minute or more later that
      sees no further change queues REFRESHCONFIGURATION and clears the
      schedule. */
  lemma RefreshFollowsAMinuteLater(st: GathererState, now: nat, interval: int, read: Option<int>, later: nat)
    requires ConfigCheckDue(st, now, interval) && read != st.lastDbUpdate
    requires later >= now + ONE_MINUTE_SECONDS
    ensures var mid := CheckForConfigUpdates(st, now, interval, read).0;
      var r := CheckForConfigUpdates(mid, later, interval, read);
      r.1 == [RefreshConfiguration] && r.0.configRefreshEventTimestamp == 0 && r.0.lastDbUpdate == read
  {
    var mid := CheckForConfigUpdates(st, now, interval, read).0;
    assert mid.lastDbUpdate == read;
    assert Scheduled(mid, later, interval, read) == now + ONE_MINUTE_SECONDS;
  }

  /** A second config check at the same instant with the same answer queues
      nothing and changes nothing. */
  lemma ConfigCheckSettles(st: GathererState, now: nat, interval: int, read: Option<int>)
    ensures var r := CheckForConfigUpdates(st, now, interval, read);
      CheckForConfigUpdates(r.0, now, interval, read) == (r.0, [])
  {
    var r := CheckForConfigUpdates(st, now, interval, read);
    assert r.0.configRefreshEventTimestamp == 0 || r.0.configRefreshEventTimestamp > now;
    if ConfigCheckDue(r.0, now, interval) {
      assert ConfigCheckDue(st, now, interval);
      assert r.0.lastDbUpdate == read;
    }
  }

  predicate LibraryCheckDue(st: GathererState, now: nat, interval: int) {
    now >= st.lastLibraryCheck + interval
  }

  /** Python truthiness of the hash read: no row and the empty string are
      both false. */
  predicate Truthy(read: Option<string>) {
    read.Some? && read.value != ""
  }

  /** `_check_for_library_updates` as written: a due check that reads a
      truthy hash different from the last one queues REFRESHLIBRARY and
      records the hash and the time; in every other case nothing changes,
      so an unchanged hash does not move `last_library_check` either.
      Config fields are untouched. */
  function CheckForLibraryUpdates(st: GathererState, now: nat, interval: int, read: Option<string>): (r: (GathererState, seq<GathererEvent>))
    ensures var changed := LibraryCheckDue(st, now, interval) && Truthy(read) && read.value != st.lastLibraryHash;
      && (changed ==> r == (st.(lastLibraryHash := read.value, lastLibraryCheck := now), [RefreshLibrary]))
      && (!changed ==> r == (st, []))
  {
    var checkTime := st.lastLibraryCheck + interval;
    if now >= checkTime then
      if read.None? || read.value == "" then (st, [])
      else if read.value != st.lastLibraryHash then
        (st.(lastLibraryHash := read.value, lastLibraryCheck := now), [RefreshLibrary])
      else (st, [])
    else (st, [])
  }

  lemma LibraryReadOnlyWhenDue(st: GathererState, now: nat, interval: int, a: Option<string>, b: Option<string>)
    requires !LibraryCheckDue(st, now, interval)
    ensures CheckForLibraryUpdates(st, now, interval, a) == CheckForLibraryUpdates(st, now, interval, b)
  {
  }

  /** Because an unchanged hash leaves `last_library_check` where it was,
      once a check is due and finds nothing new, every later tick is due as
      well and reads the database again. */
  lemma UnchangedHashPollsEveryTick(st: GathererState, now: nat, later: nat, interval: int, read: Option<string>)
    requires LibraryCheckDue(st, now, interval)
    requires read == Some(st.lastLibraryHash)
    requires later >= now
    ensures CheckForLibraryUpdates(st, now, interval, read) == (st, [])
    ensures LibraryCheckDue(CheckForLibraryUpdates(st, now, interval, read).0, later, interval)
  {
  }

  /** A concrete instance: with a 60 s interval and the hash unchanged, the
      ticks at 100 and 101 both consult the database. */
  lemma UnchangedHashPollsAtConsecutiveSeconds()
    ensures var st := InitialState().(lastLibraryHash := "abc");
      var r := CheckForLibraryUpdates(st, 100, 60, Some("abc"));
      LibraryCheckDue(st, 100, 60) && LibraryCheckDue(r.0, 101, 60)
  {
  }

  /** The library check with `last_library_check` recorded whenever a truthy
      hash was read, as the field's description ("when library hash was last
      checked") and the config check's handling of `last_db_update_check`
      both suggest. */
  function CheckForLibraryUpdatesIntended(st: GathererState, now: nat, interval: int, read: Option<string>): (r: (GathererState, seq<GathererEvent>))
    ensures LibraryCheckDue(st, now, interval) && Truthy(read) ==>
              r.0 == st.(lastLibraryHash := read.value, lastLibraryCheck := now)
              && (r.1 == [RefreshLibrary] <==> read.value != st.lastLibraryHash)
              && (r.1 == [] <==> read.value == st.lastLibraryHash)
    ensures !(LibraryCheckDue(st, now, interval) && Truthy(read)) ==> r == (st, [])
  {
    if now >= st.lastLibraryCheck + interval && read.Some? && read.value != "" then
      (st.(lastLibraryHash := read.value, lastLibraryCheck := now),
       if read.value != st.lastLibraryHash then [RefreshLibrary] else [])
    else (st, [])
  }

  /** With the correction a check that read a hash is not due again until a
      full positive interval has passed, and it still queues exactly what
      the version as written queues. */
  lemma IntendedCheckWaitsAnInterval(st: GathererState, now: nat, later: nat, interval: int, read: Option<string>)
    requires LibraryCheckDue(st, now, interval) && Truthy(read)
    requires interval > 0 && now <= later < now + interval
    ensures !LibraryCheckDue(CheckForLibraryUpdatesIntended(st, now, interval, read).0, later, interval)
    ensures CheckForLibraryUpdatesIntended(st, now, interval, read).1 == CheckForLibraryUpdates(st, now, interval, read).1
  {
  }

  /** What escapes a tick: `get_entry` or `int()` refusing the configured interval, or the
      database layer's own exception. */
  datatype TickError = IntervalUnreadable | DatabaseRaised(e: Catalog.CatalogError)

  /** A whole tick: the state afterwards, the events queued, and the
      exception that left the tick, if any. */
  datatype Tick = Tick(state: GathererState, events: seq<GathererEvent>, raised: Option<TickError>)

  /** `_check_for_config_updates` with its exceptions. `interval` is `None`
      when `get_entry` or `int()` raises on the configured interval; `read` is what
      `get_config_item_last_update` answers or raises. Both raise before any
      field is assigned, so a raising tick leaves the state as it was and
      queues nothing; the database is asked only when the check is due. */
  function ConfigTick(st: GathererState, now: nat, interval: Option<int>,
                      read: Result<Option<int>, Catalog.CatalogError>): (r: Tick)
    ensures r.raised.Some? ==> r.state == st && r.events == []
    ensures interval.None? ==> r.raised == Some(IntervalUnreadable)
    ensures interval.Some? && ConfigCheckDue(st, now, interval.value) && read.Err? ==>
              r.raised == Some(DatabaseRaised(read.error))
    ensures interval.Some? && !ConfigCheckDue(st, now, interval.value) ==> r.raised.None?
    ensures r.raised.None? ==> interval.Some? && (ConfigCheckDue(st, now, interval.value) ==> read.Ok?)
    ensures r.raised.None? && ConfigCheckDue(st, now, interval.value) ==>
              (r.state, r.events) == CheckForConfigUpdates(st, now, interval.value, read.value)
    ensures r.raised.None? && !ConfigCheckDue(st, now, interval.value) ==>
              r.state.lastDbUpdate == st.lastDbUpdate && r.state.lastDbUpdateCheck == st.lastDbUpdateCheck
    ensures interval.Some? && !ConfigCheckDue(st, now, interval.value) ==>
              r == Tick(CheckForConfigUpdates(st, now, interval.value, None).0,
                        CheckForConfigUpdates(st, now, interval.value, None).1, None)
  {
    match interval
    case None => Tick(st, [], Some(IntervalUnreadable))
    case Some(i) =>
      if ConfigCheckDue(st, now, i) && read.Err? then Tick(st, [], Some(DatabaseRaised(read.error)))
      else
        var answer := if read.Ok? then read.value else None;
        var (next, events) := CheckForConfigUpdates(st, now, i, answer);
        Tick(next, events, None)
  }

  /** `_check_for_library_updates` with its exceptions, as `ConfigTick`:
      `read` is what `get_config_item_library_hash` answers or raises. */
  function LibraryTick(st: GathererState, now: nat, interval: Option<int>,
                       read: Result<Option<string>, Catalog.CatalogError>): (r: Tick)
    ensures r.raised.Some? ==> r.state == st && r.events == []
    ensures interval.None? ==> r.raised == Some(IntervalUnreadable)
    ensures interval.Some? && LibraryCheckDue(st, now, interval.value) && read.Err? ==>
              r.raised == Some(DatabaseRaised(read.error))
    ensures r.raised.None? ==> interval.Some? && (LibraryCheckDue(st, now, interval.value) ==> read.Ok?)
    ensures r.raised.None? && LibraryCheckDue(st, now, interval.value) ==>
              (r.state, r.events) == CheckForLibraryUpdates(st, now, interval.value, read.value)
    ensures interval.Some? && !LibraryCheckDue(st, now, interval.value) ==> r == Tick(st, [], None)
  {
    match interval
    case None => Tick(st, [], Some(IntervalUnreadable))
    case Some(i) =>
      if LibraryCheckDue(st, now, i) && read.Err? then Tick(st, [], Some(DatabaseRaised(read.error)))
      else
        var answer := if read.Ok? then read.value else None;
        var (next, events) := CheckForLibraryUpdates(st, now, i, answer);
        Tick(next, events, None)
  }

  /** A reached refresh fires on a tick that is not due for the database
      check, and cannot be held back by a failing database: the read is
      not made. */
  lemma RefreshFiresWithoutRead(st: GathererState, now: nat, interval: int,
                                read: Result<Option<int>, Catalog.CatalogError>)
    requires !ConfigCheckDue(st, now, interval)
    requires st.configRefreshEventTimestamp != 0 && now >= st.configRefreshEventTimestamp
    ensures ConfigTick(st, now, Some(interval), read).raised.None?
    ensures ConfigTick(st, now, Some(interval), read).events == [RefreshConfiguration]
    ensures ConfigTick(st, now, Some(interval), read).state == st.(configRefreshEventTimestamp := 0)
  {
  }

  /** A database that keeps failing never moves the config timer: each due
      tick raises again with the state unchanged, so no refresh is ever
      scheduled by it. */
  lemma FailingReadNeverSchedules(st: GathererState, now: nat, interval: int, e: Catalog.CatalogError)
    requires ConfigCheckDue(st, now, interval)
    ensures ConfigTick(st, now, Some(interval), Err(e)) == Tick(st, [], Some(DatabaseRaised(e)))
    ensures ConfigCheckDue(ConfigTick(st, now, Some(interval), Err(e)).state, now, interval)
  {
  }
}

=== FILE: image_gathering.dfy ===
/** `ImageGatherer` of the image watcher (`image_watcher/gather_images.py`):
    scans its document root, checking readability with mode "r", and stops
    early when the optional shutdown event is set. */
module ImageGathering {
  import opened Wrappers
  import opened Scanning

  datatype ImageGatherer = ImageGatherer(documentRoot: string)

  /** The constructor; only the document root is state. */
  function NewImageGatherer(documentRoot: string): (g: ImageGatherer)
    ensures g.documentRoot == documentRoot
  {
    ImageGatherer(documentRoot)
  }

  /** The read-only `document_root` property. */
  function DocumentRoot(g: ImageGatherer): string {
    g.documentRoot
  }

  /** The property hands back the constructor argument unchanged. */
  lemma DocumentRootIsConstructorArgument(root: string)
    ensures DocumentRoot(NewImageGatherer(root)) == root
  {
  }

  /** `shutdown_event.is_set()` at each directory; no event never fires. */
  function ShutdownCheck(shutdownEvent: Option<nat -> bool>): nat -> bool {
    match shutdownEvent
    case None => Never
    case Some(isSet) => isSet
  }

  /** `gather`: the scan of the walk of the document root in mode "r". */
  function Gather(g: ImageGatherer, fs: FileSystem, clock: nat -> int, shutdownEvent: Option<nat -> bool>): (r: Result<Catalogue, ScanError>)
    ensures r.Ok? ==> forall d :: d in r.value ==> |r.value[d]| > 0
    ensures r.Ok? ==> Sound(r.value, fs, ReadOnly, fs.walk(g.documentRoot), clock)
    ensures shutdownEvent.None? ==> r == Scanning.Gather(fs, ReadOnly, fs.walk(g.documentRoot), clock, Never)
    ensures var l := fs.walk(g.documentRoot);
      r.Err? <==> exists j :: 0 <= j < FirstShutdown(ShutdownCheck(shutdownEvent), 0, |l|) &&
                    FirstRaise(fs, ReadOnly, l[j].dir, l[j].files).Some?
  {
    Scanning.Gather(fs, ReadOnly, fs.walk(g.documentRoot), clock, ShutdownCheck(shutdownEvent))
  }

  /** A shutdown event first seen set at the `k`-th directory yields
      exactly the scan of the first `k` directories of the walk. */
  lemma ShutdownReturnsWhatWasGathered(g: ImageGatherer, fs: FileSystem, clock: nat -> int, isSet: nat -> bool)
    ensures var listings := fs.walk(g.documentRoot);
      var k := FirstShutdown(isSet, 0, |listings|);
      Gather(g, fs, clock, Some(isSet)) == Scanning.Gather(fs, ReadOnly, listings[..k], clock, Never)
  {
    ShutdownTruncatesCleanly(fs, ReadOnly, fs.walk(g.documentRoot), clock, isSet);
  }
}

=== FILE: scanning.dfy ===
/** The directory scan that both gatherers run (`ImageGatherer.gather` and
    `FileGatherer.gather_images`): walk the document root, keep every file
    that opens and that the image library verifies, and record its name,
    content digest and scan time under its directory. The file system is an
    oracle: the walk's listing, whether `open` succeeds, what `Image.open` /
    `verify` does, and the MD5 digest of a file. The millisecond clock is
    the oracle `clock`, read once per kept file; `clock(n)` is its `n`-th
    reading. */
module Scanning {
  import opened Wrappers

  /** One `(subdir, _, files)` triple of `os.walk`. */
  datatype Listing = Listing(dir: string, files: seq<string>)

  /** How `Image.open(...)` followed by `img.verify()` ends. */
  datatype ImageProbe = Verified | IoError | SyntaxErr | Unexpected(name: string)

  /** The `open` mode a readability check uses: "r" or "r+". */
  datatype OpenMode = ReadOnly | ReadWrite

  datatype FileSystem = FileSystem(
    walk: string -> seq<Listing>,
    opens: (string, OpenMode) -> bool,
    probe: string -> ImageProbe,
    digest: string -> string)

  /** One `(file, file_hash, scan_time)` tuple. */
  datatype ScanEntry = ScanEntry(filename: string, fileHash: string, scanTime: int)

  /** An exception from the image library that `_is_image` does not catch. */
  datatype ScanError = ImageCheckRaised(path: string, name: string)

  /** `os.path.join(dir, file)` for one component: an absolute `file`
      replaces `dir`; otherwise a separator is inserted unless `dir` is empty
      or already ends in one. */
  function Join(dir: string, file: string): string {
    if |file| > 0 && file[0] == '/' then file
    else if |dir| == 0 || dir[|dir| - 1] == '/' then dir + file
    else dir + "/" + file
  }

  /** The joined path ends with the file name; an absolute name replaces the
      directory, and otherwise the directory is kept as a prefix. */
  lemma JoinKeepsComponents(dir: string, file: string)
    ensures var r := Join(dir, file);
      && |file| <= |r| && r[|r| - |file|..] == file
      && (|file| > 0 && file[0] == '/' ==> r == file)
      && (!(|file| > 0 && file[0] == '/') ==> dir <= r)
  {
  }

  /** `_is_file_readable`: whether `open` in the given mode succeeds; an
      `IOError` is the false case. */
  function IsFileReadable(fs: FileSystem, path: string, mode: OpenMode): bool {
    fs.opens(path, mode)
  }

  /** `_is_image`: a verified image is true, `IOError` and `SyntaxError`
      are false, anything else escapes. */
  function IsImage(fs: FileSystem, path: string): (r: Result<bool, ScanError>)
    ensures r == Ok(true) <==> fs.probe(path) == Verified
    ensures r == Ok(false) <==> fs.probe(path) == IoError || fs.probe(path) == SyntaxErr
    ensures r.Err? <==> fs.probe(path).Unexpected?
  {
    match fs.probe(path)
    case Verified => Ok(true)
    case IoError => Ok(false)
    case SyntaxErr => Ok(false)
    case Unexpected(n) => Err(ImageCheckRaised(path, n))
  }

  /** The reference filter: a file is kept iff it opens and verifies. */
  predicate Kept(fs: FileSystem, mode: OpenMode, dir: string, file: string) {
    fs.opens(Join(dir, file), mode) && fs.probe(Join(dir, file)) == Verified
  }

  /** The names `Kept` admits, in listing order. */
  function Qualifying(fs: FileSystem, mode: OpenMode, dir: string, files: seq<string>): (r: seq<string>)
    ensures |r| <= |files|
    decreases |files|
  {
    if |files| == 0 then []
    else (if Kept(fs, mode, dir, files[0]) then [files[0]] else []) + Qualifying(fs, mode, dir, files[1..])
  }

  /** The reference scan of one directory: the kept files in listing
      order, each with the digest of its joined path and the next clock
      reading from the `start`-th on. */
  function Expected(fs: FileSystem, mode: OpenMode, dir: string, files: seq<string>, start: nat, clock: nat -> int): (r: seq<ScanEntry>)
    ensures |r| == |Qualifying(fs, mode, dir, files)|
    decreases |files|
  {
    if |files| == 0 then []
    else if Kept(fs, mode, dir, files[0]) then
      [ScanEntry(files[0], fs.digest(Join(dir, files[0])), clock(start))] + Expected(fs, mode, dir, files[1..], start + 1, clock)
    else Expected(fs, mode, dir, files[1..], start, clock)
  }

  /** The filter is exact: the `k`-th entry is the `k`-th kept file, with the
      digest of its joined path and the `k`-th clock reading. */
  lemma {:induction false} ExpectedIsExactFilter(fs: FileSystem, mode: OpenMode, dir: string, files: seq<string>, start: nat, clock: nat -> int)
    ensures forall k :: 0 <= k < |Qualifying(fs, mode, dir, files)| ==>
              Expected(fs, mode, dir, files, start, clock)[k] ==
                ScanEntry(Qualifying(fs, mode, dir, files)[k], fs.digest(Join(dir, Qualifying(fs, mode, dir, files)[k])), clock(start + k))
  {
    forall k | 0 <= k < |Qualifying(fs, mode, dir, files)| {
      ExpectedAt(fs, mode, dir, files, start, clock, k);
    }
  }

  lemma {:induction false} ExpectedAt(fs: FileSystem, mode: OpenMode, dir: string, files: seq<string>, start: nat, clock: nat -> int, k: nat)
    requires k < |Qualifying(fs, mode, dir, files)|
    ensures var q := Qualifying(fs, mode, dir, files);
      Expected(fs, mode, dir, files, start, clock)[k] == ScanEntry(q[k], fs.digest(Join(dir, q[k])), clock(start + k))
    decreases |files|
  {
    var q := Qualifying(fs, mode, dir, files);
    var qt := Qualifying(fs, mode, dir, files[1..]);
    var r := Expected(fs, mode, dir, files, start, clock);
    if Kept(fs, mode, dir, files[0]) {
      var rt := Expected(fs, mode, dir, files[1..], start + 1, clock);
      assert q == [files[0]] + qt;
      assert r == [ScanEntry(files[0], fs.digest(Join(dir, files[0])), clock(start))] + rt;
      if k > 0 {
        ExpectedAt(fs, mode, dir, files[1..], start + 1, clock, k - 1);
        assert r[k] == rt[k - 1] && q[k] == qt[k - 1];
      }
    } else {
      assert q == qt;
      assert r == Expected(fs, mode, dir, files[1..], start, clock);
      ExpectedAt(fs, mode, dir, files[1..], start, clock, k);
    }
  }

  /** The image check is only reached for files that open (`and` short-cuts),
      so only those can make it raise. */
  ghost predicate ProbeRaises(fs: FileSystem, mode: OpenMode, dir: string, files: seq<string>) {
    exists i :: 0 <= i < |files| && fs.opens(Join(dir, files[i]), mode) && fs.probe(Join(dir, files[i])).Unexpected?
  }

  lemma ProbeRaisesUnfold(fs: FileSystem, mode: OpenMode, dir: string, files: seq<string>)
    requires |files| > 0
    ensures ProbeRaises(fs, mode, dir, files) <==>
              (fs.opens(Join(dir, files[0]), mode) && fs.probe(Join(dir, files[0])).Unexpected?) || ProbeRaises(fs, mode, dir, files[1..])
  {
    var tail := files[1..];
    if ProbeRaises(fs, mode, dir, tail) {
      var i :| 0 <= i < |tail| && fs.opens(Join(dir, tail[i]), mode) && fs.probe(Join(dir, tail[i])).Unexpected?;
      assert tail[i] == files[i + 1];
    }
    if ProbeRaises(fs, mode, dir, files) {
      var i :| 0 <= i < |files| && fs.opens(Join(dir, files[i]), mode) && fs.probe(Join(dir, files[i])).Unexpected?;
      if i > 0 {
        assert tail[i - 1] == files[i];
      }
    }
  }

  /** The inner loop over one directory's files, reading the clock from its
      `start`-th reading on: the kept entries and the next unread reading. A
      file that does not open is not shown to the image library, and a
      library failure other than `IOError` / `SyntaxError` ends the scan. */
  function ScanDirectory(fs: FileSystem, mode: OpenMode, dir: string, files: seq<string>, start: nat, clock: nat -> int)
    : (r: Result<(seq<ScanEntry>, nat), ScanError>)
    decreases |files|
  {
    if |files| == 0 then Ok(([], start))
    else
      var path := Join(dir, files[0]);
      var check := if IsFileReadable(fs, path, mode) then IsImage(fs, path) else Ok(false);
      match check
      case Err(e) => Err(e)
      case Ok(isImage) =>
        var here := if isImage then [ScanEntry(files[0], fs.digest(path), clock(start))] else [];
        match ScanDirectory(fs, mode, dir, files[1..], start + |here|, clock)
        case Err(e) => Err(e)
        case Ok(rest) => Ok((here + rest.0, rest.1))
  }

  /** The scan of a directory raises iff one of its files opens and then
      makes the image library raise something `_is_image` does not catch. */
  lemma {:induction false} ScanDirectoryRaises(fs: FileSystem, mode: OpenMode, dir: string, files: seq<string>, start: nat, clock: nat -> int)
    ensures ScanDirectory(fs, mode, dir, files, start, clock).Err? <==> ProbeRaises(fs, mode, dir, files)
    decreases |files|
  {
    if |files| > 0 {
      ProbeRaisesUnfold(fs, mode, dir, files);
      var here := if Kept(fs, mode, dir, files[0]) then 1 else 0;
      ScanDirectoryRaises(fs, mode, dir, files[1..], start + here, clock);
    }
  }

  type Catalogue = map<string, seq<ScanEntry>>

  /** What the catalogue built so far promises: no empty list, and each key
      is a walked directory whose entries are that directory's reference
      scan. */
  ghost predicate Sound(acc: Catalogue, fs: FileSystem, mode: OpenMode, listings: seq<Listing>, clock: nat -> int) {
    forall d :: d in acc ==>
      && |acc[d]| > 0
      && exists j, t: nat :: 0 <= j < |listings| && listings[j].dir == d && acc[d] == Expected(fs, mode, d, listings[j].files, t, clock)
  }

  /** What the outer loop does with one directory's scan: the key is first
      reset to an empty list and deleted again if nothing was kept. */
  function Record(acc: Catalogue, dir: string, entries: seq<ScanEntry>): (r: Catalogue)
    ensures |entries| == 0 ==> dir !in r
    ensures |entries| > 0 ==> dir in r && r[dir] == entries
    ensures forall d :: d != dir ==> (d in r <==> d in acc) && (d in r ==> r[d] == acc[d])
  {
    if |entries| == 0 then acc - {dir} else acc[dir := entries]
  }

  lemma RecordKeepsSound(acc: Catalogue, fs: FileSystem, mode: OpenMode, listings: seq<Listing>, clock: nat -> int, i: nat, t: nat)
    requires i < |listings|
    requires Sound(acc, fs, mode, listings[..i], clock)
    ensures Sound(Record(acc, listings[i].dir, Expected(fs, mode, listings[i].dir, listings[i].files, t, clock)), fs, mode, listings[..i + 1], clock)
  {
    var entries := Expected(fs, mode, listings[i].dir, listings[i].files, t, clock);
    var next := Record(acc, listings[i].dir, entries);
    var pre, post := listings[..i], listings[..i + 1];
    forall d | d in next
      ensures exists j, t': nat :: 0 <= j < |post| && post[j].dir == d && next[d] == Expected(fs, mode, d, post[j].files, t', clock)
    {
      if d == listings[i].dir {
        assert post[i] == listings[i];
      } else {
        var j, t': nat :| 0 <= j < |pre| && pre[j].dir == d && acc[d] == Expected(fs, mode, d, pre[j].files, t', clock);
        assert post[j] == pre[j];
      }
    }
  }

  /** A catalogue sound for a prefix of the walk is sound for the walk. */
  lemma SoundForPrefix(acc: Catalogue, fs: FileSystem, mode: OpenMode, listings: seq<Listing>, clock: nat -> int, i: nat)
    requires i <= |listings|
    requires Sound(acc, fs, mode, listings[..i], clock)
    ensures Sound(acc, fs, mode, listings, clock)
  {
    var pre := listings[..i];
    forall d | d in acc
      ensures exists j, t: nat :: 0 <= j < |listings| && listings[j].dir == d && acc[d] == Expected(fs, mode, d, listings[j].files, t, clock)
    {
      var j, t: nat :| 0 <= j < |pre| && pre[j].dir == d && acc[d] == Expected(fs, mode, d, pre[j].files, t, clock);
      assert pre[j] == listings[j];
    }
  }

  /** The outer loop from the `i`-th listing on. `shutdown(i)` is what
      `shutdown_event.is_set()` answers when the `i`-th directory is reached;
      a set event ends the walk with what was gathered. */
  function Walk(fs: FileSystem, mode: OpenMode, listings: seq<Listing>, i: nat, acc: Catalogue, used: nat,
                clock: nat -> int, shutdown: nat -> bool): (r: Result<Catalogue, ScanError>)
    requires i <= |listings|
    decreases |listings| - i
  {
    if i == |listings| || shutdown(i) then Ok(acc)
    else
      var l := listings[i];
      match ScanDirectory(fs, mode, l.dir, l.files, used, clock)
      case Err(e) => Err(e)
      case Ok(scanned) => Walk(fs, mode, listings, i + 1, Record(acc, l.dir, scanned.0), scanned.1, clock, shutdown)
  }

  /** Each directory's scan keeps the catalogue sound, so the walk ends with
      a sound one. */
  lemma {:induction false} WalkIsSound(fs: FileSystem, mode: OpenMode, listings: seq<Listing>, i: nat, acc: Catalogue, used: nat,
                                       clock: nat -> int, shutdown: nat -> bool)
    requires i <= |listings|
    requires Sound(acc, fs, mode, listings[..i], clock)
    ensures var r := Walk(fs, mode, listings, i, acc, used, clock, shutdown);
      r.Ok? ==> Sound(r.value, fs, mode, listings, clock)
    decreases |listings| - i
  {
    if i == |listings| || shutdown(i) {
      SoundForPrefix(acc, fs, mode, listings, clock, i);
    } else {
      var l := listings[i];
      ScanDirectoryIsFilterOrFirstRaise(fs, mode, l.dir, l.files, used, clock);
      match ScanDirectory(fs, mode, l.dir, l.files, used, clock)
      case Err(e) =>
      case Ok(scanned) =>
        RecordKeepsSound(acc, fs, mode, listings, clock, i, used);
        WalkIsSound(fs, mode, listings, i + 1, Record(acc, l.dir, scanned.0), scanned.1, clock, shutdown);
    }
  }

  /** The whole scan over a walk's listings, from an empty catalogue and the
      clock's first reading. No key maps to an empty list, and every key is
      a walked directory whose entries are that directory's reference scan
      (`ExpectedIsExactFilter` spells out what that holds). */
  function Gather(fs: FileSystem, mode: OpenMode, listings: seq<Listing>, clock: nat -> int, shutdown: nat -> bool)
    : (r: Result<Catalogue, ScanError>)
    ensures r.Ok? ==> forall d :: d in r.value ==> |r.value[d]| > 0
    ensures r.Ok? ==> Sound(r.value, fs, mode, listings, clock)
    ensures r.Err? <==> exists j :: 0 <= j < FirstShutdown(shutdown, 0, |listings|) &&
                          FirstRaise(fs, mode, listings[j].dir, listings[j].files).Some?
  {
    WalkIsSound(fs, mode, listings, 0, map[], 0, clock, shutdown);
    WalkRaises(fs, mode, listings, 0, map[], 0, clock, shutdown);
    Walk(fs, mode, listings, 0, map[], 0, clock, shutdown)
  }

  /** A shutdown check that never fires (no event, or one never set). */
  function Never(i: nat): bool {
    false
  }

  /** The index of the first directory at which the shutdown check fires,
      counting from `i`, or the walk's length. */
  function FirstShutdown(shutdown: nat -> bool, i: nat, n: nat): (k: nat)
    requires i <= n
    ensures i <= k <= n
    ensures forall j :: i <= j < k ==> !shutdown(j)
    ensures k < n ==> shutdown(k)
    decreases n - i
  {
    if i == n || shutdown(i) then i else FirstShutdown(shutdown, i + 1, n)
  }

  lemma {:induction false} WalkStopsAtShutdown(fs: FileSystem, mode: OpenMode, listings: seq<Listing>, i: nat, k: nat, acc: Catalogue,
                                               used: nat, clock: nat -> int, shutdown: nat -> bool)
    requires i <= k <= |listings|
    requires forall j :: i <= j < k ==> !shutdown(j)
    requires k < |listings| ==> shutdown(k)
    ensures Walk(fs, mode, listings, i, acc, used, clock, shutdown) == Walk(fs, mode, listings[..k], i, acc, used, clock, Never)
    decreases k - i
  {
    if i < k {
      var l := listings[i];
      assert listings[..k][i] == l;
      match ScanDirectory(fs, mode, l.dir, l.files, used, clock)
      case Err(_) =>
      case Ok(scanned) =>
        WalkStopsAtShutdown(fs, mode, listings, i + 1, k, Record(acc, l.dir, scanned.0), scanned.1, clock, shutdown);
    }
  }

  /** A shutdown that fires at the `k`-th directory gives exactly the scan of
      the first `k` directories: nothing from later directories, nothing
      lost from earlier ones. */
  lemma ShutdownTruncatesCleanly(fs: FileSystem, mode: OpenMode, listings: seq<Listing>, clock: nat -> int, shutdown: nat -> bool)
    ensures var k := FirstShutdown(shutdown, 0, |listings|);
      Gather(fs, mode, listings, clock, shutdown) == Gather(fs, mode, listings[..k], clock, Never)
  {
    var k := FirstShutdown(shutdown, 0, |listings|);
    WalkStopsAtShutdown(fs, mode, listings, 0, k, map[], 0, clock, shutdown);
  }

  lemma {:induction false} WalkKeepsLaterDirectories(fs: FileSystem, mode: OpenMode, listings: seq<Listing>, i: nat, acc: Catalogue,
                                                     used: nat, clock: nat -> int)
    requires i <= |listings|
    requires forall a, b :: 0 <= a < b < |listings| ==> listings[a].dir != listings[b].dir
    requires forall j :: 0 <= j < i && |Qualifying(fs, mode, listings[j].dir, listings[j].files)| > 0 ==> listings[j].dir in acc
    requires Walk(fs, mode, listings, i, acc, used, clock, Never).Ok?
    ensures forall j :: 0 <= j < |listings| && |Qualifying(fs, mode, listings[j].dir, listings[j].files)| > 0 ==>
              listings[j].dir in Walk(fs, mode, listings, i, acc, used, clock, Never).value
    decreases |listings| - i
  {
    if i < |listings| {
      var l := listings[i];
      ScanDirectoryIsFilterOrFirstRaise(fs, mode, l.dir, l.files, used, clock);
      var scanned := ScanDirectory(fs, mode, l.dir, l.files, used, clock).value;
      var next := Record(acc, l.dir, scanned.0);
      assert Walk(fs, mode, listings, i, acc, used, clock, Never) == Walk(fs, mode, listings, i + 1, next, scanned.1, clock, Never);
      forall j | 0 <= j < i + 1 && |Qualifying(fs, mode, listings[j].dir, listings[j].files)| > 0
        ensures listings[j].dir in next
      {
        if j < i {
          assert listings[j].dir != l.dir;
        }
      }
      WalkKeepsLaterDirectories(fs, mode, listings, i + 1, next, scanned.1, clock);
    }
  }

  /** When the walk names each directory once and no shutdown intervenes,
      every directory with at least one kept file is a key: together with
      `Gather`'s contract, the keys are exactly the directories that have
      kept files. */
  lemma EveryNonEmptyDirectoryIsKept(fs: FileSystem, mode: OpenMode, listings: seq<Listing>, clock: nat -> int)
    requires forall a, b :: 0 <= a < b < |listings| ==> listings[a].dir != listings[b].dir
    requires Gather(fs, mode, listings, clock, Never).Ok?
    ensures forall j :: 0 <= j < |listings| && |Qualifying(fs, mode, listings[j].dir, listings[j].files)| > 0 ==>
              listings[j].dir in Gather(fs, mode, listings, clock, Never).value
  {
    WalkKeepsLaterDirectories(fs, mode, listings, 0, map[], 0, clock);
  }

  /** The error a scan of `files` ends with, if any: that of the first file
      that opens and then makes the image library raise. */
  function FirstRaise(fs: FileSystem, mode: OpenMode, dir: string, files: seq<string>): Option<ScanError>
    decreases |files|
  {
    if |files| == 0 then None
    else
      var path := Join(dir, files[0]);
      if fs.opens(path, mode) && fs.probe(path).Unexpected? then Some(ImageCheckRaised(path, fs.probe(path).name))
      else FirstRaise(fs, mode, dir, files[1..])
  }

  /** The scan of a directory is its first raise if there is one, and the
      reference scan otherwise. */
  lemma ScanDirectoryIsFilterOrFirstRaise(fs: FileSystem, mode: OpenMode, dir: string, files: seq<string>,
                                          start: nat, clock: nat -> int)
    ensures var r := ScanDirectory(fs, mode, dir, files, start, clock);
      var e := Expected(fs, mode, dir, files, start, clock);
      && (FirstRaise(fs, mode, dir, files).Some? ==> r == Err(FirstRaise(fs, mode, dir, files).value))
      && (FirstRaise(fs, mode, dir, files).None? ==> r == Ok((e, start + |e|)))
  {
    if FirstRaise(fs, mode, dir, files).Some? {
      ScanEndsAtFirstRaise(fs, mode, dir, files, start, clock);
    } else {
      ScanMatchesExpected(fs, mode, dir, files, start, clock);
    }
  }

  /** A walk raises iff some directory it reaches before the shutdown
      check fires holds a file that opens and makes the image library raise;
      otherwise it succeeds. */
  lemma {:induction false} WalkRaises(fs: FileSystem, mode: OpenMode, listings: seq<Listing>, i: nat, acc: Catalogue, used: nat,
                                      clock: nat -> int, shutdown: nat -> bool)
    requires i <= |listings|
    ensures Walk(fs, mode, listings, i, acc, used, clock, shutdown).Err? <==>
              exists j :: i <= j < FirstShutdown(shutdown, i, |listings|) &&
                FirstRaise(fs, mode, listings[j].dir, listings[j].files).Some?
    decreases |listings| - i
  {
    if i < |listings| && !shutdown(i) {
      var l := listings[i];
      ScanDirectoryIsFilterOrFirstRaise(fs, mode, l.dir, l.files, used, clock);
      match ScanDirectory(fs, mode, l.dir, l.files, used, clock)
      case Err(e) =>
        assert FirstRaise(fs, mode, listings[i].dir, listings[i].files).Some?;
      case Ok(scanned) =>
        WalkRaises(fs, mode, listings, i + 1, Record(acc, l.dir, scanned.0), scanned.1, clock, shutdown);
        assert FirstShutdown(shutdown, i, |listings|) == FirstShutdown(shutdown, i + 1, |listings|);
    }
  }

  lemma {:induction false} ScanEndsAtFirstRaise(fs: FileSystem, mode: OpenMode, dir: string, files: seq<string>,
                                                start: nat, clock: nat -> int)
    requires FirstRaise(fs, mode, dir, files).Some?
    ensures ScanDirectory(fs, mode, dir, files, start, clock) == Err(FirstRaise(fs, mode, dir, files).value)
    decreases |files|
  {
    var path := Join(dir, files[0]);
    if !(fs.opens(path, mode) && fs.probe(path).Unexpected?) {
      var check := if IsFileReadable(fs, path, mode) then IsImage(fs, path) else Ok(false);
      assert check == Ok(Kept(fs, mode, dir, files[0]));
      var here := if Kept(fs, mode, dir, files[0]) then [ScanEntry(files[0], fs.digest(path), clock(start))] else [];
      ScanEndsAtFirstRaise(fs, mode, dir, files[1..], start + |here|, clock);
    }
  }

  lemma {:induction false} ScanMatchesExpected(fs: FileSystem, mode: OpenMode, dir: string, files: seq<string>,
                                               start: nat, clock: nat -> int)
    requires FirstRaise(fs, mode, dir, files).None?
    ensures var e := Expected(fs, mode, dir, files, start, clock);
      ScanDirectory(fs, mode, dir, files, start, clock) == Ok((e, start + |e|))
    decreases |files|
  {
    if |files| > 0 {
      var path := Join(dir, files[0]);
      var check := if IsFileReadable(fs, path, mode) then IsImage(fs, path) else Ok(false);
      assert check == Ok(Kept(fs, mode, dir, files[0]));
      var here := if Kept(fs, mode, dir, files[0]) then [ScanEntry(files[0], fs.digest(path), clock(start))] else [];
      ScanMatchesExpected(fs, mode, dir, files[1..], start + |here|, clock);
      assert Expected(fs, mode, dir, files, start, clock) == here + Expected(fs, mode, dir, files[1..], start + |here|, clock);
    }
  }

  lemma {:induction false} FirstRaiseIgnoresMode(fs: FileSystem, dir: string, files: seq<string>)
    requires forall p :: fs.opens(p, ReadOnly) == fs.opens(p, ReadWrite)
    ensures FirstRaise(fs, ReadOnly, dir, files) == FirstRaise(fs, ReadWrite, dir, files)
    decreases |files|
  {
    if |files| > 0 {
      FirstRaiseIgnoresMode(fs, dir, files[1..]);
    }
  }

  /** The readability check's mode matters only through `open`: when "r"
      and "r+" succeed on the same paths, one directory scans alike in both
      modes. */
  lemma ScanIgnoresModeWhenOpensAgree(fs: FileSystem, dir: string, files: seq<string>, start: nat, clock: nat -> int)
    requires forall p :: fs.opens(p, ReadOnly) == fs.opens(p, ReadWrite)
    ensures ScanDirectory(fs, ReadOnly, dir, files, start, clock) == ScanDirectory(fs, ReadWrite, dir, files, start, clock)
  {
    ScanDirectoryIsFilterOrFirstRaise(fs, ReadOnly, dir, files, start, clock);
    ScanDirectoryIsFilterOrFirstRaise(fs, ReadWrite, dir, files, start, clock);
    FirstRaiseIgnoresMode(fs, dir, files);
    ExpectedIgnoresMode(fs, dir, files, start, clock);
  }

  lemma {:induction false} WalkIgnoresModeWhenOpensAgree(fs: FileSystem, listings: seq<Listing>, i: nat, acc: Catalogue, used: nat,
                                                         clock: nat -> int, shutdown: nat -> bool)
    requires forall p :: fs.opens(p, ReadOnly) == fs.opens(p, ReadWrite)
    requires i <= |listings|
    ensures Walk(fs, ReadOnly, listings, i, acc, used, clock, shutdown) == Walk(fs, ReadWrite, listings, i, acc, used, clock, shutdown)
    decreases |listings| - i
  {
    if i < |listings| && !shutdown(i) {
      var l := listings[i];
      ScanIgnoresModeWhenOpensAgree(fs, l.dir, l.files, used, clock);
      match ScanDirectory(fs, ReadOnly, l.dir, l.files, used, clock)
      case Err(_) =>
      case Ok(scanned) =>
        WalkIgnoresModeWhenOpensAgree(fs, listings, i + 1, Record(acc, l.dir, scanned.0), scanned.1, clock, shutdown);
    }
  }

  lemma {:induction false} ExpectedIgnoresMode(fs: FileSystem, dir: string, files: seq<string>, start: nat, clock: nat -> int)
    requires forall p :: fs.opens(p, ReadOnly) == fs.opens(p, ReadWrite)
    ensures Expected(fs, ReadOnly, dir, files, start, clock) == Expected(fs, ReadWrite, dir, files, start, clock)
    decreases |files|
  {
    if |files| > 0 {
      ExpectedIgnoresMode(fs, dir, files[1..], start, clock);
      ExpectedIgnoresMode(fs, dir, files[1..], start + 1, clock);
    }
  }
}

=== FILE: service_health.dfy ===
/** Health vocabulary of the image watcher: the service status and component
    degradation enumerations with their numeric values and status strings,
    and the process-wide `StateObject` record that carries them. */
module ServiceHealth {
  import opened Wrappers

  datatype ServiceDegradationStatus = Healthy | Degraded | Critical

  /** The enumeration's numeric value. */
  function StatusValue(s: ServiceDegradationStatus): nat {
    match s
    case Healthy => 0
    case Degraded => 1
    case Critical => 2
  }

  /** `ServiceDegradationStatus(v)`: `None` is the `ValueError` case. */
  function StatusFromValue(v: int): Option<ServiceDegradationStatus> {
    if v == 0 then Some(Healthy)
    else if v == 1 then Some(Degraded)
    else if v == 2 then Some(Critical)
    else None
  }

  /** The enumeration has exactly the values 0, 1 and 2, and value and member
      determine each other. */
  lemma StatusValuesExact(s: ServiceDegradationStatus, v: int)
    ensures StatusFromValue(StatusValue(s)) == Some(s)
    ensures StatusFromValue(v).Some? <==> 0 <= v <= 2
    ensures StatusFromValue(v).Some? ==> StatusValue(StatusFromValue(v).value) == v
  {
  }

  /** `ServiceDegradationStatusStr`, a total map. */
  function StatusStr(s: ServiceDegradationStatus): string {
    match s
    case Healthy => "healthy"
    case Degraded => "degraded"
    case Critical => "critical"
  }

  /** The status strings name the members one-to-one. */
  lemma StatusStrInjective(a: ServiceDegradationStatus, b: ServiceDegradationStatus)
    ensures StatusStr(a) == StatusStr(b) <==> a == b
  {
  }

  const STATUS_HEALTHY: string := StatusStr(Healthy)
  const STATUS_DEGRADED: string := StatusStr(Degraded)
  const STATUS_CRITICAL: string := StatusStr(Critical)

  /** The exported status constants are the map's strings. */
  lemma StatusConstants()
    ensures STATUS_HEALTHY == "healthy" && STATUS_DEGRADED == "degraded" && STATUS_CRITICAL == "critical"
  {
  }

  datatype ComponentDegradationLevel = NoDegradation | PartDegraded | FullyDegraded

  function LevelValue(l: ComponentDegradationLevel): nat {
    match l
    case NoDegradation => 0
    case PartDegraded => 1
    case FullyDegraded => 2
  }

  function LevelFromValue(v: int): Option<ComponentDegradationLevel> {
    if v == 0 then Some(NoDegradation)
    else if v == 1 then Some(PartDegraded)
    else if v == 2 then Some(FullyDegraded)
    else None
  }

  /** NONE = 0, PART_DEGRADED = 1, FULLY_DEGRADED = 2 and nothing else. */
  lemma LevelValuesExact(l: ComponentDegradationLevel, v: int)
    ensures LevelFromValue(LevelValue(l)) == Some(l)
    ensures LevelFromValue(v).Some? <==> 0 <= v <= 2
    ensures LevelFromValue(v).Some? ==> LevelValue(LevelFromValue(v).value) == v
  {
  }

  /** `ComponentDegradationLevelStr`, a total map. */
  function LevelStr(l: ComponentDegradationLevel): string {
    match l
    case NoDegradation => "none"
    case PartDegraded => "partial"
    case FullyDegraded => "fully_degraded"
  }

  /** Reading a level back from its string. */
  function LevelFromStr(s: string): (r: Option<ComponentDegradationLevel>)
    ensures r.Some? ==> LevelStr(r.value) == s
  {
    if s == "none" then Some(NoDegradation)
    else if s == "partial" then Some(PartDegraded)
    else if s == "fully_degraded" then Some(FullyDegraded)
    else None
  }

  /** The level strings are one-to-one: each level's string reads back as that
      level. */
  lemma LevelStrRoundTrip(l: ComponentDegradationLevel)
    ensures LevelFromStr(LevelStr(l)) == Some(l)
  {
  }

  const COMPONENT_DEGRADATION_LEVEL_NONE: string := LevelStr(NoDegradation)
  const COMPONENT_DEGRADATION_LEVEL_DEGRADED: string := LevelStr(PartDegraded)
  const COMPONENT_DEGRADATION_LEVEL_FULLY_DEGRADED: string := LevelStr(FullyDegraded)

  lemma LevelConstants()
    ensures COMPONENT_DEGRADATION_LEVEL_NONE == "none"
    ensures COMPONENT_DEGRADATION_LEVEL_DEGRADED == "partial"
    ensures COMPONENT_DEGRADATION_LEVEL_FULLY_DEGRADED == "fully_degraded"
  {
  }

  /** The service's shared health record. */
  datatype StateObject = StateObject(
    serviceHealth: ComponentDegradationLevel,
    serviceHealthStateStr: string,
    databaseHealth: ComponentDegradationLevel,
    databaseHealthStateStr: string,
    version: string,
    startupTime: int)

  /** Python's `int()` on a float: truncation toward zero. */
  function TruncateToInt(x: real): (r: int)
    ensures x >= 0.0 ==> r as real <= x < r as real + 1.0
    ensures x < 0.0 ==> r as real - 1.0 < x <= r as real
  {
    if x >= 0.0 then x.Floor else -((-x).Floor)
  }

  /** `StateObject()` with every default, where `clock` is the value
      `time.time()` returns at construction. */
  function NewStateObject(clock: real): (s: StateObject)
    ensures s.serviceHealth == NoDegradation && s.databaseHealth == NoDegradation
    ensures s.serviceHealthStateStr == "" && s.databaseHealthStateStr == "" && s.version == ""
    ensures clock >= 0.0 ==> s.startupTime as real <= clock < s.startupTime as real + 1.0
  {
    StateObject(NoDegradation, "", NoDegradation, "", "", TruncateToInt(clock))
  }
}

=== FILE: sqlite_interface.dfy ===
/** `BaseSqliteInterface`: validates the database file's header before every
    query, shapes what the SQL engine returns, and turns every engine error
    into `SqliteInterfaceException`. The file system and the SQL engine are
    oracles: a `DbFile` says whether the file exists and what its bytes are,
    and `engine` says what executing one statement yields. */
module SqliteInterface {
  import opened Wrappers

  newtype Byte = b: int | 0 <= b < 256

  /** `SQLITE_HEADER`, the 16 bytes every SQLite 3 database file starts with. */
  const SQLITE_HEADER: seq<Byte> := [83, 81, 76, 105, 116, 101, 32, 102, 111, 114, 109, 97, 116, 32, 51, 0]

  /** The header bytes spell "SQLite format 3" followed by a NUL. */
  lemma HeaderSpellsFormatName()
    ensures |SQLITE_HEADER| == |"SQLite format 3\0"| == 16
    ensures forall i :: 0 <= i < 16 ==> SQLITE_HEADER[i] as int == "SQLite format 3\0"[i] as int
  {
  }

  /** The database file as the file system shows it: `present` is what
      `os.path.exists` answers, `contents` what `open(..., "rb")` reads,
      `None` when opening raises `OSError`. */
  datatype DbFile = DbFile(present: bool, contents: Option<seq<Byte>>)

  datatype SqlValue = SqlNull | SqlInt(i: int) | SqlText(t: string)

  type Row = seq<SqlValue>

  /** One SQL statement as handed to the engine: a single `execute` or an
      `executemany` over several parameter tuples. */
  datatype Statement =
    | Single(sql: string, params: seq<SqlValue>)
    | Batch(sql: string, paramSets: seq<seq<SqlValue>>)

  /** What the cursor reports after a statement ran. */
  datatype Cursor = Cursor(rows: seq<Row>, hasDescription: bool, rowCount: int, lastRowId: int)

  /** The engine oracle's answer: the statement ran, or `sqlite3.Error`. */
  datatype Execution = Executed(cursor: Cursor) | SqlFailure(message: string)

  datatype Database = Database(file: DbFile, engine: Statement -> Execution)

  datatype InterfaceError = SqliteInterfaceException(message: string)

  /** What `run_query` returns: a row count (commit), one row or the empty
      tuple (fetch one), all rows (a result set), or `None`. */
  datatype QueryResult = RowCount(count: int) | OneRow(row: Row) | AllRows(rows: seq<Row>) | NoResult

  /** `file.read(n)`: at most the first `n` bytes. */
  function ReadUpTo(contents: seq<Byte>, n: nat): (r: seq<Byte>)
    ensures r <= contents && |r| <= n
    ensures |contents| >= n ==> |r| == n
  {
    if |contents| <= n then contents else contents[..n]
  }

  /** `is_valid_database`. */
  function IsValidDatabase(file: DbFile): (r: bool)
    ensures r <==> file.contents.Some? && |file.contents.value| >= 16 && file.contents.value[..16] == SQLITE_HEADER
  {
    match file.contents
    case None => false
    case Some(bytes) => ReadUpTo(bytes, |SQLITE_HEADER|) == SQLITE_HEADER
  }

  /** `ensure_valid`: `None` when the file may be used, otherwise the
      exception it raises. A missing file is reported before the header is
      looked at. */
  function EnsureValid(file: DbFile): (r: Option<InterfaceError>)
    ensures !file.present ==> r == Some(SqliteInterfaceException("Database file does not exist"))
    ensures file.present ==> (r.None? <==> IsValidDatabase(file))
    ensures file.present && !IsValidDatabase(file) ==> r == Some(SqliteInterfaceException("Database file format is not valid"))
  {
    if !file.present then Some(SqliteInterfaceException("Database file does not exist"))
    else if !IsValidDatabase(file) then Some(SqliteInterfaceException("Database file format is not valid"))
    else None
  }

  /** Whether an operation that validates first gets as far as the engine. */
  predicate Reaches(db: Database) {
    EnsureValid(db.file).None?
  }

  /** `run_query`. */
  function RunQuery(db: Database, stmt: Statement, fetchOne: bool, commit: bool): (r: Result<QueryResult, InterfaceError>)
    ensures !Reaches(db) ==> r == Err(EnsureValid(db.file).value)
    ensures Reaches(db) && db.engine(stmt).SqlFailure? ==>
              r == Err(SqliteInterfaceException("Query error: " + db.engine(stmt).message))
    ensures Reaches(db) && db.engine(stmt).Executed? ==> r.Ok?
    ensures r.Ok? && commit ==> r.value == RowCount(db.engine(stmt).cursor.rowCount)
    ensures r.Ok? && !commit && fetchOne ==> r.value.OneRow?
    ensures r.Ok? && !commit && fetchOne && |db.engine(stmt).cursor.rows| > 0 ==>
              r.value == OneRow(db.engine(stmt).cursor.rows[0])
    ensures r.Ok? && !commit && fetchOne && |db.engine(stmt).cursor.rows| == 0 ==> r.value == OneRow([])
    ensures r.Ok? && !commit && !fetchOne ==>
              (r.value.AllRows? <==> db.engine(stmt).cursor.hasDescription) && (r.value.NoResult? <==> !db.engine(stmt).cursor.hasDescription)
    ensures r.Ok? && r.value.AllRows? ==> r.value.rows == db.engine(stmt).cursor.rows
  {
    match EnsureValid(db.file)
    case Some(e) => Err(e)
    case None =>
      match db.engine(stmt)
      case SqlFailure(m) => Err(SqliteInterfaceException("Query error: " + m))
      case Executed(c) =>
        if commit then Ok(RowCount(c.rowCount))
        else if fetchOne then Ok(OneRow(if |c.rows| > 0 then c.rows[0] else []))
        else if c.hasDescription then Ok(AllRows(c.rows))
        else Ok(NoResult)
  }

  /** With `commit` set, `fetch_one` makes no difference. */
  lemma CommitTakesPrecedence(db: Database, stmt: Statement)
    ensures RunQuery(db, stmt, true, true) == RunQuery(db, stmt, false, true)
  {
  }

  /** `insert_query`: the new row id, or the translated error. */
  function InsertQuery(db: Database, stmt: Statement): (r: Result<int, InterfaceError>)
    ensures !Reaches(db) ==> r == Err(EnsureValid(db.file).value)
    ensures Reaches(db) && db.engine(stmt).SqlFailure? ==>
              r == Err(SqliteInterfaceException("Insert query failed: " + db.engine(stmt).message))
    ensures Reaches(db) && db.engine(stmt).Executed? ==> r == Ok(db.engine(stmt).cursor.lastRowId)
  {
    match EnsureValid(db.file)
    case Some(e) => Err(e)
    case None =>
      match db.engine(stmt)
      case SqlFailure(m) => Err(SqliteInterfaceException("Insert query failed: " + m))
      case Executed(c) => Ok(c.lastRowId)
  }

  /** `bulk_insert_query`: true, or the translated error; never false. */
  function BulkInsertQuery(db: Database, sql: string, valueSets: seq<seq<SqlValue>>): (r: Result<bool, InterfaceError>)
    ensures r.Ok? ==> r.value
    ensures !Reaches(db) ==> r == Err(EnsureValid(db.file).value)
    ensures r.Ok? <==> Reaches(db) && db.engine(Batch(sql, valueSets)).Executed?
    ensures Reaches(db) && db.engine(Batch(sql, valueSets)).SqlFailure? ==>
              r == Err(SqliteInterfaceException("Bulk insert query failed: " + db.engine(Batch(sql, valueSets)).message))
  {
    match EnsureValid(db.file)
    case Some(e) => Err(e)
    case None =>
      match db.engine(Batch(sql, valueSets))
      case SqlFailure(m) => Err(SqliteInterfaceException("Bulk insert query failed: " + m))
      case Executed(_) => Ok(true)
  }

  /** `delete_query`: nothing on success, the translated error otherwise. The
      `PRAGMA foreign_keys` statement and the delete are one engine step. */
  function DeleteQuery(db: Database, stmt: Statement): (r: Option<InterfaceError>)
    ensures !Reaches(db) ==> r == EnsureValid(db.file)
    ensures Reaches(db) ==> (r.None? <==> db.engine(stmt).Executed?)
    ensures Reaches(db) && db.engine(stmt).SqlFailure? ==>
              r == Some(SqliteInterfaceException("Delete query failed: " + db.engine(stmt).message))
  {
    match EnsureValid(db.file)
    case Some(e) => Some(e)
    case None =>
      match db.engine(stmt)
      case SqlFailure(m) => Some(SqliteInterfaceException("Delete query failed: " + m))
      case Executed(_) => None
  }

  /** `create_table`: connects without validating the file, so only the
      engine's answer matters. */
  function CreateTable(db: Database, schema: string, tableName: string): (r: Option<InterfaceError>)
    ensures r.None? <==> db.engine(Single(schema, [])).Executed?
    ensures db.engine(Single(schema, [])).SqlFailure? ==>
              r == Some(SqliteInterfaceException("Create table failure for " + tableName + ": " + db.engine(Single(schema, [])).message))
  {
    match db.engine(Single(schema, []))
    case SqlFailure(m) => Some(SqliteInterfaceException("Create table failure for " + tableName + ": " + m))
    case Executed(_) => None
  }

  /** On a missing or malformed file every validating operation fails with
      the validation error before the engine is consulted, while
      `create_table` still runs. */
  lemma ValidationGuardsQueries(db: Database, stmt: Statement, sql: string, valueSets: seq<seq<SqlValue>>,
                                schema: string, tableName: string)
    requires !IsValidDatabase(db.file)
    requires db.engine(Single(schema, [])).Executed?
    ensures EnsureValid(db.file).Some?
    ensures RunQuery(db, stmt, false, false) == Err(EnsureValid(db.file).value)
    ensures InsertQuery(db, stmt) == Err(EnsureValid(db.file).value)
    ensures BulkInsertQuery(db, sql, valueSets) == Err(EnsureValid(db.file).value)
    ensures DeleteQuery(db, stmt) == EnsureValid(db.file)
    ensures CreateTable(db, schema, tableName).None?
  {
  }
}

=== FILE: text.dfy ===
/** Text helpers the Python code gets from its runtime: ASCII case mapping
    (`str.upper`, `str.lower`), decimal rendering of integers (`str(int)`) and
    decimal parsing (`int(str)`). Only the ASCII subset is modelled. */
module Text {
  import opened Wrappers

  function UpperChar(c: char): char {
    if 'a' <= c <= 'z' then (c as int - 32) as char else c
  }

  function LowerChar(c: char): char {
    if 'A' <= c <= 'Z' then (c as int + 32) as char else c
  }

  /** `s.upper()` restricted to ASCII letters. */
  function Upper(s: string): (r: string)
    ensures |r| == |s|
    ensures forall i :: 0 <= i < |s| ==> r[i] == UpperChar(s[i])
  {
    seq(|s|, i requires 0 <= i < |s| => UpperChar(s[i]))
  }

  /** `s.lower()` restricted to ASCII letters. */
  function Lower(s: string): (r: string)
    ensures |r| == |s|
    ensures forall i :: 0 <= i < |s| ==> r[i] == LowerChar(s[i])
  {
    seq(|s|, i requires 0 <= i < |s| => LowerChar(s[i]))
  }

  predicate IsDigit(c: char) {
    '0' <= c <= '9'
  }

  predicate AllDigits(s: string) {
    forall i :: 0 <= i < |s| ==> IsDigit(s[i])
  }

  function DigitValue(c: char): nat
    requires IsDigit(c)
  {
    c as int - '0' as int
  }

  function DigitChar(d: nat): (c: char)
    requires d < 10
    ensures IsDigit(c) && DigitValue(c) == d
  {
    ('0' as int + d) as char
  }

  /** The value of a non-empty run of decimal digits, most significant first. */
  function DigitsValue(s: string): nat
    requires AllDigits(s)
    decreases |s|
  {
    if |s| == 0 then 0 else DigitsValue(s[..|s| - 1]) * 10 + DigitValue(s[|s| - 1])
  }

  /** Shortest decimal rendering of a natural number. */
  function NatToDigits(n: nat): (r: string)
    ensures 0 < |r| && AllDigits(r)
  {
    if n < 10 then [DigitChar(n)] else NatToDigits(n / 10) + [DigitChar(n % 10)]
  }

  /** `str(n)` for a Python int. */
  function IntToString(n: int): string {
    if n < 0 then "-" + NatToDigits(-n) else NatToDigits(n)
  }

  /** The characters `int()` strips around ASCII text: space, tab, line
      feed, vertical tab, form feed and carriage return. The separators
      0x1C-0x1F count for `str.isspace()` but not here, so `int("\x1c5")`
      raises. */
  predicate IsSpace(c: char) {
    c == ' ' || 9 <= c as int <= 13
  }

  predicate AllSpace(s: string) {
    forall i :: 0 <= i < |s| ==> IsSpace(s[i])
  }

  /** Drops the leading whitespace. */
  function StripLeft(s: string): (r: string)
    ensures |r| <= |s| && r == s[|s| - |r|..]
    ensures |r| > 0 ==> !IsSpace(r[0])
    ensures AllSpace(s[..|s| - |r|])
    decreases |s|
  {
    if 0 < |s| && IsSpace(s[0]) then StripLeft(s[1..]) else s
  }

  /** Drops the trailing whitespace. */
  function StripRight(s: string): (r: string)
    ensures |r| <= |s| && r == s[..|r|]
    ensures |r| > 0 ==> !IsSpace(r[|r| - 1])
    ensures AllSpace(s[|r|..])
    decreases |s|
  {
    if 0 < |s| && IsSpace(s[|s| - 1]) then StripRight(s[..|s| - 1]) else s
  }

  /** `s.strip()` with no argument. */
  function Strip(s: string): (r: string)
    ensures |r| <= |s|
    ensures |r| > 0 ==> !IsSpace(r[0]) && !IsSpace(r[|r| - 1])
  {
    StripRight(StripLeft(s))
  }

  /** Digits in which a single underscore may separate two digits, as
      integer literals allow since Python 3.6: `1_000` but not `_1`, `1_` or
      `1__0`. */
  predicate GroupedDigits(s: string) {
    && 0 < |s| && IsDigit(s[0]) && IsDigit(s[|s| - 1])
    && (forall i :: 0 <= i < |s| ==> IsDigit(s[i]) || s[i] == '_')
    && (forall i :: 0 <= i < |s| - 1 && s[i] == '_' ==> s[i + 1] != '_')
  }

  /** The digits of a grouped run, separators dropped. */
  function Ungrouped(s: string): (r: string)
    requires forall i :: 0 <= i < |s| ==> IsDigit(s[i]) || s[i] == '_'
    ensures AllDigits(r) && |r| <= |s|
    ensures AllDigits(s) ==> r == s
    decreases |s|
  {
    if |s| == 0 then []
    else (if s[0] == '_' then [] else [s[0]]) + Ungrouped(s[1..])
  }

  /** What `int()` accepts once whitespace is stripped: an optional sign
      and a run of decimal digits, possibly grouped by single underscores. */
  function ParseSigned(t: string): (r: Option<int>)
    ensures r.Some? ==> 0 < |t|
  {
    if 0 < |t| && (t[0] == '-' || t[0] == '+') then
      var digits := t[1..];
      if GroupedDigits(digits) then
        var v: int := DigitsValue(Ungrouped(digits));
        Some(if t[0] == '-' then -v else v)
      else None
    else if GroupedDigits(t) then Some(DigitsValue(Ungrouped(t)))
    else None
  }

  /** `int(s)` on a string: surrounding whitespace is ignored, anything
      `ParseSigned` refuses is the `ValueError` case, here `None`. */
  function ParseInt(s: string): (r: Option<int>)
    ensures r.Some? ==> 0 < |s|
  {
    ParseSigned(Strip(s))
  }

  lemma {:induction false} DigitsRoundTrip(n: nat)
    ensures DigitsValue(NatToDigits(n)) == n
  {
    if n >= 10 {
      var s := NatToDigits(n / 10) + [DigitChar(n % 10)];
      assert s[..|s| - 1] == NatToDigits(n / 10);
      DigitsRoundTrip(n / 10);
    }
  }

  /** A string without surrounding whitespace is its own strip. */
  lemma StripUnpadded(s: string)
    requires 0 < |s| && !IsSpace(s[0]) && !IsSpace(s[|s| - 1])
    ensures Strip(s) == s
  {
  }

  lemma ParseDigits(n: nat)
    ensures ParseSigned(NatToDigits(n)) == Some(n)
  {
    var d := NatToDigits(n);
    assert GroupedDigits(d);
    DigitsRoundTrip(n);
  }

  lemma ParseNegative(n: nat)
    requires 0 < n
    ensures ParseSigned("-" + NatToDigits(n)) == Some(-(n as int))
  {
    var d := NatToDigits(n);
    assert ("-" + d)[1..] == d;
    assert GroupedDigits(d);
    DigitsRoundTrip(n);
  }

  /** Parsing what `str` renders gives the integer back. */
  lemma IntStringRoundTrip(n: int)
    ensures ParseInt(IntToString(n)) == Some(n)
  {
    var s := IntToString(n);
    StripUnpadded(s);
    if n < 0 {
      ParseNegative(-n);
    } else {
      ParseDigits(n);
    }
  }

  /** Whitespace added at the front of a string changes nothing `int()`
      sees. */
  lemma ParseIgnoresLeadingSpace(c: char, s: string)
    requires IsSpace(c)
    ensures ParseInt([c] + s) == ParseInt(s)
  {
    assert ([c] + s)[1..] == s;
    assert StripLeft([c] + s) == StripLeft(s);
  }

  lemma {:induction false} StripLeftAppend(s: string, c: char)
    requires IsSpace(c)
    ensures StripLeft(s + [c]) == if AllSpace(s) then [] else StripLeft(s) + [c]
    decreases |s|
  {
    if |s| == 0 {
      assert StripLeft([c]) == StripLeft([c][1..]);
    } else if IsSpace(s[0]) {
      assert (s + [c])[1..] == s[1..] + [c];
      StripLeftAppend(s[1..], c);
    }
  }

  lemma StripOfSpace(s: string)
    requires AllSpace(s)
    ensures Strip(s) == []
  {
  }

  /** Whitespace added at the end of a string changes nothing `int()`
      sees. */
  lemma ParseIgnoresTrailingSpace(s: string, c: char)
    requires IsSpace(c)
    ensures ParseInt(s + [c]) == ParseInt(s)
  {
    StripLeftAppend(s, c);
    if AllSpace(s) {
      StripOfSpace(s);
    } else {
      var l := StripLeft(s);
      assert (l + [c])[..|l|] == l;
      assert StripRight(l + [c]) == StripRight(l);
    }
  }

  /** A string that starts with anything but whitespace, a sign or a digit
      is not a number. */
  lemma NotAnIntFromFirstChar(s: string)
    requires 0 < |s| && !IsSpace(s[0]) && !IsDigit(s[0]) && s[0] != '-' && s[0] != '+'
    ensures ParseInt(s).None?
  {
    var t := StripRight(s);
    assert StripLeft(s) == s;
    assert 0 < |t| && t[0] == s[0];
  }

  /** The separators 0x1C-0x1F are not stripped: text that starts with one
      is not a number, whatever follows. */
  lemma SeparatorsAreNotStripped(c: char, s: string)
    requires 28 <= c as int <= 31
    ensures ParseInt([c] + s).None?
  {
    NotAnIntFromFirstChar([c] + s);
  }

  /** `int("\x1c5")` raises although `int(" 5")` is 5. */
  lemma FileSeparatorExample()
    ensures ParseInt("\U{1C}5").None?
    ensures ParseInt(" 5") == Some(5)
  {
    SeparatorsAreNotStripped('\U{1C}', "5");
    assert "\U{1C}5" == ['\U{1C}'] + "5";
    ParseIgnoresLeadingSpace(' ', "5");
    assert " 5" == [' '] + "5";
    IntStringRoundTrip(5);
    assert IntToString(5) == "5";
  }

  lemma ThousandUngrouped()
    ensures Ungrouped("1_000") == "1000"
  {
    assert "1_000"[1..] == "_000" && "_000"[1..] == "000";
  }

  lemma ThousandValue()
    ensures DigitsValue("1000") == 1000
  {
    assert "1000"[..3] == "100" && "100"[..2] == "10" && "10"[..1] == "1";
  }

  lemma MisplacedSeparators()
    ensures !GroupedDigits("1__0") && !GroupedDigits("_1") && !GroupedDigits("1_")
  {
    assert "1__0"[1] == '_' && "1__0"[2] == '_';
  }

  lemma ThousandParses()
    ensures ParseSigned("1_000") == Some(1000)
  {
    ThousandUngrouped();
    ThousandValue();
    ThousandGrouped();
  }

  lemma ThousandGrouped()
    ensures GroupedDigits("1_000")
  {
  }

  lemma FortyTwoParses()
    ensures ParseSigned("42") == Some(42)
  {
    assert DigitsValue("42") == 42 by {
      assert "42"[..1] == "4";
    }
  }

  /** Separators group digits without changing the value; misplaced
      separators are refused. */
  lemma GroupingExample()
    ensures ParseSigned("1_000") == Some(1000)
    ensures ParseSigned("42") == Some(42)
    ensures ParseSigned("1__0").None? && ParseSigned("_1").None? && ParseSigned("1_").None?
  {
    ThousandParses();
    FortyTwoParses();
    MisplacedSeparators();
  }
}

=== FILE: watcher_database.dfy ===
/** The image watcher's `DatabaseLayer`: every statement goes through a
    "safe" wrapper that turns a `SqliteInterfaceException` into a sentinel
    (`None` or `False`) and latches the shared `StateObject`'s database health
    to FULLY_DEGRADED with the reason "Fatal SQL failure". Logging is not
    modelled. */
module WatcherDatabase {
  import opened Wrappers
  import opened ServiceHealth
  import opened SqliteInterface

  /** What a call returned, the state object afterwards, and the statements
      that reached the engine, in order. */
  datatype Call<T> = Call(value: T, state: StateObject, executed: seq<Statement>)

  const FATAL_SQL_FAILURE: string := "Fatal SQL failure"
  const SELECT_BASE_PATH_ID: string := "SELECT id FROM base_path WHERE PATH = ?"
  const INSERT_BASE_PATH: string := "INSERT INTO base_path(path) VALUES(?)"
  const SELECT_BASE_PATHS: string := "SELECT id, path FROM base_path"
  const INSERT_FILE_ENTRY: string :=
    "INSERT INTO file_entry(base_path_id, subdir, filename, hash, last_modified) VALUES(?,?,?,?,?)"
  const SELECT_FILE_ENTRIES: string :=
    "SELECT file_entry.* FROM file_entry JOIN base_path ON file_entry.base_path_id = base_path.id WHERE base_path.path = ? AND file_entry.subdir = ?"

  /** The assignments every failure branch makes to the state object. */
  function Degrade(st: StateObject): (r: StateObject)
    ensures r.databaseHealth == FullyDegraded && r.databaseHealthStateStr == "Fatal SQL failure"
    ensures r.serviceHealth == st.serviceHealth && r.serviceHealthStateStr == st.serviceHealthStateStr
    ensures r.version == st.version && r.startupTime == st.startupTime
  {
    st.(databaseHealth := FullyDegraded, databaseHealthStateStr := FATAL_SQL_FAILURE)
  }

  /** The state object is either untouched or latched to FULLY_DEGRADED. */
  ghost predicate Latched(before: StateObject, after: StateObject) {
    after == before || after == Degrade(before)
  }

  /** The statement, if validation lets it reach the engine. */
  function Submitted(db: Database, stmt: Statement): (r: seq<Statement>)
    ensures |r| <= 1 && (r == [stmt] <==> Reaches(db))
  {
    if Reaches(db) then [stmt] else []
  }

  /** `_safe_query`: the query's result, or `None` with the health latched. */
  function SafeQuery(st: StateObject, db: Database, stmt: Statement, fetchOne: bool, commit: bool): (r: Call<QueryResult>)
    ensures r.executed == Submitted(db, stmt)
    ensures RunQuery(db, stmt, fetchOne, commit).Ok? ==> r.value == RunQuery(db, stmt, fetchOne, commit).value && r.state == st
    ensures RunQuery(db, stmt, fetchOne, commit).Err? ==> r.value == NoResult && r.state == Degrade(st)
  {
    match RunQuery(db, stmt, fetchOne, commit)
    case Ok(v) => Call(v, st, Submitted(db, stmt))
    case Err(_) => Call(NoResult, Degrade(st), Submitted(db, stmt))
  }

  /** `_safe_insert_query`: the new row id, or `None` with the health
      latched. */
  function SafeInsertQuery(st: StateObject, db: Database, stmt: Statement): (r: Call<Option<int>>)
    ensures r.executed == Submitted(db, stmt)
    ensures r.value.Some? <==> InsertQuery(db, stmt).Ok?
    ensures r.value.Some? ==> r.value.value == InsertQuery(db, stmt).value && r.state == st
    ensures r.value.None? ==> r.state == Degrade(st)
  {
    match InsertQuery(db, stmt)
    case Ok(id) => Call(Some(id), st, Submitted(db, stmt))
    case Err(_) => Call(None, Degrade(st), Submitted(db, stmt))
  }

  /** `_safe_bulk_insert`: true on success, false with the health latched. */
  function SafeBulkInsert(st: StateObject, db: Database, sql: string, valueSets: seq<seq<SqlValue>>): (r: Call<bool>)
    ensures r.executed == Submitted(db, Batch(sql, valueSets))
    ensures r.value <==> BulkInsertQuery(db, sql, valueSets).Ok?
    ensures r.value ==> r.state == st
    ensures !r.value ==> r.state == Degrade(st)
  {
    match BulkInsertQuery(db, sql, valueSets)
    case Ok(b) => Call(b, st, Submitted(db, Batch(sql, valueSets)))
    case Err(_) => Call(false, Degrade(st), Submitted(db, Batch(sql, valueSets)))
  }

  /** The `None` sentinel of `_safe_query` is ambiguous: a statement that
      runs, is not committed and returns no result set also yields it, with
      the health left alone. */
  lemma NoneSentinelIsAmbiguous(st: StateObject)
    ensures
      var db := Database(DbFile(true, Some(SQLITE_HEADER)), (s: Statement) => Executed(Cursor([], false, 0, 0)));
      var r := SafeQuery(st, db, Single("DELETE FROM file_entry", []), false, false);
      r.value == NoResult && r.state == st
  {
  }

  function SelectBasePathId(path: string): Statement {
    Single(SELECT_BASE_PATH_ID, [SqlText(path)])
  }

  function InsertBasePath(path: string): Statement {
    Single(INSERT_BASE_PATH, [SqlText(path)])
  }

  /** What `get_base_path_id` returns: `None`, `0`, or the fetched row. */
  datatype BasePathId = LookupFailed | NoRow | FoundRow(row: Row)

  /** `get_base_path_id`. Note that a found path yields the whole row tuple,
      not its id column. */
  function GetBasePathId(st: StateObject, db: Database, path: string): (r: Call<BasePathId>)
    ensures r.executed == Submitted(db, SelectBasePathId(path))
    ensures r.value.LookupFailed? <==> RunQuery(db, SelectBasePathId(path), true, false).Err?
    ensures r.value.LookupFailed? ==> r.state == Degrade(st)
    ensures !r.value.LookupFailed? ==> r.state == st
    ensures r.value.NoRow? <==> RunQuery(db, SelectBasePathId(path), true, false) == Ok(OneRow([]))
    ensures r.value.FoundRow? ==> 0 < |r.value.row| && r.value.row == db.engine(SelectBasePathId(path)).cursor.rows[0]
  {
    var q := SafeQuery(st, db, SelectBasePathId(path), true, false);
    var value :=
      match q.value
      case OneRow(row) => if |row| == 0 then NoRow else FoundRow(row)
      case _ => LookupFailed;
    Call(value, q.state, q.executed)
  }

  /** What `add_base_path` returns: `None`, `0`, or the new row id. */
  datatype AddResult = ReturnedNone | ReturnedZero | ReturnedRowId(id: int)

  /** The two statement texts differ, so a trace tells them apart. */
  lemma SelectIsNotInsert(path: string)
    ensures SelectBasePathId(path) != InsertBasePath(path)
  {
    assert SELECT_BASE_PATH_ID[0] != INSERT_BASE_PATH[0];
  }

  /** `add_base_path` AS WRITTEN: a failed lookup gives `None`; a lookup that
      finds NO row gives `0` ("already exists") and inserts nothing; only a
      lookup that FOUND the path goes on to insert it. */
  function AddBasePath(st: StateObject, db: Database, path: string): (r: Call<AddResult>)
    ensures var lookup := GetBasePathId(st, db, path).value;
      && (lookup.LookupFailed? ==> r.value == ReturnedNone && InsertBasePath(path) !in r.executed)
      && (lookup.NoRow? ==> r.value == ReturnedZero && InsertBasePath(path) !in r.executed)
      && (InsertBasePath(path) in r.executed <==> lookup.FoundRow?)
      && (lookup.FoundRow? && InsertQuery(db, InsertBasePath(path)).Ok? ==>
            r.value == ReturnedRowId(InsertQuery(db, InsertBasePath(path)).value) && r.state == st)
      && (lookup.FoundRow? && InsertQuery(db, InsertBasePath(path)).Err? ==>
            r.value == ReturnedNone && r.state == Degrade(st))
      && (lookup.LookupFailed? ==> r.state == Degrade(st))
      && (lookup.NoRow? ==> r.state == st)
    ensures Latched(st, r.state)
  {
    SelectIsNotInsert(path);
    var lookup := GetBasePathId(st, db, path);
    match lookup.value
    case LookupFailed => Call(ReturnedNone, lookup.state, lookup.executed)
    case NoRow => Call(ReturnedZero, lookup.state, lookup.executed)
    case FoundRow(_) =>
      var ins := SafeInsertQuery(lookup.state, db, InsertBasePath(path));
      Call(if ins.value.None? then ReturnedNone else ReturnedRowId(ins.value.value), ins.state, lookup.executed + ins.executed)
  }

  /** `add_base_path` as its comments describe it: a path the lookup finds is
      reported as already present (`0`) and not inserted; an absent path is
      inserted. */
  function AddBasePathIntended(st: StateObject, db: Database, path: string): (r: Call<AddResult>)
    ensures var lookup := GetBasePathId(st, db, path).value;
      && (lookup.LookupFailed? ==> r.value == ReturnedNone && InsertBasePath(path) !in r.executed)
      && (lookup.FoundRow? ==> r.value == ReturnedZero && InsertBasePath(path) !in r.executed)
      && (InsertBasePath(path) in r.executed <==> lookup.NoRow?)
      && (lookup.NoRow? && InsertQuery(db, InsertBasePath(path)).Ok? ==>
            r.value == ReturnedRowId(InsertQuery(db, InsertBasePath(path)).value) && r.state == st)
      && (lookup.NoRow? && InsertQuery(db, InsertBasePath(path)).Err? ==>
            r.value == ReturnedNone && r.state == Degrade(st))
      && (lookup.LookupFailed? ==> r.state == Degrade(st))
      && (lookup.FoundRow? ==> r.state == st)
    ensures Latched(st, r.state)
  {
    SelectIsNotInsert(path);
    var lookup := GetBasePathId(st, db, path);
    match lookup.value
    case LookupFailed => Call(ReturnedNone, lookup.state, lookup.executed)
    case FoundRow(_) => Call(ReturnedZero, lookup.state, lookup.executed)
    case NoRow =>
      var ins := SafeInsertQuery(lookup.state, db, InsertBasePath(path));
      Call(if ins.value.None? then ReturnedNone else ReturnedRowId(ins.value.value), ins.state, lookup.executed + ins.executed)
  }

  /** A healthy database where `/photos` is not yet registered: the lookup
      finds no row and the insert would get row id 7. */
  function PhotosAbsent(): Database {
    Database(DbFile(true, Some(SQLITE_HEADER)),
      (s: Statement) => if s == SelectBasePathId("/photos") then Executed(Cursor([], true, -1, 0))
                        else Executed(Cursor([], false, 1, 7)))
  }

  /** The same database once `/photos` is registered with id 1; a unique
      path column makes the engine refuse a second insert of it. */
  function PhotosPresent(): Database {
    Database(DbFile(true, Some(SQLITE_HEADER)),
      (s: Statement) => if s == SelectBasePathId("/photos") then Executed(Cursor([[SqlInt(1)]], true, -1, 0))
                        else SqlFailure("UNIQUE constraint failed: base_path.path"))
  }

  /** The inverted existence check: a new path is refused as if present and
      never stored, while a registered one is inserted again; against a
      unique path column that insert fails, so the call answers `None` and
      marks the database FULLY_DEGRADED. The intended version does the
      opposite and leaves the health alone. */
  lemma AddBasePathCheckIsInverted(st: StateObject)
    ensures AddBasePath(st, PhotosAbsent(), "/photos").value == ReturnedZero
    ensures InsertBasePath("/photos") !in AddBasePath(st, PhotosAbsent(), "/photos").executed
    ensures AddBasePath(st, PhotosPresent(), "/photos").value == ReturnedNone
    ensures AddBasePath(st, PhotosPresent(), "/photos").state == Degrade(st)
    ensures AddBasePathIntended(st, PhotosAbsent(), "/photos").value == ReturnedRowId(7)
    ensures AddBasePathIntended(st, PhotosPresent(), "/photos").value == ReturnedZero
    ensures AddBasePathIntended(st, PhotosPresent(), "/photos").state == st
  {
    SelectIsNotInsert("/photos");
  }

  /** The parameter tuple of `add_file_entry`. */
  datatype FileEntry = FileEntry(basePathId: int, subdir: string, filename: string, fileHash: string, lastModified: int)

  /** The values bound to the insert's placeholders, in tuple order. */
  function FileEntryParams(e: FileEntry): (r: seq<SqlValue>)
    ensures |r| == 5
  {
    [SqlInt(e.basePathId), SqlText(e.subdir), SqlText(e.filename), SqlText(e.fileHash), SqlInt(e.lastModified)]
  }

  /** Reading a stored `file_entry` row back into its fields. */
  function FileEntryFromRow(row: Row): Option<FileEntry> {
    if |row| == 5 && row[0].SqlInt? && row[1].SqlText? && row[2].SqlText? && row[3].SqlText? && row[4].SqlInt? then
      Some(FileEntry(row[0].i, row[1].t, row[2].t, row[3].t, row[4].i))
    else None
  }

  /** Each field lands in its own column: the bound values read back as the
      same entry. */
  lemma FileEntryParamsRoundTrip(e: FileEntry)
    ensures FileEntryFromRow(FileEntryParams(e)) == Some(e)
  {
  }

  /** `add_file_entry`: one insert with the tuple's values in order; its
      result is the insert's result. */
  function AddFileEntry(st: StateObject, db: Database, e: FileEntry): (r: Call<Option<int>>)
    ensures r.executed == Submitted(db, Single(INSERT_FILE_ENTRY, FileEntryParams(e)))
    ensures r.value.Some? <==> InsertQuery(db, Single(INSERT_FILE_ENTRY, FileEntryParams(e))).Ok?
    ensures r.value.Some? ==>
              && r.value.value == InsertQuery(db, Single(INSERT_FILE_ENTRY, FileEntryParams(e))).value
              && r.state == st
    ensures r.value.None? ==> r.state == Degrade(st)
  {
    SafeInsertQuery(st, db, Single(INSERT_FILE_ENTRY, FileEntryParams(e)))
  }

  /** `get_base_paths`: all rows, or `None` with the health latched. */
  function GetBasePaths(st: StateObject, db: Database): (r: Call<QueryResult>)
    ensures r.executed == Submitted(db, Single(SELECT_BASE_PATHS, []))
    ensures Reaches(db) && db.engine(Single(SELECT_BASE_PATHS, [])).Executed?
              && db.engine(Single(SELECT_BASE_PATHS, [])).cursor.hasDescription ==>
              r.value == AllRows(db.engine(Single(SELECT_BASE_PATHS, [])).cursor.rows) && r.state == st
    ensures !Reaches(db) || db.engine(Single(SELECT_BASE_PATHS, [])).SqlFailure? ==>
              r.value == NoResult && r.state == Degrade(st)
    ensures r.value.AllRows? ==>
              && db.engine(Single(SELECT_BASE_PATHS, [])).Executed?
              && r.value.rows == db.engine(Single(SELECT_BASE_PATHS, [])).cursor.rows
              && r.state == st
    ensures r.state != st ==> r.value == NoResult && r.state == Degrade(st)
    ensures Latched(st, r.state)
  {
    SafeQuery(st, db, Single(SELECT_BASE_PATHS, []), false, false)
  }

  /** `get_file_entries_for_directory`. */
  function GetFileEntriesForDirectory(st: StateObject, db: Database, basePath: string, subDir: string): (r: Call<QueryResult>)
    ensures r.executed == Submitted(db, Single(SELECT_FILE_ENTRIES, [SqlText(basePath), SqlText(subDir)]))
    ensures var q := Single(SELECT_FILE_ENTRIES, [SqlText(basePath), SqlText(subDir)]);
      && (Reaches(db) && db.engine(q).Executed? && db.engine(q).cursor.hasDescription ==>
            r.value == AllRows(db.engine(q).cursor.rows) && r.state == st)
      && (Reaches(db) && db.engine(q).Executed? && !db.engine(q).cursor.hasDescription ==>
            r.value == NoResult && r.state == st)
      && (!Reaches(db) || db.engine(q).SqlFailure? ==> r.value == NoResult && r.state == Degrade(st))
    ensures Latched(st, r.state)
  {
    SafeQuery(st, db, Single(SELECT_FILE_ENTRIES, [SqlText(basePath), SqlText(subDir)]), false, false)
  }

  /** One public call on the layer. */
  datatype LayerCall =
    | AddBasePathCall(path: string)
    | AddFileEntryCall(entry: FileEntry)
    | GetBasePathIdCall(path: string)
    | GetBasePathsCall
    | GetFileEntriesCall(basePath: string, subDir: string)
    | BulkInsertCall(sql: string, valueSets: seq<seq<SqlValue>>)

  function StateAfter(st: StateObject, db: Database, c: LayerCall): (r: StateObject)
    ensures Latched(st, r)
  {
    match c
    case AddBasePathCall(p) => AddBasePath(st, db, p).state
    case AddFileEntryCall(e) => AddFileEntry(st, db, e).state
    case GetBasePathIdCall(p) => GetBasePathId(st, db, p).state
    case GetBasePathsCall => GetBasePaths(st, db).state
    case GetFileEntriesCall(b, s) => GetFileEntriesForDirectory(st, db, b, s).state
    case BulkInsertCall(q, v) => SafeBulkInsert(st, db, q, v).state
  }

  /** The state object after a run of calls. */
  function StateAfterAll(st: StateObject, db: Database, calls: seq<LayerCall>): StateObject
    decreases |calls|
  {
    if |calls| == 0 then st else StateAfterAll(StateAfter(st, db, calls[0]), db, calls[1..])
  }

  /** No call of the layer ever assigns a level other than FULLY_DEGRADED: over
      any run of calls the database health either stays what it was or ends
      FULLY_DEGRADED, once FULLY_DEGRADED it stays so, and the service-level
      fields are never touched. */
  lemma {:induction false} DegradationIsNeverCleared(st: StateObject, db: Database, calls: seq<LayerCall>)
    ensures var end := StateAfterAll(st, db, calls);
      && (end.databaseHealth == st.databaseHealth || end.databaseHealth == FullyDegraded)
      && (st.databaseHealth == FullyDegraded ==> end.databaseHealth == FullyDegraded)
      && end.serviceHealth == st.serviceHealth && end.serviceHealthStateStr == st.serviceHealthStateStr
      && end.version == st.version && end.startupTime == st.startupTime
    decreases |calls|
  {
    if |calls| > 0 {
      DegradationIsNeverCleared(StateAfter(st, db, calls[0]), db, calls[1..]);
    }
  }
}

=== FILE: wrappers.dfy ===
/** Failure-carrying datatypes shared by the whole model: `Option` stands for
    a Python value that may be `None`, `Result` for a call that either returns
    or raises. */
module Wrappers {

  datatype Option<+T> = None | Some(value: T) {

    /** The value, or `default` when there is none. */
    function GetOr(default: T): T {
      match this
      case Some(v) => v
      case None => default
    }
  }

  datatype Result<+T, +E> = Ok(value: T) | Err(error: E) {

    predicate IsFailure() {
      Err?
    }

    function PropagateFailure<U>(): Result<U, E>
      requires Err?
    {
      Err(error)
    }

    function Extract(): T
      requires Ok?
    {
      value
    }
  }
}
